=== FILE: README.md ===
# Access control and request shaping of the best-ui-ux-standard demo

The repository is a demo of one line-of-business application shipped as a
Next.js web client, an Expo mobile client and a Tauri desktop shell, plus a
separate ASP.NET Core minimal API (`mvp-performance`) used for load testing.
This project models the deterministic logic that decides who may see and
call what, and how requests are shaped into responses:

- the web client's session store (`login`, `logout`, `switchUser`,
  `hasModuleAccess`, `getPermission`, `canPerform`) as a state record with
  transitions and queries (`AuthStore`);
- the shared fixed tables: application modules, the two-level menu, the three
  derived permission sets and the demo users (`MockData`);
- the sidebar's `filterMenu`, which prunes the menu by module access
  (`Sidebar`);
- the demo REST routes: API-key extraction and validation (`ApiKey`), the
  invoice list with its status and search filters and its `page`/`limit`
  slicing (`InvoicesRoute`, with JavaScript's `parseInt`, `Math.ceil` and
  `slice` in `JsNumber` and `Seqs`), the user list with `moduleCount`
  (`UsersRoute`) and the sign-in route that maps a role to its API key
  (`AuthRoute`);
- the header's initials, role badge, theme toggle and switch-user list
  (`AppHeader`), the CORS middleware (`Middleware`), the mobile root layout's
  redirect rule and theme choice (`MobileLayout`), the mobile icon lookup
  (`Icons`) and the Metro resolver's `react`/`react-dom` rewriting with
  `path.resolve` (`MetroConfig`);
- the benchmarking API's own logic in `Program.cs`: 32-bit offset arithmetic
  and LINQ `Skip`/`Take` paging (`Paging`), and the endpoints' results, the
  cache keys, tags and entry options, the health-check predicates and
  verdicts, the trace filter and the correlation-id choice (`PerfApi`).

Every operation is a pure function over immutable datatypes. The user
directory, the invoice list and the database tables are parameters, so the
properties hold for any table; lemmas instantiate them with the demo
tables where the source relies on their contents. JavaScript's string and
array built-ins live in `Strings` and `Seqs`, the option type in
`Optional`, and the shared record types in `Types`.

## Model

| member | source | states |
|---|---|---|
| AuthStore.FindByEmail | mvp/apps/web/src/stores/auth-store.ts:24 | Nothing is found exactly when no user has that email; a found user is an entry of the table with exactly that email. |
| AuthStore.FindById | mvp/apps/web/src/stores/auth-store.ts:37 | Nothing is found exactly when no user has that id; otherwise the first user of the table with that id. |
| AuthStore.Login | mvp/apps/web/src/stores/auth-store.ts:23-30 | Sign-in succeeds if and only if some user has exactly that email; a failure leaves the state unchanged; a success sets the authenticated flag and records the first table user with that email. |
| AuthStore.Logout | mvp/apps/web/src/stores/auth-store.ts:32-34 | After sign-out no user is recorded and the flag is false. |
| AuthStore.SwitchUser | mvp/apps/web/src/stores/auth-store.ts:36-41 | An unknown id leaves the state unchanged; a known id signs in as the first table user with that id. |
| AuthStore.TransitionsPreserveValid | mvp/apps/web/src/stores/auth-store.ts:20-21 | Sign-in, sign-out and switching each keep "authenticated exactly when a user is recorded". |
| AuthStore.LoginIgnoresPassword | mvp/apps/web/src/stores/auth-store.ts:23 | Two sign-ins that differ only in the password give the same state and result. |
| AuthStore.LoginThenLogout | mvp/apps/web/src/stores/auth-store.ts:23-34 | Signing in and then out returns to the initial state from any state. |
| AuthStore.HasModuleAccess | mvp/apps/web/src/stores/auth-store.ts:43-48 | No access without a user; the superadmin has access to every module id; anyone else has access exactly when some permission names the module and grants viewing. |
| AuthStore.GetPermission | mvp/apps/web/src/stores/auth-store.ts:50-60 | Nothing without a user; for the superadmin an all-true record carrying the requested module id; otherwise the first permission naming the module. |
| AuthStore.CanPerform | mvp/apps/web/src/stores/auth-store.ts:62-66 | Refuses whenever `getPermission` finds no record; which flag a found record supplies is stated by the two lemmas that follow. |
| AuthStore.CanPerformExtremes | mvp/apps/web/src/stores/auth-store.ts:53-57 | The superadmin may perform every action on every module; nobody signed in may perform none. |
| AuthStore.CanPerformReadsFirstMatch | mvp/apps/web/src/stores/auth-store.ts:59 | For a non-superadmin the flag read is that of the first permission naming the module. |
| AuthStore.CanViewImpliesAccess | mvp/apps/web/src/stores/auth-store.ts:43-66 | Viewing allowed by `canPerform` implies `hasModuleAccess`. |
| AuthStore.CanViewAgreesWithAccess | mvp/apps/web/src/stores/auth-store.ts:43-66 | With one permission per module the two queries agree on viewing. |
| AuthStore.DuplicateModulesDisagree | mvp/apps/web/src/stores/auth-store.ts:47 | With two permissions for one module, the first not viewable and the second viewable, access is granted but `canPerform` refuses viewing. |
| MockData.AllPermissionsShape | mvp/packages/shared/src/mock-data.ts:47-50 | The superadmin set has one entry per module, in order, with every flag true. |
| MockData.AdminPermissionsShape | mvp/packages/shared/src/mock-data.ts:52-57 | The admin set covers every module but "users"; it may view, create, edit and export everywhere; it may delete exactly outside "settings"; it never manages users. |
| MockData.UserPermissionsShape | mvp/packages/shared/src/mock-data.ts:59-63 | The user set covers exactly the given ids; create and edit are granted exactly outside dashboard and reports; export only for reports; view always; delete and user management never. |
| MockData.ModuleIdsUnique | mvp/packages/shared/src/mock-data.ts:7-16 | No two application modules share an id. |
| MockData.MenuModulesExist | mvp/packages/shared/src/mock-data.ts:22-41 | Every module id the menu names, top-level or child, is an application module. |
| MockData.ModuleIdList | mvp/packages/shared/src/mock-data.ts:7-16 | The module ids are the eight listed ids, in order. |
| MockData.UsersTable | mvp/packages/shared/src/mock-data.ts:65-81 | The three users are the superadmin, the admin and the regular user, holding the three derived permission sets. |
| MockData.AdminPermissionsFacts | mvp/packages/shared/src/mock-data.ts:52-57 | The admin set covers exactly the module ids other than "users". |
| MockData.UserPermissionsFacts | mvp/packages/shared/src/mock-data.ts:59-63 | The user set covers exactly dashboard, invoices, customers, products and reports. |
| MockData.UsersDistinct | mvp/packages/shared/src/mock-data.ts:65-81 | The demo users have distinct ids, emails and roles, and every role occurs. |
| MockData.DemoUsersDistinct | mvp/packages/shared/src/mock-data.ts:65-81 | The same holds for the user table built over any three permission sets. |
| Sidebar.FilterMenu | mvp/apps/web/src/components/layout/app-sidebar.tsx:21-35 | The result's ids are an order-preserving subsequence of the input's. |
| Sidebar.FilterMenuKeeps | mvp/apps/web/src/components/layout/app-sidebar.tsx:21-35 | A leaf is kept exactly when it has no module or the module is accessible; a group is kept, with its children filtered, exactly when some child survives; every kept group's children are the visible ones. |
| Sidebar.FilterItemStable | mvp/apps/web/src/components/layout/app-sidebar.tsx:23-33 | A kept entry is unchanged by a second pass. |
| Sidebar.FilterMenuIdempotent | mvp/apps/web/src/components/layout/app-sidebar.tsx:21-35 | Filtering twice equals filtering once. |
| Sidebar.GroupModuleIgnored | mvp/apps/web/src/components/layout/app-sidebar.tsx:24-30 | A group's own module id never decides whether it is kept. |
| Sidebar.EmptyGroupRemoved | mvp/apps/web/src/components/layout/app-sidebar.tsx:28 | A group that starts with no children is always removed. |
| Sidebar.FullAccessKeepsItem | mvp/apps/web/src/components/layout/app-sidebar.tsx:23-33 | With access to every module, any leaf and any non-empty group is kept unchanged. |
| Sidebar.FullAccessKeepsAll | mvp/apps/web/src/components/layout/app-sidebar.tsx:21-35 | With access to every module, a menu without empty groups is returned unchanged. |
| Sidebar.VisibleMenuExtremes | mvp/apps/web/src/components/layout/app-sidebar.tsx:19-37 | The superadmin's sidebar is the whole menu; with nobody signed in only leaves without a module remain. |
| Sidebar.RegularUserMenu | mvp/apps/web/src/components/layout/app-sidebar.tsx:37 | With exactly the regular user's access, the top-level entries are dashboard, finance, warehouse and reports. |
| Sidebar.AdminMenu | mvp/apps/web/src/components/layout/app-sidebar.tsx:37 | With exactly the admin's access, the top-level entries are dashboard, finance, warehouse, reports and settings. |
| Sidebar.DemoLogins | mvp/apps/web/src/stores/auth-store.ts:23-30 | Each demo email signs in the matching row of the user table. |
| Sidebar.DemoSidebars | mvp/apps/web/src/components/layout/app-sidebar.tsx:37 | The superadmin sees the whole menu, and the admin and the regular user see their own entry lists. |
| Sidebar.MenuGroupsNonEmpty | mvp/packages/shared/src/mock-data.ts:22-41 | Every group of the application menu has children. |
| Sidebar.AccessIsCoverage | mvp/apps/web/src/stores/auth-store.ts:43-48 | When every permission grants viewing, a non-superadmin has access exactly to the modules the permissions name. |
| Sidebar.UserCoverage | mvp/packages/shared/src/mock-data.ts:59-63 | The regular user's set grants viewing everywhere and allows exactly their five modules. |
| Sidebar.AdminCoverage | mvp/packages/shared/src/mock-data.ts:52-57 | The admin set grants viewing everywhere and allows every module but user management. |
| ApiKey.ExtractApiKey | mvp/apps/web/src/app/api/v1/invoices/route.ts:8 | A non-empty `x-api-key` is the key; otherwise a key exists exactly when `authorization` is present: a value containing no `Bearer ` passes unchanged, and otherwise its first `Bearer `, wherever it occurs, is cut out. |
| ApiKey.CheckApiKey | mvp/apps/web/src/app/api/v1/invoices/route.ts:7-12 | An absent or empty key is rejected with the missing-key message; otherwise the key is accepted exactly when listed, and an unlisted key is rejected with the invalid-key message. |
| ApiKey.BothHeaderFormsCarryKey | mvp/apps/web/src/app/api/v1/invoices/route.ts:8 | A key sent as `x-api-key` or as a bearer token is read back unchanged. |
| ApiKey.ListedKeyAccepted | mvp/apps/web/src/app/api/v1/invoices/route.ts:8-11 | A listed key is accepted in either header. |
| ApiKey.XApiKeyShadowsBearer | mvp/apps/web/src/app/api/v1/invoices/route.ts:8 | An unlisted non-empty `x-api-key` is rejected even beside a valid bearer token. |
| ApiKey.NoHeadersMissing | mvp/apps/web/src/app/api/v1/invoices/route.ts:9 | No headers, or both empty, give the missing-key rejection. |
| InvoicesRoute.FiltersKeepMatches | mvp/apps/web/src/app/api/v1/invoices/route.ts:26-36 | The two filters keep exactly the invoices matching both, in their original order. |
| InvoicesRoute.SearchIgnoresCase | mvp/apps/web/src/app/api/v1/invoices/route.ts:32-34 | Upper-casing the search query does not change which invoices match. |
| InvoicesRoute.AllMeansNoStatusFilter | mvp/apps/web/src/app/api/v1/invoices/route.ts:28 | Status "all", an empty status and no status give the same list. |
| InvoicesRoute.NumberParam | mvp/apps/web/src/app/api/v1/invoices/route.ts:23-24 | A query number is an integer or NaN; the infinite case is left out. |
| InvoicesRoute.Paginate | mvp/apps/web/src/app/api/v1/invoices/route.ts:40-41 | A page is an order-preserving subsequence of the filtered list. |
| InvoicesRoute.ListInvoices | mvp/apps/web/src/app/api/v1/invoices/route.ts:14-47 | 401 exactly when the key check rejects, with its message; otherwise the total counts the matching invoices before slicing, `totalPages` is `Math.ceil(total / limit)`, page and limit are the parsed parameters, and the data is the `slice` of the matching invoices: only matching invoices, in table order, and for a positive page and limit exactly the window of that page. |
| InvoicesRoute.ListedWindow | mvp/apps/web/src/app/api/v1/invoices/route.ts:40-41 | For a positive page and limit the slice is the window `Paging.Window` defines, the one the benchmarking API is measured against. |
| InvoicesRoute.PageWindow | mvp/apps/web/src/app/api/v1/invoices/route.ts:40-41 | For a positive page and limit the page is the contiguous run starting at `(page - 1) * limit`. |
| InvoicesRoute.PageSize | mvp/apps/web/src/app/api/v1/invoices/route.ts:40-41 | A page holds at most `limit` invoices, and none for a NaN page or a zero limit. |
| InvoicesRoute.NonEmptyPages | mvp/apps/web/src/app/api/v1/invoices/route.ts:39-41 | With a positive limit, a page from 1 on is non-empty exactly when it is at most `totalPages`. |
| InvoicesRoute.PagesCover | mvp/apps/web/src/app/api/v1/invoices/route.ts:40-41 | The first `n` pages, one after the other, are the first `n * limit` invoices. |
| InvoicesRoute.CeilCovers | mvp/apps/web/src/app/api/v1/invoices/route.ts:39 | For a positive limit `totalPages` is a non-negative integer, and that many pages reach the total. |
| InvoicesRoute.AllPagesCover | mvp/apps/web/src/app/api/v1/invoices/route.ts:38-41 | The `totalPages` pages together are exactly the filtered list. |
| InvoicesRoute.NegativePageCountsFromEnd | mvp/apps/web/src/app/api/v1/invoices/route.ts:40-41 | Page 0 is empty, but page -1 is a window counted back from the end of the list. |
| InvoicesRoute.NegativeLimitDropsTail | mvp/apps/web/src/app/api/v1/invoices/route.ts:40-41 | A negative limit on page 1 returns all but the last `-limit` invoices. |
| InvoicesRoute.DefaultPage | mvp/apps/web/src/app/api/v1/invoices/route.ts:15-24 | Without a listed key nothing is returned; with one, no page or limit gives page 1 of up to 20 invoices. |
| InvoicesRoute.ParseIntDefaults | mvp/apps/web/src/app/api/v1/invoices/route.ts:23-24 | The fallbacks "1" and "20" parse to 1 and 20. |
| JsNumber.JsParseInt | mvp/apps/web/src/app/api/v1/invoices/route.ts:23-24 | `parseInt` with no radix yields an integer or NaN; the infinite case is left out. |
| JsNumber.ParseIntOfString | mvp/apps/web/src/app/api/v1/invoices/route.ts:23-24 | `parseInt` reads back every printed integer. |
| JsNumber.ParseIntTruncates | mvp/apps/web/src/app/api/v1/invoices/route.ts:23-24 | A fractional part is dropped, not rounded. |
| JsNumber.ParseIntSkipsSpace | mvp/apps/web/src/app/api/v1/invoices/route.ts:23-24 | Leading white space does not change the result. |
| JsNumber.ParseIntNaN | mvp/apps/web/src/app/api/v1/invoices/route.ts:23-24 | Text that starts with neither a sign nor a digit gives NaN. |
| JsNumber.ParseIntHex | mvp/apps/web/src/app/api/v1/invoices/route.ts:23-24 | `0x` or `0X` followed by hexadecimal digits reads as their base-16 value. |
| JsNumber.ParseIntExamples | mvp/apps/web/src/app/api/v1/invoices/route.ts:23-24 | Trailing text after the digits is ignored, and the empty string gives NaN. |
| JsNumber.CeilDiv | mvp/apps/web/src/app/api/v1/invoices/route.ts:39 | `Math.ceil(total / limit)`: for a positive limit the least page count that covers the total; for a negative limit the non-positive `r` with `r * limit <= total < (r - 1) * limit` (45 over -20 gives -2); NaN or Infinity for a zero limit; NaN for a NaN limit. |
| JsNumber.Mul | mvp/apps/web/src/app/api/v1/invoices/route.ts:40 | An integer product exactly when both operands are integers, otherwise NaN. |
| JsNumber.Add | mvp/apps/web/src/app/api/v1/invoices/route.ts:41 | An integer sum exactly when both operands are integers, otherwise NaN. |
| JsNumber.SubInt | mvp/apps/web/src/app/api/v1/invoices/route.ts:40 | Subtracting an integer keeps an integer integral and NaN NaN. |
| Seqs.Filter | mvp/apps/web/src/app/api/v1/invoices/route.ts:29 | The kept elements are exactly those satisfying the predicate, as an order-preserving subsequence; nothing is dropped exactly when all satisfy it. |
| Seqs.FilterMultiplicity | mvp/apps/web/src/app/api/v1/invoices/route.ts:29 | The filter keeps every copy of each passing element and no copy of a failing one. |
| Seqs.FilterAppend | mvp/apps/web/src/app/api/v1/invoices/route.ts:29 | Filtering a concatenation is filtering each part. |
| Seqs.FilterCountsPassing | mvp/apps/web/src/app/api/v1/users/route.ts:21 | The filtered length is the number of positions whose element passes. |
| Seqs.FilterIdempotent | mvp/apps/web/src/app/api/v1/invoices/route.ts:29 | Filtering twice by the same predicate equals filtering once. |
| Seqs.FilterCompose | mvp/apps/web/src/app/api/v1/invoices/route.ts:28-36 | Two filters in a row keep what satisfies both. |
| Seqs.Find | mvp/apps/web/src/stores/auth-store.ts:24 | Nothing is found exactly when no element satisfies the predicate; a found element is in the list and satisfies it. |
| Seqs.JsSlice | mvp/apps/web/src/app/api/v1/invoices/route.ts:41 | `slice` returns a subsequence, and the plain slice for in-range indices. |
| Seqs.JsSliceLength | mvp/apps/web/src/app/api/v1/invoices/route.ts:41 | `slice(a, b)` returns at most `b - a` elements when `a <= b`; when `b <= a` it returns none, unless `a` counts from the front and `b` from the back (`a >= 0 > b`), where it returns `len + b - a` elements when that is positive and none otherwise (`slice(5, -2)` of ten elements gives three). |
| Strings.IndexOfFrom | mvp/apps/web/src/app/api/v1/invoices/route.ts:34 | The first occurrence at or after the start position, or none exactly when there is none. |
| Strings.ReplaceFirst | mvp/apps/web/src/app/api/v1/invoices/route.ts:8 | A string without the pattern is unchanged; otherwise the first occurrence, and only it, is replaced. |
| Strings.ReplacePrefixRemoves | mvp/apps/web/src/app/api/v1/invoices/route.ts:8 | Removing the bearer prefix from `"Bearer " + t` gives `t`. |
| Strings.ToLower | mvp/apps/web/src/app/api/v1/invoices/route.ts:32 | Same length; each upper-case ASCII letter becomes its lower-case letter, every other character is kept, and no upper-case letter remains. |
| Strings.LowerForgetsCase | mvp/apps/web/src/app/api/v1/invoices/route.ts:32-34 | Lower-casing forgets whether a string was upper- or lower-cased first. |
| Strings.Split | mvp/apps/web/src/components/layout/app-header.tsx:31 | `split` gives at least one piece, no piece holds the separator, and joining the pieces gives back the string. |
| Strings.SplitJoin | mvp/apps/web/src/components/layout/app-header.tsx:31 | Splitting a join of separator-free words gives back the words. |
| Strings.IntToString | mvp-performance/src/Api/Program.cs:206 | A printed integer is non-empty, has no `:`, and starts with `-` exactly when negative. |
| Strings.ParseIntToString | mvp-performance/src/Api/Program.cs:206 | A printed integer reads back to itself. |
| Strings.IntToStringInjective | mvp-performance/src/Api/Program.cs:206 | Distinct integers print differently. |
| UsersRoute.ModuleCount | mvp/apps/web/src/app/api/v1/users/route.ts:21 | The count is the number of permissions that grant viewing: at most their number, equal to it exactly when all grant viewing, zero exactly when none does. |
| UsersRoute.SafeUserOf | mvp/apps/web/src/app/api/v1/users/route.ts:19-23 | The projection keeps id, email, name, role and last login, and counts the permissions that grant viewing. |
| UsersRoute.ListUsers | mvp/apps/web/src/app/api/v1/users/route.ts:13-26 | 401 exactly when the admin-only key check rejects, with its message; otherwise one entry per user, in table order: that user's id, email, name, role, last login and count of viewable permissions. |
| UsersRoute.ListedUsersAreTableUsers | mvp/apps/web/src/app/api/v1/users/route.ts:19-23 | With distinct ids, every listed entry is the only table user with its id. |
| UsersRoute.OnlyAdminKeysPass | mvp/apps/web/src/app/api/v1/users/route.ts:4-10 | The regular user's key is refused with the insufficient-permissions message; the superadmin and admin keys pass in either header. |
| UsersRoute.DemoModuleCounts | mvp/apps/web/src/app/api/v1/users/route.ts:21 | The demo users can view 8, 7 and 5 modules. |
| UsersRoute.AllViewable | mvp/packages/shared/src/mock-data.ts:47-63 | Over any module list, each derived set grants viewing on every entry. |
| AuthRoute.ApiKeyFor | mvp/apps/web/src/app/api/v1/auth/route.ts:18-22 | Every role's key opens the invoice endpoint, and it opens the user list exactly for non-regular roles. |
| AuthRoute.ApiKeyForInjective | mvp/apps/web/src/app/api/v1/auth/route.ts:18-22 | Each role has its own key. |
| AuthRoute.PostAuth | mvp/apps/web/src/app/api/v1/auth/route.ts:4-35 | 400 exactly for a missing or empty email; 401 exactly for an unknown email; a key exactly for a registered one, issued for the first user with that email, whose id, email, name, role and permissions are echoed with the role's key and "24h". |
| AuthRoute.AgreesWithLogin | mvp/apps/web/src/app/api/v1/auth/route.ts:12-15 | For a non-empty email the endpoint issues a key exactly when the client store's sign-in succeeds, for the same user. |
| AuthRoute.PasswordIgnored | mvp/apps/web/src/app/api/v1/auth/route.ts:6-12 | The password never changes the response. |
| AuthRoute.IssuedKeyOpens | mvp/apps/web/src/app/api/v1/auth/route.ts:18-32 | An issued key passes the invoice check, and the user-list check exactly for non-regular roles. |
| AuthRoute.DemoKeys | mvp/apps/web/src/app/api/v1/auth/route.ts:18-22 | The three demo accounts receive the keys of their roles. |
| AppHeader.Initials | mvp/apps/web/src/components/layout/app-header.tsx:30-35 | At most two characters, never a space; the first letters themselves, for any name, are stated by `InitialsOfName`. |
| AppHeader.HeadsOfWords | mvp/apps/web/src/components/layout/app-header.tsx:32-33 | For non-empty words, one first letter per word, in order. |
| AppHeader.HeadsSkipsEmpty | mvp/apps/web/src/components/layout/app-header.tsx:33 | Empty words contribute nothing: the first letters of a word list are those of its non-empty words. |
| AppHeader.InitialsOfName | mvp/apps/web/src/components/layout/app-header.tsx:30-35 | For any name, with repeated, leading or trailing spaces or none at all, the initials are the upper-cased first letters of its first two non-empty words, so their number is min(2, number of non-empty words). |
| AppHeader.InitialsOfWords | mvp/apps/web/src/components/layout/app-header.tsx:30-35 | For a name of non-empty space-free words, the initials are the upper-cased first letters of the first two words: two for two or more words, one for one. |
| AppHeader.LeadingSpaceIgnored | mvp/apps/web/src/components/layout/app-header.tsx:30-35 | A leading space does not change the initials. |
| AppHeader.DemoInitials | mvp/apps/web/src/components/layout/app-header.tsx:30-35 | The demo users' initials are AK, JN and SA. |
| AppHeader.TwoWordInitials | mvp/apps/web/src/components/layout/app-header.tsx:30-35 | Two non-empty space-free words whose first letters are not lower-case give those two letters. |
| AppHeader.BadgesDistinguishRoles | mvp/apps/web/src/components/layout/app-header.tsx:17-21 | Two roles share a caption, or a variant, exactly when they are the same role. |
| AppHeader.ToggleTheme | mvp/apps/web/src/components/layout/app-header.tsx:48 | The next theme is light or dark, and light exactly when the current one is dark. |
| AppHeader.ToggleTwice | mvp/apps/web/src/components/layout/app-header.tsx:48 | Toggling twice restores light or dark; any other theme toggles to dark; a toggle always changes the theme it produced. |
| AppHeader.Header | mvp/apps/web/src/components/layout/app-header.tsx:28-94 | Nothing is shown exactly when no user is signed in; otherwise the user's name, email, initials and badge, and one switch entry per table user showing that user's name and role, highlighted exactly when its id is the signed-in user's. |
| AppHeader.ExactlyOneHighlighted | mvp/apps/web/src/components/layout/app-header.tsx:82-94 | With distinct ids, exactly the signed-in user's entry is highlighted. |
| AppHeader.SwitchHighlightsChoice | mvp/apps/web/src/components/layout/app-header.tsx:85-86 | Clicking an entry signs in as that user, whose entry is then the highlighted one. |
| AppHeader.SignOut | mvp/apps/web/src/components/layout/app-header.tsx:97 | Sign-out leaves a header that shows nothing, and navigates to "/login". |
| Middleware.CorsAsWritten | mvp/apps/web/src/middleware.ts:4-16 | Headers are added exactly for a non-empty origin starting with `tauri://` or `http://localhost`, and the allowed origin echoes it. |
| Middleware.PrefixAdmitsLongerHosts | mvp/apps/web/src/middleware.ts:9 | Any `http://localhost` followed by a host-name character passes the written test although its host is not localhost. |
| Middleware.PrefixAdmitsOtherHosts | mvp/apps/web/src/middleware.ts:9 | `http://localhost.example.com` passes the written test. |
| Middleware.Cors | mvp/apps/web/src/middleware.ts:8-13 | Corrected member of the third finding: headers are added exactly for a Tauri origin or localhost on an optional port; they echo the origin with the fixed methods and headers. |
| Middleware.AllowedHttpIsLocalhost | mvp/apps/web/src/middleware.ts:9 | Every `http://` origin the intended test admits has host localhost. |
| Middleware.AllowedOrigins | mvp/apps/web/src/middleware.ts:9 | The intended test admits every Tauri origin and localhost with or without a port. |
| Middleware.NarrowsAsWritten | mvp/apps/web/src/middleware.ts:9 | The intended test admits nothing the written one refuses, and refuses `http://localhost.example.com`. |
| Middleware.Handle | mvp/apps/web/src/middleware.ts:4-20 | As written: headers exactly on `/api` routes for a non-empty origin the prefix test admits, echoing it with the fixed methods and headers; none without an origin, and never `*`. |
| Middleware.HandleIntended | mvp/apps/web/src/middleware.ts:4-20 | Corrected member of the third finding: the same routes with the intended origin test; whatever it adds, the written middleware adds too. |
| MobileLayout.Redirect | mvp/apps/mobile/app/_layout.tsx:40-49 | No redirect before mount; a signed-out user outside the auth group goes to the login screen; a signed-in user inside it goes to the tabs; otherwise nothing happens. |
| MobileLayout.RedirectSettles | mvp/apps/mobile/app/_layout.tsx:40-49 | At its target the rule asks for nothing more, and the user is in the auth group exactly when signed out. |
| MobileLayout.OnlyFirstSegmentCounts | mvp/apps/mobile/app/_layout.tsx:42 | Segments after the first never change the decision. |
| MobileLayout.SignInOutRoutes | mvp/apps/mobile/app/_layout.tsx:44-47 | After sign-in the login screen leads to the tabs; after sign-out anywhere outside the group leads to the login screen. |
| MobileLayout.ThemeFor | mvp/apps/mobile/app/_layout.tsx:56 | The dark theme exactly for the "dark" scheme, otherwise the light one. |
| MobileLayout.StatusBarStyle | mvp/apps/mobile/app/_layout.tsx:65 | The status-bar style is light or dark. |
| MobileLayout.StatusBarContrasts | mvp/apps/mobile/app/_layout.tsx:56-65 | The status bar is light exactly on the dark theme, and an unknown scheme gets the light theme. |
| Icons.Lookup | mvp/apps/mobile/lib/icons.ts:19 | A name is missing exactly when it is no key of the table; a found value is paired with the name in the table. |
| Icons.IconNameIn | mvp/apps/mobile/lib/icons.ts:18-20 | An unmapped name gets the fallback; a mapped one gets a value of the table. |
| Icons.GetIconName | mvp/apps/mobile/lib/icons.ts:18-20 | The result is the fallback exactly for names the map lacks. |
| Icons.LookupInjective | mvp/apps/mobile/lib/icons.ts:18-20 | With distinct values, two mapped names that draw the same icon are equal. |
| Icons.ValuesDistinct | mvp/apps/mobile/lib/icons.ts:2-16 | No two Lucide names share a Material icon. |
| Icons.FallbackNotMapped | mvp/apps/mobile/lib/icons.ts:2-19 | "help-circle" is no value of the map. |
| Icons.LookupFindsEntry | mvp/apps/mobile/lib/icons.ts:19 | With distinct keys, each key's lookup finds its own value. |
| Icons.MappedNames | mvp/apps/mobile/lib/icons.ts:2-20 | Each of the thirteen names gets its own Material name. |
| Icons.GetIconNameInjective | mvp/apps/mobile/lib/icons.ts:2-20 | Two names share a result only when equal or both unmapped. |
| Icons.ModuleIconsMapped | mvp/packages/shared/src/mock-data.ts:7-16 | Every module icon has a Material counterpart. |
| Icons.MenuIconsMapped | mvp/packages/shared/src/mock-data.ts:22-41 | Every menu icon, top-level or child, has a Material counterpart. |
| MetroConfig.WalkPlain | mvp/apps/mobile/metro.config.js:11 | Plain segments are appended one by one. |
| MetroConfig.ResolvePlain | mvp/apps/mobile/metro.config.js:11 | A plain name resolves to one more segment. |
| MetroConfig.ResolveParent | mvp/apps/mobile/metro.config.js:12 | `..` drops the last segment and stops at the root. |
| MetroConfig.Render | mvp/apps/mobile/metro.config.js:11-12 | A printed path starts with `/`; `RenderResolves` reads it back. |
| MetroConfig.RenderResolves | mvp/apps/mobile/metro.config.js:11-12 | Resolving the printed form of a path of plain segments, from any directory, gives back that path. |
| MetroConfig.MobileNodeModules | mvp/apps/mobile/metro.config.js:11 | The app directory with `node_modules` appended. |
| MetroConfig.MonorepoNodeModules | mvp/apps/mobile/metro.config.js:12 | Two levels up from the app directory, then `node_modules`. |
| MetroConfig.ResolveRequest | mvp/apps/mobile/metro.config.js:23-51 | `react` and `react-dom` specifiers go to the mobile copy with the resolver hook cleared; everything else goes to default resolution unchanged with the same context and platform. |
| MetroConfig.OtherPackagesNotReact | mvp/apps/mobile/metro.config.js:25-37 | `react-dom` and `react-native` specifiers are no `react` specifiers, and `react-native` no `react-dom` one. |
| MetroConfig.ReactNativeDefault | mvp/apps/mobile/metro.config.js:50 | `react-native` goes to default resolution. |
| MetroConfig.BareTarget | mvp/apps/mobile/metro.config.js:26-29 | The bare package name goes to the package directory. |
| MetroConfig.TrailingSlashTarget | mvp/apps/mobile/metro.config.js:26-29 | `pkg/` has an empty subpath and goes to the package directory too. |
| MetroConfig.SubpathTarget | mvp/apps/mobile/metro.config.js:26-29 | A plain subpath lands inside the package directory, segment by segment. |
| MetroConfig.DotDotLeavesPackage | mvp/apps/mobile/metro.config.js:26-29 | A `..` subpath climbs out of the package directory. |
| MetroConfig.RedirectIsFinal | mvp/apps/mobile/metro.config.js:30-34 | Every redirect target is absolute, so a second pass never redirects again. |
| MetroConfig.AgreesWithExtraNodeModules | mvp/apps/mobile/metro.config.js:16-20 | The bare `react` and `react-dom` redirects land where `extraNodeModules` points. |
| MetroConfig.ReactNativeAtWorkspace | mvp/apps/mobile/metro.config.js:12-19 | For an app two levels below the workspace root, `react-native` maps to the root's `node_modules`. |
| Paging.Wrap32 | mvp-performance/src/Api/Program.cs:217 | The 32-bit result is an `int`, congruent to the exact value modulo 2^32, and equal to it in range. |
| Paging.Wrap32Unique | mvp-performance/src/Api/Program.cs:217 | Only one `int` is congruent to a value, so the wrap is determined. |
| Paging.OffsetAsWritten | mvp-performance/src/Api/Program.cs:217 | The unchecked offset is an `int`, exact while both steps fit. |
| Paging.Offset | mvp-performance/src/Api/Program.cs:217 | Corrected member of the first finding: an `int` that is zero or less exactly when the exact `(page - 1) * limit` is, and equal to it whenever it fits in an `int`. |
| Paging.ExactOffsetFitsInt64 | mvp-performance/src/Api/Program.cs:217 | The exact offset of two `int` parameters fits a `long`. |
| Paging.OffsetAgreesInRange | mvp-performance/src/Api/Program.cs:217 | While the arithmetic fits, the written and intended offsets are the exact one. |
| Paging.OffsetWraps | mvp-performance/src/Api/Program.cs:217 | Page 107374184 of 20 wraps to a negative offset. |
| Paging.Skip | mvp-performance/src/Api/Program.cs:217 | `Skip` returns a suffix of the rows. |
| Paging.Take | mvp-performance/src/Api/Program.cs:218 | `Take` returns a prefix of at most the count. |
| Paging.PageOf | mvp-performance/src/Api/Program.cs:214-221 | Corrected member of the first finding: page, limit and total are echoed and counted before paging; the data is a subsequence, empty for a limit of zero or less, the window at `(page - 1) * limit` for a positive page and limit over a table of at most 2^31 - 1 rows, and the first page for page 1 or below with a positive limit. |
| Paging.TakeSkipIsSlice | mvp-performance/src/Api/Program.cs:217-218 | `Skip` then `Take` is one contiguous run of the rows. |
| Paging.InnerPage | mvp-performance/src/Api/Program.cs:217-218 | For positive arguments the page is the window of its number. |
| Paging.PageAsWritten | mvp-performance/src/Api/Program.cs:214-221 | As written: page, limit and total echoed and counted before paging; the data is a subsequence, empty for a limit of zero or less, and while the 32-bit offset does not wrap, the window of the page for positive arguments and the first rows for page 1 or below. |
| Paging.PageAgreesInRange | mvp-performance/src/Api/Program.cs:217-218 | While the arithmetic fits, both pages are the same. |
| Paging.PageWraps | mvp-performance/src/Api/Program.cs:217-218 | Page 107374184 of 20 shows the first rows again as written, and nothing as intended. |
| Paging.PagesCover | mvp-performance/src/Api/Program.cs:217-218 | Pages 1 to `n` in turn read the first `n * limit` rows, each once, in order. |
| Paging.RowOnPage | mvp-performance/src/Api/Program.cs:217-218 | Row `i` is on page `i / limit + 1` at position `i % limit`. |
| PerfApi.BindPaging | mvp-performance/src/Api/Program.cs:202-203 | A missing page or limit takes its default, a given one is kept. |
| PerfApi.DefaultPaging | mvp-performance/src/Api/Program.cs:202-203 | Without parameters a list shows its first 20 rows. |
| PerfApi.CategoryFilterAsWritten | mvp-performance/src/Api/Program.cs:211-212 | The product query filters exactly when the category is neither null nor empty, on that category. |
| PerfApi.CategoryFilter | mvp-performance/src/Api/Program.cs:206-212 | Corrected member of the second finding: "all" also leaves the products unfiltered. |
| PerfApi.ListProductsAsWritten | mvp-performance/src/Api/Program.cs:199-226 | As written: page and limit echoed; the total counts the products the written filter keeps; the data lies within the products, has the category when one filters, and is the window of the page while the offset does not wrap. |
| PerfApi.ListProducts | mvp-performance/src/Api/Program.cs:199-226 | Corrected member of the first two findings: the total counts the products the intended filter keeps, all of them without a filter; the data lies within the products, has the category, and for a positive page and limit and a total of at most 2^31 - 1 is the window of the page. |
| PerfApi.PageOfFiltered | mvp-performance/src/Api/Program.cs:211-218 | A page of a filtered table lies within the table and passes the filter. |
| PerfApi.GetProduct | mvp-performance/src/Api/Program.cs:228-240 | Not found exactly when no product has the id; a found product has it. |
| PerfApi.ListOrders | mvp-performance/src/Api/Program.cs:243-267 | Page and limit echoed; the total counts the orders with the status, all of them for an empty status; the data lies within the orders, has the status, and is the window of the page while the offset does not wrap. |
| PerfApi.DetailStatus | mvp-performance/src/Api/Program.cs:228-240 | A product or order detail answers 404 exactly when no row has the requested id, and a 200 answer carries a row with that id (the order endpoint is at lines 269-279). |
| PerfApi.GetOrder | mvp-performance/src/Api/Program.cs:269-279 | Not found exactly when no order has the id; a found order has it. |
| PerfApi.ListCustomers | mvp-performance/src/Api/Program.cs:282-293 | Page and limit echoed, the total counts every customer, the data lies within the table and is the window of the page while the offset does not wrap. |
| PerfApi.RevenueAppend | mvp-performance/src/Api/Program.cs:303-305 | Revenue adds up over any split of the orders. |
| PerfApi.RevenueOfCompleted | mvp-performance/src/Api/Program.cs:303-305 | Dropping the orders that are not completed leaves the revenue unchanged. |
| PerfApi.DashboardStats | mvp-performance/src/Api/Program.cs:298-314 | The counts are the table sizes, the revenue sums the completed orders, and the timestamp is the given time. |
| PerfApi.FieldsInjective | mvp-performance/src/Api/Program.cs:206 | Colon-free page and limit fields and the final category field are read back from a list key. |
| PerfApi.ListKeyInjective | mvp-performance/src/Api/Program.cs:206 | Two list keys are equal exactly when page, limit and category-or-"all" are. |
| PerfApi.DetailKeyInjective | mvp-performance/src/Api/Program.cs:234 | Two detail keys are equal exactly when the ids are. |
| PerfApi.DetailNotList | mvp-performance/src/Api/Program.cs:206-234 | A detail key never equals a list key: the eighth characters differ. |
| PerfApi.StatsKeyApart | mvp-performance/src/Api/Program.cs:298 | The stats key is neither a detail nor a list key. |
| PerfApi.CacheKeyIff | mvp-performance/src/Api/Program.cs:206-298 | Two cached requests share a key exactly when they are the same request once a missing category is read as "all". |
| PerfApi.TagsSeparateEndpoints | mvp-performance/src/Api/Program.cs:223-321 | Each entry carries one tag: "products" exactly for the product endpoints, "stats" exactly for the stats endpoint. |
| PerfApi.ExpirationsOrdered | mvp-performance/src/Api/Program.cs:65-73 | Local expiration is positive and at most the overall one; only stats expires sooner than the default. |
| PerfApi.KeyDeterminesValue | mvp-performance/src/Api/Program.cs:206-212 | With the intended filter, requests with one key compute one value. |
| PerfApi.CategoryKeyCollision | mvp-performance/src/Api/Program.cs:206-212 | As written, no category and "all" share a key but count 1 and 0 products for a one-product table. |
| PerfApi.Aggregate | mvp-performance/src/Api/Program.cs:176-188 | The overall status is no better than any entry, and is one of them or Healthy. |
| PerfApi.Report | mvp-performance/src/Api/Program.cs:176-188 | Healthy exactly when every selected check is healthy; Unhealthy exactly when some is. |
| PerfApi.AggregateOf | mvp-performance/src/Api/Program.cs:176-188 | The worst status of the checks is Healthy or Unhealthy under the same conditions. |
| PerfApi.ReadySelectsCritical | mvp-performance/src/Api/Program.cs:180-184 | Readiness runs exactly the checks tagged "critical". |
| PerfApi.LiveAlwaysHealthy | mvp-performance/src/Api/Program.cs:185-188 | Liveness runs no check and answers Healthy with 200. |
| PerfApi.ReadyIsFull | mvp-performance/src/Api/Program.cs:115-124 | Both registered checks are critical, so readiness and the full report agree. |
| PerfApi.UntracedBelow | mvp-performance/src/Api/Program.cs:97-98 | Every path below `/healthz` or `/metrics`, in any case, goes untraced. |
| PerfApi.UntracedEndpoints | mvp-performance/src/Api/Program.cs:97-98 | `/healthz` and `/metrics` themselves, in any case, go untraced. |
| PerfApi.TracedPaths | mvp-performance/src/Api/Program.cs:97-98 | Every path below `/api` is traced, and so is every path that merely begins with `/healthzz`. |
| PerfApi.Correlate | mvp-performance/src/Api/Program.cs:150-159 | The first header value, or else the trace identifier, is both echoed and logged. |
| PerfApi.CorrelationPropagates | mvp-performance/src/Api/Program.cs:152-154 | A forwarded id survives the next hop; an empty header value is kept; the id is always the trace identifier or a received value. |

## Left out

- Rendering, navigation side effects other than the target route, and storage: JSX markup, `router.push`/`replace`, the persist and AsyncStorage adapters, and logging.
- The cache's `MaximumPayloadBytes` of 1024 * 1024 bytes is enforced inside the hybrid cache library, so it is configuration with no behaviour here.
- The hybrid two-tier cache, EF Core, PostgreSQL, Redis, OpenTelemetry export and Serilog set-up are frameworks configured by `Program.cs`; only the keys, tags, options and factory results are modelled, not eviction or tag invalidation.
- Sort order: `OrderBy(p => p.Name)`, `OrderByDescending(o => o.CreatedAt)` and `OrderBy(c => c.Name)` are database collation; each table is a parameter already in its endpoint's order.
- A negative `Skip` or `Take` count is modelled with LINQ-to-Objects' meaning (no rows skipped, no rows taken). Through EF Core and Npgsql a negative skip becomes a negative `OFFSET` and a negative `Take` a negative `LIMIT`, both of which PostgreSQL rejects; those failed requests are not modelled. So in the program only `limit == 0` gives an empty page, and the `limit <= 0` clauses of `Paging.PageOf`, `Paging.PageAsWritten`, `PerfApi.ListProducts`, `PerfApi.ListProductsAsWritten`, `PerfApi.ListOrders` and `PerfApi.ListCustomers` describe program behaviour only for `limit == 0`.
- The web application's own data file (`@/data/mock-data`, read by the web store, the header and the user, sign-in and invoice routes) and the shared package's store (`@repo/shared`, read by the sidebar) are not part of this model. Both are assumed to hold the same users, permissions and menu as `packages/shared/src/mock-data.ts` and to behave as the web store does. `AuthRoute.DemoKeys`, `AppHeader.DemoInitials`, `UsersRoute.DemoModuleCounts`, `Sidebar.DemoLogins`, `Sidebar.DemoSidebars`, and `Sidebar.RegularUserMenu` and `Sidebar.AdminMenu` applied to the demo users hold of the program only under that assumption.
- `SeedData` and the random invoices of the shared tables: the invoice list and the database tables are parameters.
- The invoice `POST` echo: it depends on the clock and only echoes the body.
- Money is a whole number of minor units and time an integer parameter; decimal rounding and `DateTime.UtcNow` are not modelled.
- Integer formatting is the invariant-culture form; culture-specific formatting is not modelled.
- Query binding failures (a non-numeric `page` in the C# API) happen before the handler and are not modelled.
- `PerfApi.DashboardStats`: `CountAsync` overflow above 2^31 - 1 rows is not modelled.
- `Strings.ToLower`: case mapping is ASCII-only; JavaScript's full Unicode mapping is not modelled.
- `Icons.GetIconName`: keys inherited from `Object.prototype` (such as `constructor`) are not modelled.
- `AuthRoute.PostAuth`: the body is modelled as already parsed into optional strings. A body that is not JSON (`request.json()` rejects) or the JSON `null` (destructuring `null` throws) ends the handler in an unmodelled 500, and a JSON `email` that is not a string is not modelled either.
- JavaScript number precision: page and limit are exact integers; the only other numbers modelled are NaN and the Infinity of `Math.ceil(total / 0)`.
- `JsNumber.JsParseInt`: a digit run above `Number.MAX_VALUE` (about 309 digits) reads as Infinity in JavaScript, and as that exact integer here, so the model never yields Infinity; with such a page or limit JavaScript computes a NaN or infinite offset, returns no rows and echoes `null`.
- `InvoicesRoute.NumberParam`: shares that gap; a `page` or `limit` of more than about 309 digits is not modelled.
- `AppHeader.Initials`: `n[0]` reads one UTF-16 code unit, so a word starting outside the Basic Multilingual Plane contributes half a surrogate pair; here a character is a whole Unicode scalar value.
- `Strings.ToUpper`: case mapping is ASCII-only; JavaScript also maps other letters, some to two characters (the initials of "ßa b" are "SS" in JavaScript and "ßB" here).
- `AuthStore.CanPerform`: the action is one of the six boolean flags; `canPerform(m, "moduleId")`, which would return a string, is not modelled.
- Order details loaded by `Include`/`ThenInclude` are not modelled; an order is a flat record.

## Findings

The endpoints model the program as written (`Middleware.Handle`,
`PerfApi.ListProductsAsWritten`, `PerfApi.ListOrders`,
`PerfApi.ListCustomers`, `PerfApi.ComputeAsWritten`). The corrected
behaviour of each row is gathered in `Middleware.HandleIntended`,
`PerfApi.ListProducts` and `PerfApi.Compute`, and each is proved to keep
the evidently intended property.

| source | as written | input that shows it | evidently intended | confidence | as-written member | corrected member |
|---|---|---|---|---|---|---|
| mvp-performance/src/Api/Program.cs:217 (also :262 and :288) | `(page - 1) * limit` is computed in unchecked 32-bit `int` and wraps | page=107374184, limit=20: the offset wraps to -2147483636; with LINQ-to-Objects, as modelled, the first page is served again, while EF Core passes the negative `OFFSET` to PostgreSQL, which rejects it, so the request most likely fails; page=0 reaches the same negative `OFFSET` (-20) without any wrap | the offset of page `page`, which for a large page is past every row | not executed | Paging.OffsetWraps, Paging.PageWraps, PerfApi.ListProductsAsWritten | Paging.Offset, Paging.PageOf, PerfApi.ListProducts |
| mvp-performance/src/Api/Program.cs:206-212 | the cache key writes a missing category as "all", but the query filters on category "all" | category null versus category "all", over a table with one product in another category: one key, totals 1 and 0 | "all" means no category filter, so one key gives one result | not executed | PerfApi.CategoryKeyCollision | PerfApi.KeyDeterminesValue, PerfApi.CategoryFilter, PerfApi.ListProducts |
| mvp/apps/web/src/middleware.ts:9 | the localhost test is a plain prefix test on the origin | origin `http://localhost.example.com` gets the CORS headers | only localhost, optionally with a port | not executed | Middleware.PrefixAdmitsOtherHosts, Middleware.Handle | Middleware.NarrowsAsWritten, Middleware.Cors, Middleware.HandleIntended |

=== FILE: api_key.dfy ===
/** The API-key check both protected list endpoints share: the key is the
    `x-api-key` header when that is non-empty, otherwise the
    `authorization` header with its first `"Bearer "` removed; a missing or
    empty key and a key outside the endpoint's list are rejected with the
    endpoint's own messages. */
module ApiKey {
  import opened Optional
  import opened Strings

  /** The two request headers the check reads (`headers.get` gives `null`
      for an absent header). */
  datatype Headers = Headers(xApiKey: Option<string>, authorization: Option<string>)

  datatype KeyCheck = Accepted | Rejected(error: string)

  const BearerPrefix: string := "Bearer "

  /** `headers.get("x-api-key") || headers.get("authorization")?.replace("Bearer ", "")`. */
  function ExtractApiKey(h: Headers): (key: Option<string>)
    ensures Truthy(h.xApiKey) ==> key == h.xApiKey
    ensures !Truthy(h.xApiKey) ==> (key.None? <==> h.authorization.None?)
    ensures !Truthy(h.xApiKey) && h.authorization.Some? && !Contains(h.authorization.value, BearerPrefix) ==>
              key == h.authorization
    ensures !Truthy(h.xApiKey) && h.authorization.Some? ==>
              forall i :: FirstAt(h.authorization.value, BearerPrefix, i) ==>
                key == Some(h.authorization.value[..i] + h.authorization.value[i + |BearerPrefix|..])
  {
    if Truthy(h.xApiKey) then h.xApiKey
    else match h.authorization
      case None => None
      case Some(a) => RemovesFirstBearer(a); Some(ReplaceFirst(a, BearerPrefix, ""))
  }

  /** Replacing the first `"Bearer "` by nothing cuts it out. */
  lemma RemovesFirstBearer(a: string)
    ensures forall i :: FirstAt(a, BearerPrefix, i) ==>
              ReplaceFirst(a, BearerPrefix, "") == a[..i] + a[i + |BearerPrefix|..]
  {
    forall i | FirstAt(a, BearerPrefix, i)
      ensures ReplaceFirst(a, BearerPrefix, "") == a[..i] + a[i + |BearerPrefix|..]
    {
      assert a[..i] + "" + a[i + |BearerPrefix|..] == a[..i] + a[i + |BearerPrefix|..];
    }
  }

  /** `validateApiKey`: the missing-key message when there is no usable
      key, the invalid-key message when the key is not one of `validKeys`. */
  function CheckApiKey(h: Headers, validKeys: seq<string>, missing: string, invalid: string): (r: KeyCheck)
    ensures !Truthy(ExtractApiKey(h)) ==> r == Rejected(missing)
    ensures Truthy(ExtractApiKey(h)) ==> (r.Accepted? <==> ExtractApiKey(h).value in validKeys)
    ensures Truthy(ExtractApiKey(h)) && ExtractApiKey(h).value !in validKeys ==> r == Rejected(invalid)
  {
    var key := ExtractApiKey(h);
    if !Truthy(key) then Rejected(missing)
    else if key.value !in validKeys then Rejected(invalid)
    else Accepted
  }

  /** A key can be sent either way: as `x-api-key`, or as a bearer token
      when `x-api-key` is absent or empty. */
  lemma BothHeaderFormsCarryKey(key: string, other: Option<string>, empty: Option<string>)
    requires key != ""
    requires !Truthy(empty)
    ensures ExtractApiKey(Headers(Some(key), other)) == Some(key)
    ensures ExtractApiKey(Headers(empty, Some(BearerPrefix + key))) == Some(key)
  {
    ReplacePrefixRemoves(BearerPrefix, key);
  }

  /** Whichever way a listed key is sent, the check accepts it. */
  lemma ListedKeyAccepted(key: string, validKeys: seq<string>, missing: string, invalid: string,
                          other: Option<string>, empty: Option<string>)
    requires key != "" && key in validKeys
    requires !Truthy(empty)
    ensures CheckApiKey(Headers(Some(key), other), validKeys, missing, invalid) == Accepted
    ensures CheckApiKey(Headers(empty, Some(BearerPrefix + key)), validKeys, missing, invalid) == Accepted
  {
    BothHeaderFormsCarryKey(key, other, empty);
  }

  /** A non-empty `x-api-key` shadows the `authorization` header: a wrong
      key there is rejected even alongside a valid bearer token. */
  lemma XApiKeyShadowsBearer(bad: string, good: string, validKeys: seq<string>, missing: string, invalid: string)
    requires bad != "" && bad !in validKeys
    ensures CheckApiKey(Headers(Some(bad), Some(BearerPrefix + good)), validKeys, missing, invalid) == Rejected(invalid)
  {
  }

  /** With neither header, or both empty, the key is missing. */
  lemma NoHeadersMissing(validKeys: seq<string>, missing: string, invalid: string)
    ensures CheckApiKey(Headers(None, None), validKeys, missing, invalid) == Rejected(missing)
    ensures CheckApiKey(Headers(Some(""), Some(BearerPrefix)), validKeys, missing, invalid) == Rejected(missing)
  {
    ReplacePrefixRemoves(BearerPrefix, "");
    assert BearerPrefix + "" == BearerPrefix;
  }
}

=== FILE: app_header.dfy ===
/** The web header: nothing without a signed-in user; otherwise the user's
    initials and role badge, a light/dark theme toggle, and a "switch user"
    list of every demo user with the current one highlighted. Rendering is
    not modelled, only the values the header shows and the store actions
    its entries trigger. */
module AppHeader {
  import opened Optional
  import opened Types
  import opened Seqs
  import opened Strings
  import AuthStore
  import MockData
  import Paging

  // ---------------------------------------------------------------------
  // initials

  /** `words.map(n => n[0]).join("")`: `n[0]` of an empty word is
      `undefined`, which `join` writes as nothing. */
  function Heads(words: seq<string>): (r: string)
    ensures |r| <= |words|
  {
    if |words| == 0 then ""
    else (if |words[0]| > 0 then [words[0][0]] else "") + Heads(words[1..])
  }

  /** `name.split(" ").map(n => n[0]).join("").toUpperCase().slice(0, 2)`. */
  function Initials(name: string): (r: string)
    ensures |r| <= 2
    ensures ' ' !in r
  {
    var h := Heads(Split(name, ' '));
    HeadsAreNotSeparators(Split(name, ' '));
    JsSlice(ToUpper(h), 0, 2)
  }

  /** No first letter of a space-free word is a space, nor does it become
      one when upper-cased. */
  lemma {:induction false} HeadsAreNotSeparators(words: seq<string>)
    requires forall k :: 0 <= k < |words| ==> ' ' !in words[k]
    ensures ' ' !in ToUpper(Heads(words))
  {
    if |words| > 0 {
      HeadsAreNotSeparators(words[1..]);
      var h := Heads(words);
      var u := ToUpper(h);
      forall i | 0 <= i < |u| ensures u[i] != ' ' {
        if |words[0]| > 0 && i == 0 {
          assert h[0] == words[0][0];
        } else {
          var j := if |words[0]| > 0 then i - 1 else i;
          assert h[i] == Heads(words[1..])[j];
          assert u[i] == ToUpper(Heads(words[1..]))[j];
        }
      }
    }
  }

  /** For words that are all non-empty, `Heads` takes exactly one letter
      from each. */
  lemma {:induction false} HeadsOfWords(words: seq<string>)
    requires forall k :: 0 <= k < |words| ==> |words[k]| > 0
    ensures |Heads(words)| == |words|
    ensures forall i :: 0 <= i < |words| ==> Heads(words)[i] == words[i][0]
  {
    if |words| > 0 {
      HeadsOfWords(words[1..]);
    }
  }

  /** A name of space-separated non-empty words: the initials are the first
      letters of its first two words (of its only word, if just one),
      upper-cased. */
  lemma InitialsOfWords(words: seq<string>)
    requires |words| >= 1
    requires forall k :: 0 <= k < |words| ==> |words[k]| > 0 && ' ' !in words[k]
    ensures |Initials(Join(words, ' '))| == if |words| >= 2 then 2 else 1
    ensures forall i :: 0 <= i < |Initials(Join(words, ' '))| ==>
              Initials(Join(words, ' '))[i] == UpperChar(words[i][0])
  {
    SplitJoin(words, ' ');
    HeadsOfWords(words);
  }

  /** A word `split` produced between two adjacent spaces, or at either
      end, is empty. */
  predicate NonEmpty(w: string) {
    |w| > 0
  }

  /** The words of a name that contribute a letter: its non-empty pieces,
      in order. */
  function NameWords(name: string): seq<string> {
    Filter(Split(name, ' '), NonEmpty)
  }

  /** Empty words contribute nothing: the heads of a word list are those of
      its non-empty words. */
  lemma {:induction false} HeadsSkipsEmpty(words: seq<string>)
    ensures Heads(words) == Heads(Filter(words, NonEmpty))
  {
    if |words| > 0 {
      HeadsSkipsEmpty(words[1..]);
      FilterStep(words, NonEmpty);
      var rest := Filter(words[1..], NonEmpty);
      if NonEmpty(words[0]) {
        assert ([words[0]] + rest)[0] == words[0];
        assert ([words[0]] + rest)[1..] == rest;
      }
    }
  }

  /** For any name, including one with repeated, leading or trailing spaces
      and the empty name: the initials are the upper-cased first letters of
      its first two non-empty words, so there are `min(2, n)` of them for
      `n` non-empty words. */
  lemma InitialsOfName(name: string)
    ensures |Initials(name)| == Paging.Min(2, |NameWords(name)|)
    ensures forall i :: 0 <= i < |Initials(name)| ==>
              Initials(name)[i] == UpperChar(NameWords(name)[i][0])
  {
    var words := NameWords(name);
    HeadsSkipsEmpty(Split(name, ' '));
    forall k | 0 <= k < |words| ensures |words[k]| > 0 {
      assert NonEmpty(words[k]);
    }
    HeadsOfWords(words);
  }

  /** Extra spaces before a name leave its initials unchanged. */
  lemma LeadingSpaceIgnored(name: string)
    ensures Initials(" " + name) == Initials(name)
  {
    SplitOfWordThenSep("", ' ', name);
    assert "" + [' '] + name == " " + name;
    assert ([""] + Split(name, ' '))[1..] == Split(name, ' ');
  }

  /** The demo users' initials. */
  lemma DemoInitials()
    ensures Initials("Anna Kowalska") == "AK"
    ensures Initials("Jan Nowak") == "JN"
    ensures Initials("Super Administrator") == "SA"
  {
    AnnaKowalska();
    JanNowak();
    SuperAdministrator();
  }

  lemma AnnaKowalska()
    ensures Initials("Anna Kowalska") == "AK"
  {
    var a, b := "Anna", "Kowalska";
    assert a + " " + b == "Anna Kowalska";
    TwoWordInitials(a, b);
  }

  lemma JanNowak()
    ensures Initials("Jan Nowak") == "JN"
  {
    var a, b := "Jan", "Nowak";
    assert a + " " + b == "Jan Nowak";
    TwoWordInitials(a, b);
  }

  lemma SuperAdministrator()
    ensures Initials("Super Administrator") == "SA"
  {
    var a, b := "Super", "Administrator";
    assert a + " " + b == "Super Administrator";
    TwoWordInitials(a, b);
  }

  lemma TwoWordInitials(a: string, b: string)
    requires |a| > 0 && ' ' !in a && |b| > 0 && ' ' !in b
    requires !('a' <= a[0] <= 'z') && !('a' <= b[0] <= 'z')
    ensures Initials(a + " " + b) == [a[0], b[0]]
  {
    var words := [a, b];
    assert Join(words, ' ') == a + " " + b by {
      assert words[1..] == [b];
    }
    InitialsOfWords(words);
  }

  // ---------------------------------------------------------------------
  // role badge

  datatype BadgeVariant = Default | Secondary | Outline

  datatype Badge = Badge(caption: string, variant: BadgeVariant)

  /** `roleBadge[user.role]`. */
  function RoleBadge(role: Role): Badge {
    match role
    case SuperAdmin => Badge("Super Admin", Default)
    case Admin => Badge("Admin", Secondary)
    case RegularUser => Badge("User", Outline)
  }

  /** Different roles get different captions and different variants, so
      the badge identifies the role. */
  lemma BadgesDistinguishRoles(a: Role, b: Role)
    ensures RoleBadge(a).caption == RoleBadge(b).caption <==> a == b
    ensures RoleBadge(a).variant == RoleBadge(b).variant <==> a == b
  {
  }

  // ---------------------------------------------------------------------
  // theme toggle

  /** `setTheme(theme === "dark" ? "light" : "dark")`; `None` is a theme
      not yet known. */
  function ToggleTheme(theme: Option<string>): (next: string)
    ensures next == "light" || next == "dark"
    ensures next == "light" <==> theme == Some("dark")
  {
    if theme == Some("dark") then "light" else "dark"
  }

  /** Toggling twice returns to a light or dark theme; any other theme
      (such as "system") is left for dark on the first click. */
  lemma ToggleTwice(theme: Option<string>)
    ensures theme == Some("light") || theme == Some("dark") ==> ToggleTheme(Some(ToggleTheme(theme))) == theme.value
    ensures theme != Some("light") && theme != Some("dark") ==> ToggleTheme(theme) == "dark"
    ensures ToggleTheme(Some(ToggleTheme(theme))) != ToggleTheme(theme)
  {
  }

  // ---------------------------------------------------------------------
  // the header as a whole

  /** One entry of the switch-user list. */
  datatype SwitchEntry = SwitchEntry(id: string, name: string, roleName: string, highlighted: bool)

  datatype HeaderView = HeaderView(
    initials: string,
    name: string,
    email: string,
    badge: Badge,
    switchList: seq<SwitchEntry>)

  function EntryFor(u: User, current: User): SwitchEntry {
    SwitchEntry(u.id, u.name, u.role.Name(), u.id == current.id)
  }

  /** `AppHeader()` for the store state `s` and the user table `users`:
      `null` when nobody is signed in. */
  function Header(s: AuthStore.AuthState, users: seq<User>): (r: Option<HeaderView>)
    ensures r.None? <==> s.user.None?
    ensures r.Some? ==> var u := s.user.value; var v := r.value;
              && v.name == u.name && v.email == u.email && v.badge == RoleBadge(u.role)
              && v.initials == Initials(u.name)
              && |v.switchList| == |users|
              && forall i :: 0 <= i < |users| ==>
                   && v.switchList[i].id == users[i].id
                   && v.switchList[i].name == users[i].name
                   && v.switchList[i].roleName == users[i].role.Name()
                   && (v.switchList[i].highlighted <==> users[i].id == u.id)
  {
    match s.user
    case None => None
    case Some(u) =>
      Some(HeaderView(Initials(u.name), u.name, u.email, RoleBadge(u.role),
                      seq(|users|, i requires 0 <= i < |users| => EntryFor(users[i], u))))
  }

  /** With distinct user ids, a signed-in user of the table is highlighted
      in exactly one entry: their own. */
  lemma ExactlyOneHighlighted(s: AuthStore.AuthState, users: seq<User>, k: nat)
    requires MockData.Distinct(MockData.UserIds(users))
    requires k < |users| && s.user == Some(users[k])
    ensures Header(s, users).value.switchList[k].highlighted
    ensures forall j :: 0 <= j < |users| && Header(s, users).value.switchList[j].highlighted ==> j == k
  {
    var ids := MockData.UserIds(users);
    forall j | 0 <= j < |users| && Header(s, users).value.switchList[j].highlighted ensures j == k {
      assert ids[j] == ids[k];
    }
  }

  /** Clicking entry `k` of the switch-user list signs in as that user, and
      the header then highlights that entry and no other. */
  lemma SwitchHighlightsChoice(s: AuthStore.AuthState, users: seq<User>, k: nat)
    requires MockData.Distinct(MockData.UserIds(users))
    requires k < |users|
    ensures var t := AuthStore.SwitchUser(s, users, users[k].id);
            && t.user == Some(users[k])
            && Header(t, users).Some?
            && forall j :: 0 <= j < |users| ==> (Header(t, users).value.switchList[j].highlighted <==> j == k)
  {
    var ids := MockData.UserIds(users);
    var t := AuthStore.SwitchUser(s, users, users[k].id);
    assert ids[k] == users[k].id;
    var u := t.user.value;
    var i :| 0 <= i < |users| && users[i] == u;
    assert ids[i] == ids[k];
    ExactlyOneHighlighted(t, users, k);
  }

  /** "Sign out" logs out and navigates to the login page; the header then
      shows nothing. */
  function SignOut(s: AuthStore.AuthState): (r: (AuthStore.AuthState, string))
    ensures Header(r.0, MockData.Users).None?
    ensures r.1 == "/login"
  {
    (AuthStore.Logout(s), "/login")
  }
}

=== FILE: app_sidebar.dfy ===
/** The sidebar's `filterMenu`: prunes the two-level menu to what the signed-in
    user may open. A leaf with a module it cannot access is dropped; a group
    keeps only its accessible children and disappears when none are left.
    The access test is a parameter; the sidebar passes the session's
    `hasModuleAccess` (see `VisibleMenu`). */
module Sidebar {
  import opened Optional
  import opened Types
  import opened Seqs
  import AuthStore
  import MockData

  /** `!child.moduleId || hasModuleAccess(child.moduleId)`. */
  predicate Visible(item: MenuItem, access: string -> bool) {
    !Truthy(item.moduleId) || access(item.moduleId.value)
  }

  /** `item.children.filter(...)`. */
  function FilterChildren(children: seq<MenuItem>, access: string -> bool): seq<MenuItem> {
    Filter(children, (c: MenuItem) => Visible(c, access))
  }

  /** What becomes of one top-level entry. A group (`children` present) is
      judged by its children only, one level deep; its own `moduleId` is
      never consulted. */
  function FilterItem(item: MenuItem, access: string -> bool): Option<MenuItem> {
    if item.children.Some? then
      var kept := FilterChildren(item.children.value, access);
      if |kept| == 0 then None else Some(item.(children := Some(kept)))
    else if Visible(item, access) then Some(item)
    else None
  }

  function Ids(items: seq<MenuItem>): (ids: seq<string>)
    ensures |ids| == |items|
    ensures forall k :: 0 <= k < |items| ==> ids[k] == items[k].id
  {
    seq(|items|, k requires 0 <= k < |items| => items[k].id)
  }

  /** The group `g` with its children filtered. */
  function Pruned(g: MenuItem, access: string -> bool): MenuItem
    requires g.children.Some?
  {
    g.(children := Some(FilterChildren(g.children.value, access)))
  }

  /** `filterMenu(items)`. */
  function FilterMenu(items: seq<MenuItem>, access: string -> bool): (r: seq<MenuItem>)
    // the kept entries' ids appear in their original order
    ensures IsSubsequence(Ids(r), Ids(items))
  {
    if |items| == 0 then []
    else
      var rest := FilterMenu(items[1..], access);
      match FilterItem(items[0], access)
      case None =>
        IdsDropped(items, rest);
        rest
      case Some(o) =>
        IdsKept(items, o, rest);
        [o] + rest
  }

  /** A leaf is kept exactly when it is visible; a group is kept, with its
      children filtered, exactly when some child is visible. */
  lemma {:induction false} FilterMenuKeeps(items: seq<MenuItem>, access: string -> bool)
    ensures Keeps(items, FilterMenu(items, access), access)
  {
    if |items| > 0 {
      FilterMenuKeeps(items[1..], access);
      FilterMenuStep(items, access);
      if FilterItem(items[0], access).Some? {
        KeptStep(items, FilterMenu(items[1..], access), access);
      } else {
        DroppedStep(items, FilterMenu(items[1..], access), access);
      }
    }
  }

  lemma IdsDropped(items: seq<MenuItem>, rest: seq<MenuItem>)
    requires |items| > 0 && IsSubsequence(Ids(rest), Ids(items[1..]))
    ensures IsSubsequence(Ids(rest), Ids(items))
  {
    assert Ids(items) == [items[0].id] + Ids(items[1..]);
    SubsequenceCons(Ids(rest), items[0].id, Ids(items[1..]));
  }

  lemma IdsKept(items: seq<MenuItem>, o: MenuItem, rest: seq<MenuItem>)
    requires |items| > 0 && o.id == items[0].id && IsSubsequence(Ids(rest), Ids(items[1..]))
    ensures IsSubsequence(Ids([o] + rest), Ids(items))
  {
    assert Ids(items) == [items[0].id] + Ids(items[1..]);
    assert Ids([o] + rest) == [o.id] + Ids(rest);
    assert ([o.id] + Ids(rest))[1..] == Ids(rest);
    assert Ids(items)[1..] == Ids(items[1..]);
  }

  /** What `FilterMenu` promises about the entries of `r` kept from `items`. */
  ghost predicate Keeps(items: seq<MenuItem>, r: seq<MenuItem>, access: string -> bool) {
    && (forall x: MenuItem :: x.children.None? ==> (x in r <==> x in items && Visible(x, access)))
    && (forall g: MenuItem :: g in items && g.children.Some? && |FilterChildren(g.children.value, access)| > 0
          ==> Pruned(g, access) in r)
    && (forall o: MenuItem :: o in r && o.children.Some? ==>
          |o.children.value| > 0
          && exists g :: g in items && g.children.Some? && o == Pruned(g, access))
  }

  /** Dropping the first entry keeps `Keeps`. */
  lemma DroppedStep(items: seq<MenuItem>, rest: seq<MenuItem>, access: string -> bool)
    requires |items| > 0 && FilterItem(items[0], access).None?
    requires Keeps(items[1..], rest, access)
    ensures Keeps(items, rest, access)
  {
    assert items == [items[0]] + items[1..];
  }

  /** Keeping the first entry, as `FilterItem` returns it, keeps `Keeps`. */
  lemma KeptStep(items: seq<MenuItem>, rest: seq<MenuItem>, access: string -> bool)
    requires |items| > 0 && FilterItem(items[0], access).Some?
    requires Keeps(items[1..], rest, access)
    ensures Keeps(items, [FilterItem(items[0], access).value] + rest, access)
  {
    assert items == [items[0]] + items[1..];
  }

  /** A kept entry survives a second pass unchanged. */
  lemma FilterItemStable(item: MenuItem, access: string -> bool)
    requires FilterItem(item, access).Some?
    ensures FilterItem(FilterItem(item, access).value, access) == FilterItem(item, access)
  {
    if item.children.Some? {
      var kept := FilterChildren(item.children.value, access);
      FilterIdempotent(item.children.value, (c: MenuItem) => Visible(c, access));
    }
  }

  /** `filterMenu` is idempotent. */
  lemma {:induction false} FilterMenuIdempotent(items: seq<MenuItem>, access: string -> bool)
    ensures FilterMenu(FilterMenu(items, access), access) == FilterMenu(items, access)
  {
    if |items| > 0 {
      FilterMenuIdempotent(items[1..], access);
      var rest := FilterMenu(items[1..], access);
      match FilterItem(items[0], access)
      case None =>
      case Some(o) =>
        FilterItemStable(items[0], access);
        assert ([o] + rest)[1..] == rest;
    }
  }

  /** A group's own `moduleId` has no say: changing it changes nothing but
      that field of the result. */
  lemma GroupModuleIgnored(g: MenuItem, m: Option<string>, access: string -> bool)
    requires g.children.Some?
    ensures FilterItem(g.(moduleId := m), access).Some? == FilterItem(g, access).Some?
  {
  }

  /** A group that starts with no children is always removed. */
  lemma EmptyGroupRemoved(g: MenuItem, access: string -> bool)
    requires g.children == Some([])
    ensures FilterItem(g, access).None?
  {
  }

  lemma FullAccessKeepsItem(item: MenuItem, access: string -> bool)
    requires forall m :: access(m)
    requires item.children.Some? ==> |item.children.value| > 0
    ensures FilterItem(item, access) == Some(item)
  {
    if item.children.Some? {
      var cs := item.children.value;
      assert forall k :: 0 <= k < |cs| ==> Visible(cs[k], access);
      FilterAll(cs, (c: MenuItem) => Visible(c, access));
    }
  }

  /** With access to everything, only groups without children are dropped;
      a menu without such groups is kept whole. */
  lemma {:induction false} FullAccessKeepsAll(items: seq<MenuItem>, access: string -> bool)
    requires forall m :: access(m)
    requires forall k :: 0 <= k < |items| && items[k].children.Some? ==> |items[k].children.value| > 0
    ensures FilterMenu(items, access) == items
  {
    if |items| > 0 {
      FullAccessKeepsAll(items[1..], access);
      FullAccessKeepsItem(items[0], access);
      assert items == [items[0]] + items[1..];
    }
  }

  /** The session's `hasModuleAccess`, as the access test `filterMenu` uses. */
  function SessionAccess(s: AuthStore.AuthState): string -> bool {
    (m: string) => AuthStore.HasModuleAccess(s, m)
  }

  /** The sidebar as the signed-in session sees it. */
  function VisibleMenu(s: AuthStore.AuthState, items: seq<MenuItem>): seq<MenuItem> {
    FilterMenu(items, SessionAccess(s))
  }

  /** The superadmin sees every entry of a menu with no empty groups; nobody
      signed in sees only entries without a module. */
  lemma VisibleMenuExtremes(s: AuthStore.AuthState, items: seq<MenuItem>)
    requires forall k :: 0 <= k < |items| && items[k].children.Some? ==> |items[k].children.value| > 0
    ensures s.user.Some? && s.user.value.role == SuperAdmin ==> VisibleMenu(s, items) == items
    ensures s.user.None? ==> forall x :: x in VisibleMenu(s, items) && x.children.None? ==> !Truthy(x.moduleId)
  {
    if s.user.Some? && s.user.value.role == SuperAdmin {
      FullAccessKeepsAll(items, SessionAccess(s));
    }
    FilterMenuKeeps(items, SessionAccess(s));
  }

  /** One step of `FilterMenu`: the first entry's fate, then the rest. */
  lemma FilterMenuStep(items: seq<MenuItem>, access: string -> bool)
    requires |items| > 0
    ensures FilterMenu(items, access) ==
              (match FilterItem(items[0], access) case Some(o) => [o] case None => [])
              + FilterMenu(items[1..], access)
  {
  }

  /** The entries of `ids` whose flag in `keep` is set. */
  function Pick(keep: seq<bool>, ids: seq<string>): seq<string>
    requires |keep| == |ids|
  {
    if |keep| == 0 then [] else (if keep[0] then [ids[0]] else []) + Pick(keep[1..], ids[1..])
  }

  lemma {:induction false} KeptIds(items: seq<MenuItem>, access: string -> bool, keep: seq<bool>, ids: seq<string>)
    requires |keep| == |items| == |ids|
    requires forall k :: 0 <= k < |items| ==> keep[k] == FilterItem(items[k], access).Some? && items[k].id == ids[k]
    ensures Ids(FilterMenu(items, access)) == Pick(keep, ids)
  {
    if |items| > 0 {
      assert forall k :: 0 <= k < |items| - 1 ==>
          keep[1..][k] == FilterItem(items[1..][k], access).Some? && items[1..][k].id == ids[1..][k] by {
        forall k | 0 <= k < |items| - 1
          ensures keep[1..][k] == FilterItem(items[1..][k], access).Some? && items[1..][k].id == ids[1..][k]
        {
          assert items[1..][k] == items[k + 1];
        }
      }
      KeptIds(items[1..], access, keep[1..], ids[1..]);
      IdsStep(items, access);
      assert keep[0] == FilterItem(items[0], access).Some? && items[0].id == ids[0];
    }
  }

  /** `FilterMenuStep`, seen through the ids. */
  lemma IdsStep(items: seq<MenuItem>, access: string -> bool)
    requires |items| > 0
    ensures Ids(FilterMenu(items, access)) ==
              (if FilterItem(items[0], access).Some? then [items[0].id] else [])
              + Ids(FilterMenu(items[1..], access))
  {
    var r := FilterMenu(items, access);
    var rest := FilterMenu(items[1..], access);
    FilterMenuStep(items, access);
    if FilterItem(items[0], access).Some? {
      IdsOfCons(r, FilterItem(items[0], access).value, rest);
    } else {
      assert r == rest;
    }
  }

  lemma IdsOfCons(r: seq<MenuItem>, o: MenuItem, rest: seq<MenuItem>)
    requires r == [o] + rest
    ensures Ids(r) == [o.id] + Ids(rest)
  {
    assert Ids(r)[1..] == Ids(rest);
  }

  /** The ids of the application menu's top-level entries. */
  const MenuIds: seq<string> := ["dashboard", "finance", "warehouse-menu", "reports", "settings", "users"]

  lemma MenuIdsMatch()
    ensures |MockData.MenuItems| == |MenuIds|
    ensures forall k :: 0 <= k < |MenuIds| ==> MockData.MenuItems[k].id == MenuIds[k]
  {
  }

  /** An access test that allows exactly the regular user's five modules
      among the application's eight. */
  predicate RegularUserAllows(access: string -> bool) {
    && access("dashboard") && access("invoices") && access("customers") && access("products")
    && !access("warehouse") && access("reports") && !access("settings") && !access("users")
  }

  /** An access test that allows every application module but user
      management. */
  predicate AdminAllows(access: string -> bool) {
    && access("dashboard") && access("invoices") && access("customers") && access("products")
    && access("warehouse") && access("reports") && access("settings") && !access("users")
  }

  /** Which top-level entries of the application menu the regular user's
      access test keeps: dashboard, both groups (finance whole, warehouse
      without stock) and reports, but not settings or user management. */
  lemma RegularUserEntries(access: string -> bool)
    requires RegularUserAllows(access)
    ensures FilterItem(MockData.MenuItems[0], access).Some?
    ensures FilterItem(MockData.MenuItems[1], access).Some?
    ensures FilterItem(MockData.MenuItems[2], access).Some?
    ensures FilterItem(MockData.MenuItems[3], access).Some?
    ensures FilterItem(MockData.MenuItems[4], access).None?
    ensures FilterItem(MockData.MenuItems[5], access).None?
  {
    var fin := MockData.MenuItems[1].children.value;
    var wh := MockData.MenuItems[2].children.value;
    assert fin[0] in FilterChildren(fin, access);
    assert wh[0] in FilterChildren(wh, access);
  }

  lemma RegularUserMenu(access: string -> bool)
    requires RegularUserAllows(access)
    ensures Ids(FilterMenu(MockData.MenuItems, access)) == ["dashboard", "finance", "warehouse-menu", "reports"]
  {
    var keep := [true, true, true, true, false, false];
    RegularUserEntries(access);
    MenuIdsMatch();
    KeptIds(MockData.MenuItems, access, keep, MenuIds);
    PickDemo();
  }

  /** Which top-level entries the administrator's access test keeps: all
      but user management. */
  lemma AdminEntries(access: string -> bool)
    requires AdminAllows(access)
    ensures FilterItem(MockData.MenuItems[0], access).Some?
    ensures FilterItem(MockData.MenuItems[1], access).Some?
    ensures FilterItem(MockData.MenuItems[2], access).Some?
    ensures FilterItem(MockData.MenuItems[3], access).Some?
    ensures FilterItem(MockData.MenuItems[4], access).Some?
    ensures FilterItem(MockData.MenuItems[5], access).None?
  {
    var fin := MockData.MenuItems[1].children.value;
    var wh := MockData.MenuItems[2].children.value;
    assert fin[0] in FilterChildren(fin, access);
    assert wh[0] in FilterChildren(wh, access);
  }

  lemma AdminMenu(access: string -> bool)
    requires AdminAllows(access)
    ensures Ids(FilterMenu(MockData.MenuItems, access)) == ["dashboard", "finance", "warehouse-menu", "reports", "settings"]
  {
    var keep := [true, true, true, true, true, false];
    AdminEntries(access);
    MenuIdsMatch();
    KeptIds(MockData.MenuItems, access, keep, MenuIds);
    PickDemo();
  }

  lemma PickDemo()
    ensures Pick([true, true, true, true, false, false], MenuIds) == ["dashboard", "finance", "warehouse-menu", "reports"]
    ensures Pick([true, true, true, true, true, false], MenuIds) == ["dashboard", "finance", "warehouse-menu", "reports", "settings"]
  {
  }

  // ---------------------------------------------------------------------
  // the demo sessions

  /** Signing in with each demo email selects the matching row of the user
      table, whatever the password. */
  lemma DemoLogins(s: AuthStore.AuthState, password: string)
    ensures AuthStore.Login(s, MockData.Users, "superadmin@company.com", password).0.user == Some(MockData.Users[0])
    ensures AuthStore.Login(s, MockData.Users, "admin@company.com", password).0.user == Some(MockData.Users[1])
    ensures AuthStore.Login(s, MockData.Users, "user@company.com", password).0.user == Some(MockData.Users[2])
  {
    DemoLoginsOf(s, password, MockData.AllPermissions, MockData.AdminPermissions, MockData.UserPermissions);
  }

  lemma DemoLoginsOf(s: AuthStore.AuthState, password: string, a: seq<Permission>, b: seq<Permission>, c: seq<Permission>)
    ensures var users := MockData.DemoUsers(a, b, c);
            && AuthStore.Login(s, users, "superadmin@company.com", password).0.user == Some(users[0])
            && AuthStore.Login(s, users, "admin@company.com", password).0.user == Some(users[1])
            && AuthStore.Login(s, users, "user@company.com", password).0.user == Some(users[2])
  {
    var users := MockData.DemoUsers(a, b, c);
    assert users[0].email == "superadmin@company.com";
    assert users[1].email == "admin@company.com";
    assert users[2].email == "user@company.com";
  }

  /** What each demo user's sidebar shows: the superadmin everything, the
      administrator all but user management, the regular user dashboard,
      the two groups and reports. */
  lemma DemoSidebars(s: AuthStore.AuthState)
    ensures s.user == Some(MockData.Users[0]) ==> VisibleMenu(s, MockData.MenuItems) == MockData.MenuItems
    ensures s.user == Some(MockData.Users[1]) ==>
              Ids(VisibleMenu(s, MockData.MenuItems)) == ["dashboard", "finance", "warehouse-menu", "reports", "settings"]
    ensures s.user == Some(MockData.Users[2]) ==>
              Ids(VisibleMenu(s, MockData.MenuItems)) == ["dashboard", "finance", "warehouse-menu", "reports"]
  {
    MockData.UsersTable();
    if s.user == Some(MockData.Users[0]) {
      MenuGroupsNonEmpty();
      VisibleMenuExtremes(s, MockData.MenuItems);
    } else if s.user == Some(MockData.Users[1]) {
      AdminCoverage();
      AdminSidebar(s);
    } else if s.user == Some(MockData.Users[2]) {
      UserCoverage();
      RegularUserSidebar(s);
    }
  }

  lemma AdminSidebar(s: AuthStore.AuthState)
    requires s.user.Some? && s.user.value.role != SuperAdmin
    requires forall p :: p in s.user.value.permissions ==> p.canView
    requires AdminAllows((m: string) => m in MockData.Covered(s.user.value.permissions))
    ensures Ids(VisibleMenu(s, MockData.MenuItems)) == ["dashboard", "finance", "warehouse-menu", "reports", "settings"]
  {
    var access := SessionAccess(s);
    AdminAccessAtModules(s);
    AdminMenu(access);
  }

  lemma RegularUserSidebar(s: AuthStore.AuthState)
    requires s.user.Some? && s.user.value.role != SuperAdmin
    requires forall p :: p in s.user.value.permissions ==> p.canView
    requires RegularUserAllows((m: string) => m in MockData.Covered(s.user.value.permissions))
    ensures Ids(VisibleMenu(s, MockData.MenuItems)) == ["dashboard", "finance", "warehouse-menu", "reports"]
  {
    var access := SessionAccess(s);
    RegularUserAccessAtModules(s);
    RegularUserMenu(access);
  }

  lemma MenuGroupsNonEmpty()
    ensures forall k :: 0 <= k < |MockData.MenuItems| && MockData.MenuItems[k].children.Some? ==>
              |MockData.MenuItems[k].children.value| > 0
  {
  }

  /** When every permission grants viewing, access is exactly coverage. */
  lemma AccessIsCoverage(s: AuthStore.AuthState, m: string)
    requires s.user.Some? && s.user.value.role != SuperAdmin
    requires forall p :: p in s.user.value.permissions ==> p.canView
    ensures AuthStore.HasModuleAccess(s, m) <==> m in MockData.Covered(s.user.value.permissions)
  {
    var perms := s.user.value.permissions;
    if m in MockData.Covered(perms) {
      var p :| p in perms && p.moduleId == m;
      var k :| 0 <= k < |perms| && perms[k] == p;
    }
  }

  /** `AccessIsCoverage` at the eight application modules, for the
      administrator's pattern. */
  lemma AdminAccessAtModules(s: AuthStore.AuthState)
    requires s.user.Some? && s.user.value.role != SuperAdmin
    requires forall p :: p in s.user.value.permissions ==> p.canView
    requires AdminAllows((m: string) => m in MockData.Covered(s.user.value.permissions))
    ensures AdminAllows(SessionAccess(s))
  {
    AccessIsCoverage(s, "dashboard");
    AccessIsCoverage(s, "invoices");
    AccessIsCoverage(s, "customers");
    AccessIsCoverage(s, "products");
    AccessIsCoverage(s, "warehouse");
    AccessIsCoverage(s, "reports");
    AccessIsCoverage(s, "settings");
    AccessIsCoverage(s, "users");
  }

  /** `AccessIsCoverage` at the eight application modules, for the regular
      user's pattern. */
  lemma RegularUserAccessAtModules(s: AuthStore.AuthState)
    requires s.user.Some? && s.user.value.role != SuperAdmin
    requires forall p :: p in s.user.value.permissions ==> p.canView
    requires RegularUserAllows((m: string) => m in MockData.Covered(s.user.value.permissions))
    ensures RegularUserAllows(SessionAccess(s))
  {
    AccessIsCoverage(s, "dashboard");
    AccessIsCoverage(s, "invoices");
    AccessIsCoverage(s, "customers");
    AccessIsCoverage(s, "products");
    AccessIsCoverage(s, "warehouse");
    AccessIsCoverage(s, "reports");
    AccessIsCoverage(s, "settings");
    AccessIsCoverage(s, "users");
  }

  /** The regular user's permission set covers their five modules, each
      with viewing allowed. */
  lemma UserCoverage()
    ensures forall p :: p in MockData.UserPermissions ==> p.canView
    ensures RegularUserAllows((m: string) => m in MockData.Covered(MockData.UserPermissions))
  {
    MockData.UserPermissionsFacts();
    MockData.UserPermissionsShape(MockData.UserModuleIds);
  }

  /** The administrator's permission set covers every module but user
      management, each with viewing allowed. */
  lemma AdminCoverage()
    ensures forall p :: p in MockData.AdminPermissions ==> p.canView
    ensures AdminAllows((m: string) => m in MockData.Covered(MockData.AdminPermissions))
  {
    MockData.AdminPermissionsShape(MockData.AppModules);
    MockData.ModuleIdsIn();
    AdminAllowsAllBut(MockData.ModuleIdSet(MockData.AppModules), MockData.Covered(MockData.AdminPermissions));
  }

  /** Any set of the module ids less "users" is what `AdminAllows` asks for. */
  lemma AdminAllowsAllBut(ids: set<string>, covered: set<string>)
    requires MockData.HasModuleIds(ids) && covered == ids - {"users"}
    ensures AdminAllows((m: string) => m in covered)
  {
  }
}

=== FILE: auth_route.dfy ===
/** `POST /api/v1/auth`: the demo sign-in endpoint. A request without an
    email is refused with 400, an unknown email with 401; a known email,
    whatever the password, gets the user's public fields and the demo API
    key of the user's role, valid for "24h". */
module AuthRoute {
  import opened Optional
  import opened Types
  import opened ApiKey
  import AuthStore
  import MockData
  import InvoicesRoute
  import UsersRoute

  /** The `email` and `password` members of the JSON body; `None` stands
      for a missing or `null` member. */
  datatype Credentials = Credentials(email: Option<string>, password: Option<string>)

  /** The user fields the response echoes back. */
  datatype PublicUser = PublicUser(id: string, email: string, name: string, role: Role, permissions: seq<Permission>)

  datatype AuthResponse =
    | BadRequest(error: string)
    | Unauthorized(error: string)
    | Issued(user: PublicUser, apiKey: string, expiresIn: string)
  {
    function Status(): int {
      match this
      case BadRequest(_) => 400
      case Unauthorized(_) => 401
      case Issued(_, _, _) => 200
    }
  }

  const EmailRequired: string := "Email is required"
  const InvalidCredentials: string := "Invalid credentials"
  const KeyLifetime: string := "24h"

  /** `apiKeyMap[user.role]`. */
  function ApiKeyFor(role: Role): (key: string)
    ensures key in InvoicesRoute.ValidApiKeys
    ensures key in UsersRoute.AdminApiKeys <==> role != RegularUser
  {
    match role
    case SuperAdmin => "demo-key-superadmin-001"
    case Admin => "demo-key-admin-002"
    case RegularUser => "demo-key-user-003"
  }

  /** Each role has its own key. */
  lemma ApiKeyForInjective(a: Role, b: Role)
    requires ApiKeyFor(a) == ApiKeyFor(b)
    ensures a == b
  {
  }

  /** The handler. */
  function PostAuth(body: Credentials, users: seq<User>): (r: AuthResponse)
    ensures !Truthy(body.email) <==> r == BadRequest(EmailRequired)
    ensures Truthy(body.email) && !AuthStore.Registered(users, body.email.value) <==>
              r == Unauthorized(InvalidCredentials)
    ensures Truthy(body.email) && AuthStore.Registered(users, body.email.value) ==> r.Issued?
    ensures r.Issued? ==> Truthy(body.email) && r.user.email == body.email.value
                          && r.apiKey == ApiKeyFor(r.user.role) && r.expiresIn == KeyLifetime
                          && exists k :: 0 <= k < |users| && users[k].id == r.user.id
                                         && users[k].name == r.user.name
                                         && users[k].role == r.user.role
                                         && users[k].permissions == r.user.permissions
    ensures r.Issued? ==> var u := AuthStore.FindByEmail(users, body.email.value);
                          u.Some? && r.user == PublicUser(u.value.id, u.value.email, u.value.name, u.value.role, u.value.permissions)
  {
    if !Truthy(body.email) then BadRequest(EmailRequired)
    else match AuthStore.FindByEmail(users, body.email.value)
      case None => Unauthorized(InvalidCredentials)
      case Some(u) =>
        Issued(PublicUser(u.id, u.email, u.name, u.role, u.permissions), ApiKeyFor(u.role), KeyLifetime)
  }

  /** The endpoint and the client store agree: for a non-empty email a key is
      issued exactly when the store's `login` succeeds, and for the same user. */
  lemma AgreesWithLogin(s: AuthStore.AuthState, users: seq<User>, email: string, password: string)
    requires email != ""
    ensures var r := PostAuth(Credentials(Some(email), Some(password)), users);
            var (t, ok) := AuthStore.Login(s, users, email, password);
            && (r.Issued? <==> ok)
            && (ok ==> r.user.id == t.user.value.id && r.user.role == t.user.value.role
                       && r.user.permissions == t.user.value.permissions)
  {
  }

  /** Only the email decides the outcome. */
  lemma PasswordIgnored(email: Option<string>, p1: Option<string>, p2: Option<string>, users: seq<User>)
    ensures PostAuth(Credentials(email, p1), users) == PostAuth(Credentials(email, p2), users)
  {
  }

  /** An issued key opens the invoice endpoint; it opens the user list
      exactly when the user is not a regular user. */
  lemma IssuedKeyOpens(body: Credentials, users: seq<User>, other: Option<string>)
    requires PostAuth(body, users).Issued?
    ensures var r := PostAuth(body, users);
            && InvoicesRoute.ValidateApiKey(Headers(Some(r.apiKey), other)) == Accepted
            && (UsersRoute.ValidateApiKey(Headers(Some(r.apiKey), other)) == Accepted <==> r.user.role != RegularUser)
            && (r.user.role == RegularUser ==>
                  UsersRoute.ValidateApiKey(Headers(Some(r.apiKey), other)) == Rejected(UsersRoute.ForbiddenKeyError))
  {
  }

  /** The three demo accounts receive the keys of their roles. */
  lemma DemoKeys(password: Option<string>)
    ensures IssuesKey(password, MockData.Users, "superadmin@company.com", "demo-key-superadmin-001")
    ensures IssuesKey(password, MockData.Users, "admin@company.com", "demo-key-admin-002")
    ensures IssuesKey(password, MockData.Users, "user@company.com", "demo-key-user-003")
  {
    DemoKeysOf(password, MockData.AllPermissions, MockData.AdminPermissions, MockData.UserPermissions);
  }

  /** Signing in as `email` issues `key`. */
  predicate IssuesKey(password: Option<string>, users: seq<User>, email: string, key: string) {
    var r := PostAuth(Credentials(Some(email), password), users);
    r.Issued? && r.apiKey == key
  }

  lemma DemoKeysOf(password: Option<string>, a: seq<Permission>, b: seq<Permission>, c: seq<Permission>)
    ensures IssuesKey(password, MockData.DemoUsers(a, b, c), "superadmin@company.com", "demo-key-superadmin-001")
    ensures IssuesKey(password, MockData.DemoUsers(a, b, c), "admin@company.com", "demo-key-admin-002")
    ensures IssuesKey(password, MockData.DemoUsers(a, b, c), "user@company.com", "demo-key-user-003")
  {
    var users := MockData.DemoUsers(a, b, c);
    assert users[0].email == "superadmin@company.com";
    assert users[1].email == "admin@company.com";
    assert users[2].email == "user@company.com";
  }
}

=== FILE: auth_store.dfy ===
/** The web client's session store: a `{user, isAuthenticated}` record, the
    transitions `login`, `logout` and `switchUser`, and the permission
    queries `hasModuleAccess`, `getPermission` and `canPerform`.

    The store looks users up in the fixed `users` table; here that table is
    the parameter `users`, and `MockData.Users` is the instance the
    application uses. Persistence to browser storage is not modelled. */
module AuthStore {
  import opened Optional
  import opened Types
  import opened Seqs

  datatype AuthState = AuthState(user: Option<User>, isAuthenticated: bool)

  /** The state before anyone signs in. */
  const Initial: AuthState := AuthState(None, false)

  /** The store's invariant: signed in exactly when a user is recorded. */
  predicate Valid(s: AuthState) {
    s.isAuthenticated <==> s.user.Some?
  }

  /** Some entry of `users` has exactly this email. */
  predicate Registered(users: seq<User>, email: string) {
    exists k :: 0 <= k < |users| && users[k].email == email
  }

  /** `users.find(u => u.email === email)`. */
  function FindByEmail(users: seq<User>, email: string): (r: Option<User>)
    ensures r.None? <==> !Registered(users, email)
    ensures r.Some? ==> exists k :: 0 <= k < |users| && users[k] == r.value && r.value.email == email
                          && forall j :: 0 <= j < k ==> users[j].email != email
  {
    Find(users, (u: User) => u.email == email)
  }

  /** `users.find(u => u.id === userId)`: the first user with that id. */
  function FindById(users: seq<User>, id: string): (r: Option<User>)
    ensures r.None? <==> forall k :: 0 <= k < |users| ==> users[k].id != id
    ensures r.Some? ==> r.value in users && r.value.id == id
    ensures r.Some? ==> exists k :: 0 <= k < |users| && users[k] == r.value
                          && forall j :: 0 <= j < k ==> users[j].id != id
  {
    Find(users, (u: User) => u.id == id)
  }

  // ---------------------------------------------------------------------
  // transitions

  /** `login(email, password)`: signs in the first user with that email and
      reports success; the password is never looked at. On failure the state
      is left as it was. */
  function Login(s: AuthState, users: seq<User>, email: string, password: string): (r: (AuthState, bool))
    ensures r.1 <==> Registered(users, email)
    ensures !r.1 ==> r.0 == s
    ensures r.1 ==> r.0.isAuthenticated && r.0.user.Some? && r.0.user.value in users
                    && r.0.user.value.email == email
    ensures r.1 ==> r.0.user == FindByEmail(users, email)
  {
    match FindByEmail(users, email)
    case Some(u) => (AuthState(Some(u), true), true)
    case None => (s, false)
  }

  /** `logout()`: forgets the user. */
  function Logout(s: AuthState): (r: AuthState)
    ensures r.user.None? && !r.isAuthenticated
  {
    AuthState(None, false)
  }

  /** `switchUser(userId)`: signs in as the user with that id; an unknown id
      leaves the state as it was. */
  function SwitchUser(s: AuthState, users: seq<User>, id: string): (r: AuthState)
    ensures (forall k :: 0 <= k < |users| ==> users[k].id != id) ==> r == s
    ensures (exists k :: 0 <= k < |users| && users[k].id == id) ==>
              r.isAuthenticated && r.user.Some? && r.user.value in users && r.user.value.id == id
              && r.user == FindById(users, id)
  {
    match FindById(users, id)
    case Some(u) => AuthState(Some(u), true)
    case None => s
  }

  /** Every transition keeps `isAuthenticated` in step with `user`; a
      successful one establishes it from any state. */
  lemma TransitionsPreserveValid(s: AuthState, users: seq<User>, email: string, password: string, id: string)
    requires Valid(s)
    ensures Valid(Login(s, users, email, password).0)
    ensures Valid(Logout(s))
    ensures Valid(SwitchUser(s, users, id))
  {
  }

  /** The password plays no part in signing in. */
  lemma LoginIgnoresPassword(s: AuthState, users: seq<User>, email: string, p1: string, p2: string)
    ensures Login(s, users, email, p1) == Login(s, users, email, p2)
  {
  }

  /** Signing in then out returns to the initial state, whoever signed in. */
  lemma LoginThenLogout(s: AuthState, users: seq<User>, email: string, password: string)
    ensures Logout(Login(s, users, email, password).0) == Initial
  {
  }

  // ---------------------------------------------------------------------
  // queries

  /** Some permission of `perms` is for `moduleId` and grants viewing. */
  predicate Grants(perms: seq<Permission>, moduleId: string) {
    exists k :: 0 <= k < |perms| && perms[k].moduleId == moduleId && perms[k].canView
  }

  /** `hasModuleAccess(moduleId)`: nobody signed in sees nothing, the
      superadmin sees everything, anyone else sees the modules one of their
      permissions lets them view. */
  function HasModuleAccess(s: AuthState, moduleId: string): (r: bool)
    ensures s.user.None? ==> !r
    ensures s.user.Some? && s.user.value.role == SuperAdmin ==> r
    ensures s.user.Some? && s.user.value.role != SuperAdmin ==>
              (r <==> Grants(s.user.value.permissions, moduleId))
  {
    match s.user
    case None => false
    case Some(u) =>
      if u.role == SuperAdmin then true
      else Find(u.permissions, (p: Permission) => p.moduleId == moduleId && p.canView).Some?
  }

  /** `getPermission(moduleId)`: nothing when nobody is signed in; for the
      superadmin, a record for `moduleId` with every flag set; for anyone
      else, their first permission for `moduleId`, if any. */
  function GetPermission(s: AuthState, moduleId: string): (r: Option<Permission>)
    ensures s.user.None? ==> r.None?
    ensures s.user.Some? && s.user.value.role == SuperAdmin ==>
              r.Some? && r.value.moduleId == moduleId && forall a :: Flag(r.value, a)
    ensures s.user.Some? && s.user.value.role != SuperAdmin ==>
              var perms := s.user.value.permissions;
              && (r.None? <==> forall k :: 0 <= k < |perms| ==> perms[k].moduleId != moduleId)
              && (r.Some? ==> exists k :: 0 <= k < |perms| && perms[k] == r.value
                                && r.value.moduleId == moduleId
                                && forall j :: 0 <= j < k ==> perms[j].moduleId != moduleId)
  {
    match s.user
    case None => None
    case Some(u) =>
      if u.role == SuperAdmin then Some(Permission(moduleId, true, true, true, true, true, true))
      else Find(u.permissions, (p: Permission) => p.moduleId == moduleId)
  }

  /** `canPerform(moduleId, action)`: the action's flag in `getPermission`,
      false when there is none. */
  function CanPerform(s: AuthState, moduleId: string, action: Action): (r: bool)
    ensures GetPermission(s, moduleId).None? ==> !r
  {
    match GetPermission(s, moduleId)
    case None => false
    case Some(p) => Flag(p, action)
  }

  /** The superadmin may perform every action on every module, listed or not;
      nobody signed in may perform none. */
  lemma CanPerformExtremes(s: AuthState, moduleId: string, action: Action)
    ensures s.user.Some? && s.user.value.role == SuperAdmin ==> CanPerform(s, moduleId, action)
    ensures s.user.None? ==> !CanPerform(s, moduleId, action)
  {
  }

  /** For anyone but the superadmin, `canPerform` reads the flag of the first
      permission for the module. */
  lemma CanPerformReadsFirstMatch(s: AuthState, moduleId: string, action: Action, k: nat)
    requires s.user.Some? && s.user.value.role != SuperAdmin
    requires k < |s.user.value.permissions| && s.user.value.permissions[k].moduleId == moduleId
    requires forall j :: 0 <= j < k ==> s.user.value.permissions[j].moduleId != moduleId
    ensures CanPerform(s, moduleId, action) == Flag(s.user.value.permissions[k], action)
  {
    var perms := s.user.value.permissions;
    var r := GetPermission(s, moduleId);
    var i :| 0 <= i < |perms| && perms[i] == r.value && r.value.moduleId == moduleId
             && forall j :: 0 <= j < i ==> perms[j].moduleId != moduleId;
    assert i == k;
  }

  /** Viewing by `canPerform` implies `hasModuleAccess`. */
  lemma CanViewImpliesAccess(s: AuthState, moduleId: string)
    ensures CanPerform(s, moduleId, View) ==> HasModuleAccess(s, moduleId)
  {
    if CanPerform(s, moduleId, View) && s.user.value.role != SuperAdmin {
      var perms := s.user.value.permissions;
      var k :| 0 <= k < |perms| && perms[k] == GetPermission(s, moduleId).value
               && perms[k].moduleId == moduleId
               && forall j :: 0 <= j < k ==> perms[j].moduleId != moduleId;
      assert perms[k].canView;
    }
  }

  /** No two permissions of the list name the same module. */
  predicate UniqueModules(perms: seq<Permission>) {
    forall i, j :: 0 <= i < j < |perms| ==> perms[i].moduleId != perms[j].moduleId
  }

  /** With one permission per module, `canPerform(m, "canView")` and
      `hasModuleAccess(m)` agree. */
  lemma CanViewAgreesWithAccess(s: AuthState, moduleId: string)
    requires s.user.Some? ==> UniqueModules(s.user.value.permissions)
    ensures CanPerform(s, moduleId, View) == HasModuleAccess(s, moduleId)
  {
    CanViewImpliesAccess(s, moduleId);
    if HasModuleAccess(s, moduleId) && s.user.value.role != SuperAdmin {
      var perms := s.user.value.permissions;
      var k :| 0 <= k < |perms| && perms[k].moduleId == moduleId && perms[k].canView;
      var i :| 0 <= i < |perms| && perms[i] == GetPermission(s, moduleId).value
               && perms[i].moduleId == moduleId
               && forall j :: 0 <= j < i ==> perms[j].moduleId != moduleId;
      assert i == k;
    }
  }

  /** Without that uniqueness the two queries can disagree: a user whose
      first permission for a module hides it but whose second shows it has
      access by `hasModuleAccess` yet cannot view by `canPerform`. */
  lemma DuplicateModulesDisagree()
    ensures var hidden := Permission("m", false, false, false, false, false, false);
            var shown := Permission("m", true, false, false, false, false, false);
            var u := User("9", "x@y", "X", RegularUser, None, [hidden, shown], "", "");
            var s := AuthState(Some(u), true);
            HasModuleAccess(s, "m") && !CanPerform(s, "m", View)
  {
    var hidden := Permission("m", false, false, false, false, false, false);
    var shown := Permission("m", true, false, false, false, false, false);
    var u := User("9", "x@y", "X", RegularUser, None, [hidden, shown], "", "");
    var s := AuthState(Some(u), true);
    assert u.permissions[1].moduleId == "m" && u.permissions[1].canView;
  }
}

=== FILE: icons.dfy ===
/** The mobile app's icon lookup: the shared tables name Lucide icons, which
    the mobile app draws with the Material Community set; `iconMap` maps one
    to the other and `getIconName` falls back to "help-circle". */
module Icons {
  import opened Optional
  import opened Types
  import MockData

  /** `iconMap` as (Lucide name, Material name) pairs, in the order `icons.ts` lists them. */
  const IconMap: seq<(string, string)> := [
    ("LayoutDashboard", "view-dashboard"),
    ("FileText", "file-document-outline"),
    ("Users", "account-group"),
    ("Package", "package-variant"),
    ("Warehouse", "warehouse"),
    ("BarChart3", "chart-bar"),
    ("Settings", "cog"),
    ("Shield", "shield-account"),
    ("Banknote", "cash"),
    ("DollarSign", "currency-usd"),
    ("ShoppingCart", "cart"),
    ("TrendingUp", "trending-up"),
    ("AlertCircle", "alert-circle")
  ]

  const Fallback: string := "help-circle"

  function Keys(table: seq<(string, string)>): (r: seq<string>)
    ensures |r| == |table| && forall i :: 0 <= i < |table| ==> r[i] == table[i].0
  {
    seq(|table|, i requires 0 <= i < |table| => table[i].0)
  }

  function Values(table: seq<(string, string)>): (r: seq<string>)
    ensures |r| == |table| && forall i :: 0 <= i < |table| ==> r[i] == table[i].1
  {
    seq(|table|, i requires 0 <= i < |table| => table[i].1)
  }

  /** `table[name]`: the value of the first pair with that key. */
  function Lookup(table: seq<(string, string)>, name: string): (r: Option<string>)
    ensures r.None? <==> name !in Keys(table)
    ensures r.Some? ==> exists i :: 0 <= i < |table| && table[i] == (name, r.value)
  {
    if |table| == 0 then None
    else if table[0].0 == name then Some(table[0].1)
    else
      assert Keys(table) == [table[0].0] + Keys(table[1..]);
      var r := Lookup(table[1..], name);
      if r.Some? then
        var i :| 0 <= i < |table[1..]| && table[1..][i] == (name, r.value);
        assert table[i + 1] == (name, r.value);
        r
      else r
  }

  /** `iconMap[lucideName] ?? "help-circle"` over any table. */
  function IconNameIn(table: seq<(string, string)>, name: string): (r: string)
    ensures name !in Keys(table) ==> r == Fallback
    ensures name in Keys(table) ==> r in Values(table)
  {
    match Lookup(table, name)
    case Some(v) =>
      var i :| 0 <= i < |table| && table[i] == (name, v);
      assert Values(table)[i] == v;
      v
    case None => Fallback
  }

  /** `getIconName(lucideName)`. */
  function GetIconName(name: string): (r: string)
    ensures name !in Keys(IconMap) <==> r == Fallback
  {
    FallbackNotMapped();
    IconNameIn(IconMap, name)
  }

  /** With distinct values, names mapped by the table are told apart by
      their icons. */
  lemma {:induction false} LookupInjective(table: seq<(string, string)>, a: string, b: string)
    requires MockData.Distinct(Values(table))
    requires a in Keys(table) && b in Keys(table)
    requires IconNameIn(table, a) == IconNameIn(table, b)
    ensures a == b
  {
    var va := Lookup(table, a).value;
    var vb := Lookup(table, b).value;
    var i :| 0 <= i < |table| && table[i] == (a, va);
    var j :| 0 <= j < |table| && table[j] == (b, vb);
    assert Values(table)[i] == Values(table)[j];
  }

  lemma MapValues()
    ensures Values(IconMap) == ["view-dashboard", "file-document-outline", "account-group",
      "package-variant", "warehouse", "chart-bar", "cog", "shield-account", "cash",
      "currency-usd", "cart", "trending-up", "alert-circle"]
  {
  }

  lemma MapKeys()
    ensures Keys(IconMap) == ["LayoutDashboard", "FileText", "Users", "Package", "Warehouse",
      "BarChart3", "Settings", "Shield", "Banknote", "DollarSign", "ShoppingCart",
      "TrendingUp", "AlertCircle"]
  {
  }

  /** No two Material names in the map are equal. */
  lemma ValuesDistinct()
    ensures MockData.Distinct(Values(IconMap))
  {
    MapValues();
  }

  /** The fallback is not a value of the map, so a missing icon can be told
      from a mapped one. */
  lemma FallbackNotMapped()
    ensures Fallback !in Values(IconMap)
  {
    MapValues();
  }

  /** With distinct keys, the lookup of the `i`-th key finds the `i`-th
      value. */
  lemma {:induction false} LookupFindsEntry(table: seq<(string, string)>, i: nat)
    requires MockData.Distinct(Keys(table))
    requires i < |table|
    ensures Lookup(table, table[i].0) == Some(table[i].1)
  {
    if i > 0 {
      assert table[0].0 != table[i].0 by {
        assert Keys(table)[0] != Keys(table)[i];
      }
      assert MockData.Distinct(Keys(table[1..])) by {
        forall a, b | 0 <= a < b < |table[1..]| ensures Keys(table[1..])[a] != Keys(table[1..])[b] {
          assert Keys(table)[a + 1] != Keys(table)[b + 1];
        }
      }
      LookupFindsEntry(table[1..], i - 1);
      assert table[1..][i - 1] == table[i];
    }
  }

  /** Each of the thirteen Lucide names gets its own Material name. */
  lemma MappedNames(i: nat)
    requires i < |IconMap|
    ensures GetIconName(IconMap[i].0) == IconMap[i].1
  {
    KeysDistinct();
    LookupFindsEntry(IconMap, i);
  }

  /** No two Lucide names in the map are equal. */
  lemma KeysDistinct()
    ensures MockData.Distinct(Keys(IconMap))
  {
    MapKeys();
  }

  /** Two Lucide names draw the same Material icon only when they are the
      same name or both unmapped. */
  lemma GetIconNameInjective(a: string, b: string)
    requires GetIconName(a) == GetIconName(b)
    ensures a == b || (a !in Keys(IconMap) && b !in Keys(IconMap))
  {
    if a in Keys(IconMap) && b in Keys(IconMap) {
      ValuesDistinct();
      LookupInjective(IconMap, a, b);
    }
  }

  /** Every icon the module table names has a Material counterpart. */
  lemma ModuleIconsMapped()
    ensures forall m :: m in MockData.AppModules ==> m.icon in Keys(IconMap)
  {
    MapKeys();
  }

  /** Every icon of the menu, top-level entries and children alike, has a
      Material counterpart. */
  lemma MenuIconsMapped()
    ensures forall it :: it in MockData.MenuItems ==> it.icon in Keys(IconMap)
    ensures forall it, c :: it in MockData.MenuItems && it.children.Some? && c in it.children.value ==>
              c.icon in Keys(IconMap)
  {
    MenuIcons();
    KeysHold();
    IconsIn(MockData.MenuItems, Keys(IconMap));
  }

  /** The icons the menu draws, entry by entry. */
  predicate MenuIconShape(items: seq<MenuItem>) {
    && |items| == 6
    && items[0].icon == "LayoutDashboard" && items[0].children.None?
    && items[1].icon == "Banknote" && items[1].children.Some? && |items[1].children.value| == 2
    && items[1].children.value[0].icon == "FileText" && items[1].children.value[1].icon == "Users"
    && items[2].icon == "Package" && items[2].children.Some? && |items[2].children.value| == 2
    && items[2].children.value[0].icon == "Package" && items[2].children.value[1].icon == "Warehouse"
    && items[3].icon == "BarChart3" && items[3].children.None?
    && items[4].icon == "Settings" && items[4].children.None?
    && items[5].icon == "Shield" && items[5].children.None?
  }

  /** A list holding the icon names the menu uses. */
  predicate HasMenuIcons(keys: seq<string>) {
    "LayoutDashboard" in keys && "Banknote" in keys && "FileText" in keys && "Users" in keys &&
    "Package" in keys && "Warehouse" in keys && "BarChart3" in keys && "Settings" in keys &&
    "Shield" in keys
  }

  lemma MenuIcons()
    ensures MenuIconShape(MockData.MenuItems)
  {
  }

  lemma KeysHold()
    ensures HasMenuIcons(Keys(IconMap))
  {
    var keys := Keys(IconMap);
    assert keys[0] == "LayoutDashboard" && keys[1] == "FileText" && keys[2] == "Users";
    assert keys[3] == "Package" && keys[4] == "Warehouse" && keys[5] == "BarChart3";
    assert keys[6] == "Settings" && keys[7] == "Shield" && keys[8] == "Banknote";
  }

  lemma IconsIn(items: seq<MenuItem>, keys: seq<string>)
    requires MenuIconShape(items) && HasMenuIcons(keys)
    ensures forall it :: it in items ==> it.icon in keys
    ensures forall it, c :: it in items && it.children.Some? && c in it.children.value ==> c.icon in keys
  {
    forall it | it in items ensures it.icon in keys {
      var i :| 0 <= i < |items| && items[i] == it;
    }
    forall it, c | it in items && it.children.Some? && c in it.children.value ensures c.icon in keys {
      var i :| 0 <= i < |items| && items[i] == it;
      var j :| 0 <= j < |it.children.value| && it.children.value[j] == c;
    }
  }
}

=== FILE: invoices_route.dfy ===
/** `GET /api/v1/invoices`: after the API-key check, the invoice list is
    narrowed by an optional status and an optional case-insensitive search,
    then cut to one page with `slice`. The invoice table is a parameter; the
    web application's own data file is not part of this model. */
module InvoicesRoute {
  import opened Optional
  import opened Types
  import opened Seqs
  import Paging
  import opened Strings
  import opened JsNumber
  import opened ApiKey

  const ValidApiKeys: seq<string> := ["demo-key-superadmin-001", "demo-key-admin-002", "demo-key-user-003"]
  const MissingKeyError: string := "Missing API key. Provide x-api-key header or Bearer token."
  const InvalidKeyError: string := "Invalid API key."

  function ValidateApiKey(h: Headers): KeyCheck {
    CheckApiKey(h, ValidApiKeys, MissingKeyError, InvalidKeyError)
  }

  /** The query parameters the handler reads (`searchParams.get` gives
      `null` for an absent one). */
  datatype Query = Query(status: Option<string>, search: Option<string>, page: Option<string>, limit: Option<string>)

  datatype Pagination = Pagination(page: Num, limit: Num, total: nat, totalPages: Num)

  datatype ListResponse =
    | Unauthorized(error: string)
    | Listed(data: seq<Invoice>, pagination: Pagination)
  {
    function Status(): int {
      if Unauthorized? then 401 else 200
    }
  }

  // ---------------------------------------------------------------------
  // filters

  /** `status && status !== "all"`: whether the status filter applies. */
  predicate FiltersStatus(status: Option<string>) {
    Truthy(status) && status.value != "all"
  }

  /** What the two filters together ask of one invoice. */
  predicate Matches(i: Invoice, status: Option<string>, search: Option<string>) {
    && (FiltersStatus(status) ==> i.status.Name() == status.value)
    && (Truthy(search) ==> Mentions(i, ToLower(search.value)))
  }

  /** The invoice's number or customer, lower-cased, contains `q`. */
  predicate Mentions(i: Invoice, q: string) {
    Contains(ToLower(i.number), q) || Contains(ToLower(i.customer), q)
  }

  /** `i.status === status`. */
  function HasStatus(status: string): Invoice -> bool {
    (i: Invoice) => i.status.Name() == status
  }

  /** `i.number.toLowerCase().includes(q) || i.customer.toLowerCase().includes(q)`. */
  function MentionsQuery(q: string): Invoice -> bool {
    (i: Invoice) => Mentions(i, q)
  }

  /** The status filter followed by the search filter, as the handler
      applies them. */
  function ApplyFilters(invoices: seq<Invoice>, status: Option<string>, search: Option<string>): seq<Invoice> {
    var byStatus := if FiltersStatus(status) then Filter(invoices, HasStatus(status.value)) else invoices;
    if Truthy(search) then Filter(byStatus, MentionsQuery(ToLower(search.value))) else byStatus
  }

  /** The two filters keep exactly the invoices matching both, in their
      original order. */
  lemma FiltersKeepMatches(invoices: seq<Invoice>, status: Option<string>, search: Option<string>)
    ensures ApplyFilters(invoices, status, search) == Filter(invoices, MatchesAll(status, search))
  {
    var m := MatchesAll(status, search);
    if Truthy(search) && FiltersStatus(status) {
      BothFilters(invoices, status, search);
    } else if Truthy(search) {
      assert forall i :: MentionsQuery(ToLower(search.value))(i) == m(i);
      FilterSameAs(invoices, MentionsQuery(ToLower(search.value)), m);
    } else if FiltersStatus(status) {
      assert forall i :: HasStatus(status.value)(i) == m(i);
      FilterSameAs(invoices, HasStatus(status.value), m);
    } else {
      assert forall k :: 0 <= k < |invoices| ==> m(invoices[k]);
      FilterAll(invoices, m);
    }
  }

  lemma BothFilters(invoices: seq<Invoice>, status: Option<string>, search: Option<string>)
    requires Truthy(search) && FiltersStatus(status)
    ensures Filter(Filter(invoices, HasStatus(status.value)), MentionsQuery(ToLower(search.value)))
            == Filter(invoices, MatchesAll(status, search))
  {
    var st := HasStatus(status.value);
    var se := MentionsQuery(ToLower(search.value));
    var m := MatchesAll(status, search);
    assert forall i :: m(i) == (st(i) && se(i));
    FilterCompose(invoices, st, se, m);
  }

  /** `Matches` as a predicate to filter with. */
  function MatchesAll(status: Option<string>, search: Option<string>): Invoice -> bool {
    (i: Invoice) => Matches(i, status, search)
  }

  /** Filtering by two predicates that agree gives the same list. */
  lemma {:induction false} FilterSameAs<T>(s: seq<T>, p: T -> bool, q: T -> bool)
    requires forall x :: p(x) == q(x)
    ensures Filter(s, p) == Filter(s, q)
  {
    if |s| > 0 {
      FilterSameAs(s[1..], p, q);
    }
  }

  /** The search ignores the case of the query. */
  lemma SearchIgnoresCase(i: Invoice, status: Option<string>, q: string)
    ensures Matches(i, status, Some(ToUpper(q))) == Matches(i, status, Some(q))
  {
    LowerForgetsCase(q);
  }

  /** "all", an empty status and no status all mean every status. */
  lemma AllMeansNoStatusFilter(invoices: seq<Invoice>, search: Option<string>)
    ensures ApplyFilters(invoices, Some("all"), search) == ApplyFilters(invoices, None, search)
    ensures ApplyFilters(invoices, Some(""), search) == ApplyFilters(invoices, None, search)
  {
  }

  // ---------------------------------------------------------------------
  // pagination

  /** `parseInt(param || fallback)`. */
  function NumberParam(param: Option<string>, fallback: string): (n: Num)
    ensures n != Infinity
  {
    JsParseInt(if Truthy(param) then param.value else fallback)
  }

  /** `result.slice(offset, offset + limit)` with `offset = (page - 1) * limit`. */
  function Paginate(result: seq<Invoice>, page: Num, limit: Num): (data: seq<Invoice>)
    requires page != Infinity && limit != Infinity
    ensures IsSubsequence(data, result)
  {
    var offset := Mul(SubInt(page, 1), limit);
    JsSlice(result, SliceIndex(offset), SliceIndex(Add(offset, limit)))
  }

  /** The handler: 401 with the check's message, or one page of the
      filtered list with its pagination record. */
  function ListInvoices(h: Headers, q: Query, invoices: seq<Invoice>): (r: ListResponse)
    ensures r.Unauthorized? <==> ValidateApiKey(h).Rejected?
    ensures r.Unauthorized? ==> r.error == ValidateApiKey(h).error
    ensures r.Listed? ==>
              && IsSubsequence(r.data, invoices)
              && (forall k :: 0 <= k < |r.data| ==> Matches(r.data[k], q.status, q.search))
              && r.pagination.total == |Filter(invoices, MatchesAll(q.status, q.search))|
              && r.pagination.page == NumberParam(q.page, "1")
              && r.pagination.limit == NumberParam(q.limit, "20")
    ensures r.Listed? ==>
              && r.data == Paginate(Filter(invoices, MatchesAll(q.status, q.search)), r.pagination.page, r.pagination.limit)
              && r.pagination.totalPages == CeilDiv(r.pagination.total, r.pagination.limit)
    ensures r.Listed? && r.pagination.page.Int? && r.pagination.limit.Int?
              && r.pagination.page.value >= 1 && r.pagination.limit.value >= 1 ==>
              r.data == Paging.Window(Filter(invoices, MatchesAll(q.status, q.search)),
                                      r.pagination.page.value, r.pagination.limit.value)
  {
    match ValidateApiKey(h)
    case Rejected(e) => Unauthorized(e)
    case Accepted =>
      var result := ApplyFilters(invoices, q.status, q.search);
      var page := NumberParam(q.page, "1");
      var limit := NumberParam(q.limit, "20");
      var total := |result|;
      var data := Paginate(result, page, limit);
      PageOfMatches(invoices, q.status, q.search, data);
      ListedWindow(result, page, limit);
      Listed(data, Pagination(page, limit, total, CeilDiv(total, limit)))
  }

  /** For a positive page and limit, `Paginate` cuts the page's window,
      the same one the benchmarking API's pages are measured against. */
  lemma ListedWindow(result: seq<Invoice>, page: Num, limit: Num)
    requires page != Infinity && limit != Infinity
    ensures page.Int? && limit.Int? && page.value >= 1 && limit.value >= 1 ==>
              Paginate(result, page, limit) == Paging.Window(result, page.value, limit.value)
  {
    if page.Int? && limit.Int? && page.value >= 1 && limit.value >= 1 {
      var lo := (page.value - 1) * limit.value;
      PageWindow(result, page.value, limit.value);
      assert lo >= 0 by { NonNegProduct(page.value - 1, limit.value); }
    }
  }

  /** Any subsequence of the filtered list is one of the whole list, and
      holds only matching invoices. */
  lemma PageOfMatches(invoices: seq<Invoice>, status: Option<string>, search: Option<string>, data: seq<Invoice>)
    requires IsSubsequence(data, ApplyFilters(invoices, status, search))
    ensures ApplyFilters(invoices, status, search) == Filter(invoices, MatchesAll(status, search))
    ensures IsSubsequence(data, invoices)
    ensures forall k :: 0 <= k < |data| ==> Matches(data[k], status, search)
  {
    FiltersKeepMatches(invoices, status, search);
    SubsequenceOfFilter(invoices, MatchesAll(status, search), data);
  }

  /** For a positive page and limit the page is the window
      `[(page - 1) * limit, page * limit)` of the filtered list, cut at its end. */
  lemma PageWindow(result: seq<Invoice>, page: int, limit: int)
    requires page >= 1 && limit >= 1
    ensures var lo := (page - 1) * limit;
            Paginate(result, Int(page), Int(limit)) ==
              (if lo >= |result| then [] else result[lo..Paging.Min(lo + limit, |result|)])
  {
    var lo := (page - 1) * limit;
    assert lo >= 0 by { NonNegProduct(page - 1, limit); }
  }

  lemma NonNegProduct(a: int, b: int)
    requires a >= 0 && b >= 0
    ensures a * b >= 0
  {
  }

  /** A page never holds more than `limit` invoices, and none when `limit`
      is zero or the page is not a number. */
  lemma PageSize(result: seq<Invoice>, page: Num, limit: int)
    requires page != Infinity
    requires limit >= 0
    ensures |Paginate(result, page, Int(limit))| <= limit
    ensures page == NaN || limit == 0 ==> Paginate(result, page, Int(limit)) == []
  {
    var offset := Mul(SubInt(page, 1), Int(limit));
    JsSliceLength(result, SliceIndex(offset), SliceIndex(Add(offset, Int(limit))));
  }

  /** With a positive limit, page `p >= 1` is non-empty exactly when
      `p <= totalPages`. */
  lemma NonEmptyPages(result: seq<Invoice>, page: int, limit: int)
    requires page >= 1 && limit >= 1
    ensures var totalPages := CeilDiv(|result|, Int(limit));
            totalPages.Int? && (|Paginate(result, Int(page), Int(limit))| > 0 <==> page <= totalPages.value)
  {
    PageWindow(result, page, limit);
    var tp := CeilDiv(|result|, Int(limit)).value;
    assert (tp - 1) * limit < |result| <= tp * limit;
    if page <= tp {
      MulMonotone(page - 1, tp - 1, limit);
    } else {
      MulMonotone(tp, page - 1, limit);
    }
  }

  lemma MulMonotone(a: int, b: int, c: int)
    requires a <= b && c >= 0
    ensures a * c <= b * c
  {
  }

  /** The first `n` pages, one after the other. */
  function FirstPages(result: seq<Invoice>, limit: int, n: nat): seq<Invoice>
    requires limit >= 1
  {
    if n == 0 then [] else FirstPages(result, limit, n - 1) + Paginate(result, Int(n), Int(limit))
  }

  /** The first `n` pages are the first `n * limit` invoices. */
  lemma {:induction false} PagesCover(result: seq<Invoice>, limit: int, n: nat)
    requires limit >= 1
    ensures FirstPages(result, limit, n) == result[..Paging.Min(n * limit, |result|)]
  {
    if n > 0 {
      var lo := (n - 1) * limit;
      assert lo >= 0 by { NonNegProduct(n - 1, limit); }
      var before := FirstPages(result, limit, n - 1);
      var page := Paginate(result, Int(n), Int(limit));
      assert before == result[..Paging.Min(lo, |result|)] by { PagesCover(result, limit, n - 1); }
      assert page == (if lo >= |result| then [] else result[lo..Paging.Min(lo + limit, |result|)]) by {
        PageWindow(result, n, limit);
      }
      CoverStep(result, before, page, lo, limit);
      assert lo + limit == n * limit by { MulStep(n, limit); }
    }
  }

  /** The invoices before `lo`, then the page from `lo`, are the invoices
      before `lo + limit`. */
  lemma CoverStep(result: seq<Invoice>, before: seq<Invoice>, page: seq<Invoice>, lo: nat, limit: int)
    requires limit >= 1
    requires before == result[..Paging.Min(lo, |result|)]
    requires page == (if lo >= |result| then [] else result[lo..Paging.Min(lo + limit, |result|)])
    ensures before + page == result[..Paging.Min(lo + limit, |result|)]
  {
    var e := Paging.Min(lo + limit, |result|);
    if lo < |result| {
      assert result[..lo] + result[lo..e] == result[..e];
    }
  }

  lemma MulStep(n: int, limit: int)
    ensures (n - 1) * limit + limit == n * limit
  {
  }

  lemma CeilCovers(total: nat, limit: int)
    requires limit >= 1
    ensures CeilDiv(total, Int(limit)).Int?
    ensures CeilDiv(total, Int(limit)).value >= 0
    ensures Paging.Min(CeilDiv(total, Int(limit)).value * limit, total) == total
  {
    var c := (total + limit - 1) / limit;
    assert CeilDiv(total, Int(limit)) == Int(c);
    assert total <= c * limit;
  }

  /** The `totalPages` pages together are the whole filtered list. */
  lemma AllPagesCover(result: seq<Invoice>, limit: int)
    requires limit >= 1
    ensures FirstPages(result, limit, CeilDiv(|result|, Int(limit)).value) == result
  {
    var n := CeilDiv(|result|, Int(limit)).value;
    CeilCovers(|result|, limit);
    PagesCover(result, limit, n);
    assert result[..|result|] == result;
  }

  /** A page number below 1 does not give an empty page: `slice` counts a
      negative offset from the end, so page 0 is empty but page -1 holds
      the invoices two pages before the end. */
  lemma NegativePageCountsFromEnd(result: seq<Invoice>, limit: int)
    requires limit >= 1 && |result| >= 2 * limit
    ensures Paginate(result, Int(0), Int(limit)) == []
    ensures Paginate(result, Int(-1), Int(limit)) == result[|result| - 2 * limit..|result| - limit]
  {
  }

  /** A negative limit on page 1 returns all but the last `-limit`
      invoices. */
  lemma NegativeLimitDropsTail(result: seq<Invoice>, limit: int)
    requires limit < 0 && |result| >= -limit
    ensures Paginate(result, Int(1), Int(limit)) == result[..|result| + limit]
  {
  }

  /** Without a listed key nothing is returned; with one the first page
      holds at most twenty invoices when no page or limit is given. */
  lemma DefaultPage(h: Headers, invoices: seq<Invoice>, status: Option<string>, search: Option<string>)
    requires ValidateApiKey(h).Accepted?
    ensures var r := ListInvoices(h, Query(status, search, None, None), invoices);
            r.Listed? && r.pagination.page == Int(1) && r.pagination.limit == Int(20) && |r.data| <= 20
  {
    ParseIntDefaults();
    var result := ApplyFilters(invoices, status, search);
    PageSize(result, Int(1), 20);
  }

  lemma ParseIntDefaults()
    ensures JsParseInt("1") == Int(1)
    ensures JsParseInt("20") == Int(20)
  {
    DefaultNumber("1");
    DefaultNumber("20");
    assert "1"[..0] == "";
    assert "20"[..1] == "2";
    assert "2"[..0] == "";
  }

  /** A fallback made of digits is read as a decimal number. */
  lemma DefaultNumber(d: string)
    requires |d| > 0 && forall i :: 0 <= i < |d| ==> IsDigit(d[i])
    ensures JsParseInt(d) == Int(DigitsValue(d, false))
  {
    assert d + "" == d;
    UnsignedDecimal(d, "");
    StartsUnsigned(d);
  }
}

=== FILE: js_number.dfy ===
/** The JavaScript number arithmetic the invoice list endpoint relies on:
    global `parseInt` without a radix, the `Math.ceil(total / limit)` page
    count, and how `Array.prototype.slice` reads a number argument.

    Only the integer-valued numbers these operations can produce are kept:
    an integer, `NaN`, or `+Infinity`. Integers are unbounded; the loss of
    precision above 2^53 and the overflow of very long digit strings to
    `Infinity` are not modelled. */
module JsNumber {
  import opened Strings

  datatype Num = Int(value: int) | NaN | Infinity

  /** The white space and line terminators `parseInt` skips before the
      number (section 12.2 and 12.3 of ECMA-262). */
  predicate IsJsSpace(c: char) {
    var n := c as int;
    n == 0x09 || n == 0x0A || n == 0x0B || n == 0x0C || n == 0x0D || n == 0x20
    || n == 0xA0 || n == 0x1680 || (0x2000 <= n <= 0x200A) || n == 0x2028 || n == 0x2029
    || n == 0x202F || n == 0x205F || n == 0x3000 || n == 0xFEFF
  }

  /** The number of leading white-space characters of `s`. */
  function LeadingSpaces(s: string): (n: nat)
    ensures n <= |s|
    ensures forall i :: 0 <= i < n ==> IsJsSpace(s[i])
    ensures n < |s| ==> !IsJsSpace(s[n])
  {
    if |s| == 0 || !IsJsSpace(s[0]) then 0 else 1 + LeadingSpaces(s[1..])
  }

  predicate IsHexDigit(c: char) {
    IsDigit(c) || 'a' <= c <= 'f' || 'A' <= c <= 'F'
  }

  function HexDigitValue(c: char): (v: nat)
    requires IsHexDigit(c)
    ensures v < 16
  {
    if IsDigit(c) then DigitValue(c)
    else if 'a' <= c <= 'f' then c as int - 'a' as int + 10
    else c as int - 'A' as int + 10
  }

  /** A digit of the given radix (10 or 16). */
  predicate IsRadixDigit(c: char, hex: bool) {
    if hex then IsHexDigit(c) else IsDigit(c)
  }

  /** The length of the longest prefix of `s` made of radix digits. */
  function DigitRun(s: string, hex: bool): (n: nat)
    ensures n <= |s|
    ensures forall i :: 0 <= i < n ==> IsRadixDigit(s[i], hex)
    ensures n < |s| ==> !IsRadixDigit(s[n], hex)
  {
    if |s| == 0 || !IsRadixDigit(s[0], hex) then 0 else 1 + DigitRun(s[1..], hex)
  }

  /** The value of a string of radix digits, most significant first. */
  function DigitsValue(s: string, hex: bool): nat
    requires forall i :: 0 <= i < |s| ==> IsRadixDigit(s[i], hex)
  {
    if |s| == 0 then 0
    else
      var last := s[|s| - 1];
      assert IsRadixDigit(last, hex);
      DigitsValue(s[..|s| - 1], hex) * (if hex then 16 else 10)
      + (if hex then HexDigitValue(last) else DigitValue(last))
  }

  /** `parseInt(s)` with no radix (section 19.2.5 of ECMA-262): leading
      white space is skipped and one sign is read; the rest is read by
      `ParseUnsigned`. */
  function JsParseInt(s: string): (r: Num)
    ensures r != Infinity
  {
    var t := s[LeadingSpaces(s)..];
    if |t| > 0 && t[0] == '-' then Negate(ParseUnsigned(t[1..]))
    else if |t| > 0 && t[0] == '+' then ParseUnsigned(t[1..])
    else ParseUnsigned(t)
  }

  /** The digits after the sign: a `0x`/`0X` prefix selects base 16, and
      the longest run of digits that follows is the value; `NaN` when that
      run is empty. Anything after the run is ignored. */
  function ParseUnsigned(u: string): (r: Num)
    ensures r != Infinity
    ensures r.Int? ==> r.value >= 0
  {
    var hex := |u| >= 2 && u[0] == '0' && (u[1] == 'x' || u[1] == 'X');
    var digits := if hex then u[2..] else u;
    var n := DigitRun(digits, hex);
    if n == 0 then NaN else Int(DigitsValue(digits[..n], hex))
  }

  /** The sign applied to a parsed magnitude. */
  function Negate(a: Num): (r: Num)
    requires a != Infinity
    ensures r != Infinity
    ensures r.Int? <==> a.Int?
    ensures r.Int? ==> r.value == -a.value
  {
    if a.Int? then Int(-a.value) else NaN
  }

  /** Decimal digits read back as `ParseNat` reads them. */
  lemma {:induction false} DecimalDigitsValue(s: string)
    requires forall i :: 0 <= i < |s| ==> IsDigit(s[i])
    ensures DigitsValue(s, false) == ParseNat(s)
  {
    if |s| > 0 {
      DecimalDigitsValue(s[..|s| - 1]);
    }
  }

  /** Decimal digits followed by a character that is no digit and no `x`
      are read as a decimal number. */
  lemma UnsignedDecimal(d: string, rest: string)
    requires |d| > 0 && forall i :: 0 <= i < |d| ==> IsDigit(d[i])
    requires |rest| > 0 ==> !IsDigit(rest[0]) && rest[0] != 'x' && rest[0] != 'X'
    ensures ParseUnsigned(d + rest) == Int(DigitsValue(d, false))
  {
    var u := d + rest;
    assert |u| >= 2 ==> u[1] != 'x' && u[1] != 'X' by {
      if |u| >= 2 {
        if |d| >= 2 { assert u[1] == d[1]; } else { assert u[1] == rest[0]; }
      }
    }
    DigitRunOf(d, rest);
    assert u[..|d|] == d;
  }

  /** A string that starts with a digit is read without a sign. */
  lemma StartsUnsigned(s: string)
    requires |s| > 0 && IsDigit(s[0])
    ensures JsParseInt(s) == ParseUnsigned(s)
  {
    assert !IsJsSpace(s[0]);
    assert s[LeadingSpaces(s)..] == s;
  }

  /** A leading `-` negates what follows it. */
  lemma MinusOf(m: string, x: string)
    requires |m| == |x| + 1 && m[0] == '-' && m[1..] == x
    ensures JsParseInt(m) == Negate(ParseUnsigned(x))
  {
    assert !IsJsSpace(m[0]);
    assert m[LeadingSpaces(m)..] == m;
  }

  /** Decimal digits followed by a character that is not a digit, not `x`
      and not `X` parse to their value, with or without a minus sign. */
  lemma DigitsThenStop(d: string, rest: string)
    requires |d| > 0 && forall i :: 0 <= i < |d| ==> IsDigit(d[i])
    requires |rest| > 0 ==> !IsDigit(rest[0]) && rest[0] != 'x' && rest[0] != 'X'
    ensures JsParseInt(d + rest) == Int(ParseNat(d))
    ensures JsParseInt("-" + d + rest) == Int(-(ParseNat(d) as int))
  {
    DecimalThenStop(d, rest);
    MinusThenStop(d, rest);
  }

  /** The positive case of `DigitsThenStop`. */
  lemma DecimalThenStop(d: string, rest: string)
    requires |d| > 0 && forall i :: 0 <= i < |d| ==> IsDigit(d[i])
    requires |rest| > 0 ==> !IsDigit(rest[0]) && rest[0] != 'x' && rest[0] != 'X'
    ensures JsParseInt(d + rest) == Int(ParseNat(d))
  {
    DecimalValue(d, rest);
    assert (d + rest)[0] == d[0];
    StartsUnsigned(d + rest);
  }

  /** The negative case of `DigitsThenStop`. */
  lemma MinusThenStop(d: string, rest: string)
    requires |d| > 0 && forall i :: 0 <= i < |d| ==> IsDigit(d[i])
    requires |rest| > 0 ==> !IsDigit(rest[0]) && rest[0] != 'x' && rest[0] != 'X'
    ensures JsParseInt("-" + d + rest) == Int(-(ParseNat(d) as int))
  {
    DecimalValue(d, rest);
    MinusConcat(d, rest);
  }

  /** `UnsignedDecimal` with the value read as `ParseNat` reads it. */
  lemma DecimalValue(d: string, rest: string)
    requires |d| > 0 && forall i :: 0 <= i < |d| ==> IsDigit(d[i])
    requires |rest| > 0 ==> !IsDigit(rest[0]) && rest[0] != 'x' && rest[0] != 'X'
    ensures ParseUnsigned(d + rest) == Int(ParseNat(d))
  {
    UnsignedDecimal(d, rest);
    DecimalDigitsValue(d);
  }

  /** A minus sign in front of `d + rest` negates what `d + rest` reads as. */
  lemma MinusConcat(d: string, rest: string)
    ensures JsParseInt("-" + d + rest) == Negate(ParseUnsigned(d + rest))
  {
    var m := "-" + d + rest;
    assert m[1..] == d + rest;
    MinusOf(m, d + rest);
  }

  /** A decimal numeral followed by a character that is not a digit, not
      `x` and not `X` parses to its value. */
  lemma NumeralThenStop(n: nat, rest: string)
    requires |rest| > 0 ==> !IsDigit(rest[0]) && rest[0] != 'x' && rest[0] != 'X'
    ensures JsParseInt(NatToString(n) + rest) == Int(n)
    ensures JsParseInt("-" + NatToString(n) + rest) == Int(-(n as int))
  {
    DigitsThenStop(NatToString(n), rest);
    ParseNatToString(n);
  }

  lemma {:induction false} DigitRunOf(d: string, rest: string)
    requires forall i :: 0 <= i < |d| ==> IsDigit(d[i])
    requires |rest| > 0 ==> !IsDigit(rest[0])
    ensures DigitRun(d + rest, false) == |d|
  {
    if |d| > 0 {
      DigitRunOf(d[1..], rest);
      assert (d + rest)[1..] == d[1..] + rest;
    }
  }

  /** `parseInt` reads back every integer C#-style or JavaScript-style
      decimal formatting writes. */
  lemma ParseIntOfString(n: int)
    ensures JsParseInt(IntToString(n)) == Int(n)
  {
    if n < 0 {
      var m: nat := -n;
      NumeralThenStop(m, "");
      assert IntToString(n) == "-" + NatToString(m);
      assert "-" + NatToString(m) + "" == "-" + NatToString(m);
    } else {
      NumeralThenStop(n, "");
      assert IntToString(n) == NatToString(n);
      assert NatToString(n) + "" == NatToString(n);
    }
  }

  /** A fractional part is cut off, not rounded: `parseInt("2.9") == 2`. */
  lemma ParseIntTruncates(n: nat, fraction: string)
    ensures JsParseInt(NatToString(n) + "." + fraction) == Int(n)
  {
    assert NatToString(n) + "." + fraction == NatToString(n) + ("." + fraction);
    NumeralThenStop(n, "." + fraction);
  }

  /** Leading white space changes nothing. */
  lemma ParseIntSkipsSpace(c: char, s: string)
    requires IsJsSpace(c)
    ensures JsParseInt([c] + s) == JsParseInt(s)
  {
    assert ([c] + s)[1..] == s;
    assert ([c] + s)[LeadingSpaces([c] + s)..] == s[LeadingSpaces(s)..];
  }

  /** A string whose first non-space character is neither a sign nor a
      digit is not a number. */
  lemma ParseIntNaN(s: string)
    requires LeadingSpaces(s) < |s|
    requires var c := s[LeadingSpaces(s)]; !IsDigit(c) && c != '-' && c != '+'
    ensures JsParseInt(s) == NaN
  {
  }

  /** The hexadecimal prefix is honoured: `parseInt("0x1f") == 31`. */
  lemma ParseIntHex(h: string)
    requires |h| > 0 && forall i :: 0 <= i < |h| ==> IsHexDigit(h[i])
    ensures JsParseInt("0x" + h) == Int(DigitsValue(h, true))
    ensures JsParseInt("0X" + h) == Int(DigitsValue(h, true))
  {
    HexAfterPrefix("0x" + h, h);
    HexAfterPrefix("0X" + h, h);
  }

  lemma HexAfterPrefix(s: string, h: string)
    requires |s| == |h| + 2 && s[0] == '0' && (s[1] == 'x' || s[1] == 'X') && s[2..] == h
    requires |h| > 0 && forall i :: 0 <= i < |h| ==> IsHexDigit(h[i])
    ensures JsParseInt(s) == Int(DigitsValue(h, true))
  {
    StartsUnsigned(s);
    assert DigitRun(h, true) == |h|;
    assert h[..|h|] == h;
  }

  /** Trailing text after the digits is ignored: `parseInt("12abc") == 12`;
      the empty string is not a number. */
  lemma ParseIntExamples()
    ensures JsParseInt("12abc") == Int(12)
    ensures JsParseInt("") == NaN
  {
    assert "12abc" == "12" + "abc";
    DigitsThenStop("12", "abc");
    assert ParseNat("12") == 12 by {
      assert "12"[..1] == "1";
      assert "1"[..0] == "";
    }
  }

  // ---------------------------------------------------------------------
  // arithmetic on the numbers above

  /** `a - b` for an integer `b`. */
  function SubInt(a: Num, b: int): (r: Num)
    ensures r.Int? <==> a.Int?
    ensures r.Int? ==> r.value == a.value - b
    ensures r == Infinity <==> a == Infinity
  {
    match a
    case Int(x) => Int(x - b)
    case NaN => NaN
    case Infinity => Infinity
  }

  /** `a * b` for numbers that are integers or `NaN`. */
  function Mul(a: Num, b: Num): (r: Num)
    requires a != Infinity && b != Infinity
    ensures r != Infinity
    ensures r.Int? <==> a.Int? && b.Int?
    ensures r.Int? ==> r.value == a.value * b.value
  {
    if a.Int? && b.Int? then Int(a.value * b.value) else NaN
  }

  /** `a + b` for numbers that are integers or `NaN`. */
  function Add(a: Num, b: Num): (r: Num)
    requires a != Infinity && b != Infinity
    ensures r != Infinity
    ensures r.Int? <==> a.Int? && b.Int?
    ensures r.Int? ==> r.value == a.value + b.value
  {
    if a.Int? && b.Int? then Int(a.value + b.value) else NaN
  }

  /** `Math.ceil(total / limit)` for a non-negative integer `total`. */
  function CeilDiv(total: nat, limit: Num): (r: Num)
    requires limit != Infinity
    ensures limit.Int? && limit.value > 0 ==>
              r.Int? && (r.value - 1) * limit.value < total <= r.value * limit.value
    ensures limit.Int? && limit.value < 0 ==>
              r.Int? && r.value <= 0 && r.value * limit.value <= total < (r.value - 1) * limit.value
    ensures limit == Int(0) ==> (r == NaN <==> total == 0) && (r == Infinity <==> total > 0)
    ensures limit == NaN ==> r == NaN
  {
    match limit
    case NaN => NaN
    case Int(l) =>
      if l == 0 then (if total == 0 then NaN else Infinity)
      else if l > 0 then CeilPositive(total, l); Int((total + l - 1) / l)
      else CeilNegative(total, l); Int(-(total / -l))
  }

  lemma CeilPositive(total: nat, l: int)
    requires l > 0
    ensures var q := (total + l - 1) / l; (q - 1) * l < total <= q * l
  {
    var q := (total + l - 1) / l;
    var rem := (total + l - 1) % l;
    assert q * l + rem == total + l - 1 && 0 <= rem < l;
    assert (q - 1) * l == q * l - l;
  }

  lemma CeilNegative(total: nat, l: int)
    requires l < 0
    ensures var r := -(total / -l); r <= 0 && r * l <= total < (r - 1) * l
  {
    var m := -l;
    var q := total / m;
    var rem := total % m;
    assert q * m + rem == total && 0 <= rem < m;
    assert q >= 0;
    assert (-q) * l == q * m;
    assert (-q - 1) * l == q * m + m;
  }

  /** The integer `slice` reads from a number argument: `NaN` counts as 0. */
  function SliceIndex(n: Num): int
    requires n != Infinity
  {
    if n.Int? then n.value else 0
  }
}

=== FILE: metro_config.dfy ===
/** The mobile bundler configuration: every `react` and `react-dom` import,
    bare or with a subpath, is redirected to the mobile app's own copy so
    that a single React instance is bundled; every other import goes to the
    default resolver untouched.

    Paths are absolute and kept as their segments (`/a/b` is `["a", "b"]`);
    `path.resolve` is modelled on segments: an empty or `.` segment is
    skipped, `..` drops the last segment (never above the root), and a part
    that starts with `/` starts again from the root. */
module MetroConfig {
  import opened Optional
  import opened Strings

  type Path = seq<string>

  /** The path separator. */
  const Slash: char := '/'

  /** A path segment that `path.resolve` keeps as it is. */
  predicate Plain(seg: string) {
    seg != "" && seg != "." && seg != ".." && '/' !in seg
  }

  predicate AllPlain(segs: seq<string>) {
    forall k :: 0 <= k < |segs| ==> Plain(segs[k])
  }

  /** Walks the segments of one relative part from `acc`. */
  function Walk(acc: Path, segs: seq<string>): Path
    decreases |segs|
  {
    if |segs| == 0 then acc
    else
      var s := segs[0];
      var next := if s == "" || s == "." then acc
                  else if s == ".." then (if |acc| == 0 then acc else acc[..|acc| - 1])
                  else acc + [s];
      Walk(next, segs[1..])
  }

  /** Plain segments are appended one by one. */
  lemma {:induction false} WalkPlain(acc: Path, segs: seq<string>)
    requires AllPlain(segs)
    ensures Walk(acc, segs) == acc + segs
    decreases |segs|
  {
    if |segs| > 0 {
      WalkPlain(acc + [segs[0]], segs[1..]);
      assert acc + [segs[0]] + segs[1..] == acc + segs;
    }
  }

  /** The package and directory names the configuration uses are plain. */
  lemma PlainNames()
    ensures Plain("react") && Plain("react-dom") && Plain("react-native") && Plain("node_modules")
  {
  }

  /** One argument of `path.resolve`, applied to the path so far. */
  function ResolvePart(acc: Path, part: string): Path {
    if |part| > 0 && part[0] == '/' then Walk([], Split(part, Slash))
    else Walk(acc, Split(part, Slash))
  }

  /** `path.resolve(base, ...parts)` for an absolute `base`. */
  function PathResolve(base: Path, parts: seq<string>): Path
    decreases |parts|
  {
    if |parts| == 0 then base
    else PathResolve(ResolvePart(base, parts[0]), parts[1..])
  }

  /** A plain name resolves to one more segment. */
  lemma ResolvePlain(acc: Path, name: string)
    requires Plain(name)
    ensures ResolvePart(acc, name) == acc + [name]
  {
    SplitOfWord(name, Slash);
    WalkPlain(acc, [name]);
  }

  /** `..` drops the last segment, and stops at the root. */
  lemma ResolveParent(acc: Path)
    ensures ResolvePart(acc, "..") == if |acc| == 0 then acc else acc[..|acc| - 1]
  {
    SplitOfWord("..", Slash);
    assert [".."][1..] == [];
  }

  /** `path.resolve` with one part, and with two. */
  lemma ResolveOneTwo(base: Path, a: string, b: string)
    ensures PathResolve(base, [a]) == ResolvePart(base, a)
    ensures PathResolve(base, [a, b]) == ResolvePart(ResolvePart(base, a), b)
  {
    assert [a][1..] == [];
    assert [a, b][1..] == [b];
    assert [b][1..] == [];
    assert PathResolve(base, [a, b]) == PathResolve(ResolvePart(base, a), [b]);
  }

  /** The path as a string: `/` followed by its segments joined with `/`. */
  function Render(p: Path): (s: string)
    ensures |s| > 0 && s[0] == '/'
  {
    "/" + Join(p, '/')
  }

  /** A rendered path of plain segments reads back as itself: resolving the
      string, from any directory, gives the same segments. */
  lemma RenderResolves(acc: Path, p: Path)
    requires AllPlain(p)
    ensures ResolvePart(acc, Render(p)) == p
  {
    var joined := Join(p, Slash);
    assert Render(p) == "" + [Slash] + joined;
    SplitOfWordThenSep("", Slash, joined);
    if |p| == 0 {
      SplitOfWord("", Slash);
      assert Walk([], ["", ""]) == Walk([], [""]) == [];
    } else {
      SplitJoin(p, Slash);
      assert Walk([], [""] + p) == Walk([], p) by {
        assert ([""] + p)[1..] == p;
      }
      WalkPlain([], p);
    }
  }

  // ---------------------------------------------------------------------
  // the configuration

  /** `mobileNodeModules = path.resolve(__dirname, "node_modules")`. */
  function MobileNodeModules(dir: Path): (p: Path)
    ensures p == dir + ["node_modules"]
  {
    ResolvePlain(dir, "node_modules");
    PathResolve(dir, ["node_modules"])
  }

  /** `monorepoNodeModules = path.resolve(__dirname, "..", "..", "node_modules")`:
      two levels up, where the workspace root keeps its packages. */
  function MonorepoNodeModules(dir: Path): (p: Path)
    ensures |dir| >= 2 ==> p == dir[..|dir| - 2] + ["node_modules"]
    ensures |dir| < 2 ==> p == ["node_modules"]
  {
    TwoUpThen(dir, "..", "node_modules");
    PathResolve(dir, ["..", "..", "node_modules"])
  }

  /** Two `..` parts and a plain name: two levels up, then into `name`. */
  lemma TwoUpThen(dir: Path, up: string, name: string)
    requires up == ".." && Plain(name)
    ensures |dir| >= 2 ==> PathResolve(dir, [up, up, name]) == dir[..|dir| - 2] + [name]
    ensures |dir| < 2 ==> PathResolve(dir, [up, up, name]) == [name]
  {
    var up1 := ResolvePart(dir, up);
    var up2 := ResolvePart(up1, up);
    assert [up, up, name] == [up] + [up, name];
    ResolveFirst(dir, up, [up, name]);
    assert PathResolve(dir, [up, up, name]) == PathResolve(up1, [up, name]);
    ResolveOneTwo(up1, up, name);
    assert PathResolve(dir, [up, up, name]) == ResolvePart(up2, name);
    ResolvePlain(up2, name);
    assert PathResolve(dir, [up, up, name]) == up2 + [name];
    ParentTwice(dir, up);
  }

  lemma ParentTwice(dir: Path, up: string)
    requires up == ".."
    ensures |dir| >= 2 ==> ResolvePart(ResolvePart(dir, up), up) == dir[..|dir| - 2]
    ensures |dir| < 2 ==> ResolvePart(ResolvePart(dir, up), up) == []
  {
    ResolveParent(dir);
    ResolveParent(ResolvePart(dir, up));
  }

  /** The first part is applied first. */
  lemma ResolveFirst(base: Path, first: string, rest: seq<string>)
    ensures PathResolve(base, [first] + rest) == PathResolve(ResolvePart(base, first), rest)
  {
    assert ([first] + rest)[1..] == rest;
  }

  /** One entry of `extraNodeModules`: the package name and
      `path.resolve(base, name)`. */
  function Entry(base: Path, name: string): (e: (string, Path))
    ensures e.0 == name
    ensures Plain(name) ==> e.1 == base + [name]
  {
    PlainEntry(base, name);
    (name, PathResolve(base, [name]))
  }

  /** `config.resolver.extraNodeModules`. */
  function ExtraNodeModules(dir: Path): seq<(string, Path)> {
    [Entry(MobileNodeModules(dir), "react"),
     Entry(MobileNodeModules(dir), "react-dom"),
     Entry(MonorepoNodeModules(dir), "react-native")]
  }

  /** `moduleName === pkg || moduleName.startsWith(pkg + "/")`. */
  predicate IsSpecifierOf(pkg: string, moduleName: string) {
    moduleName == pkg || IsPrefix(pkg + "/", moduleName)
  }

  /** The subpath after `pkg + "/"`; empty for the bare name. */
  function Subpath(pkg: string, moduleName: string): string
    requires IsSpecifierOf(pkg, moduleName)
  {
    if moduleName == pkg then "" else moduleName[|pkg| + 1..]
  }

  /** The redirect target of a `pkg` specifier inside `mobile`. */
  function Target(mobile: Path, pkg: string, moduleName: string): Path
    requires IsSpecifierOf(pkg, moduleName)
  {
    var subpath := Subpath(pkg, moduleName);
    if subpath != "" then PathResolve(mobile, [pkg, subpath]) else PathResolve(mobile, [pkg])
  }

  /** What `resolveRequest` hands to `context.resolveRequest`: whether the
      custom resolver was cleared from the context, the specifier, and the
      platform. */
  datatype Call = Call(resolverCleared: bool, moduleName: string, platform: Option<string>)

  /** `config.resolver.resolveRequest` for a project in directory `dir`. */
  function ResolveRequest(dir: Path, moduleName: string, platform: Option<string>): (c: Call)
    ensures c.platform == platform
    ensures c.resolverCleared <==> IsSpecifierOf("react", moduleName) || IsSpecifierOf("react-dom", moduleName)
    ensures !c.resolverCleared ==> c.moduleName == moduleName
    ensures IsSpecifierOf("react", moduleName) ==>
              c.moduleName == Render(Target(MobileNodeModules(dir), "react", moduleName))
    ensures !IsSpecifierOf("react", moduleName) && IsSpecifierOf("react-dom", moduleName) ==>
              c.moduleName == Render(Target(MobileNodeModules(dir), "react-dom", moduleName))
  {
    var mobile := MobileNodeModules(dir);
    if IsSpecifierOf("react", moduleName) then
      Call(true, Render(Target(mobile, "react", moduleName)), platform)
    else if IsSpecifierOf("react-dom", moduleName) then
      Call(true, Render(Target(mobile, "react-dom", moduleName)), platform)
    else Call(false, moduleName, platform)
  }

  // ---------------------------------------------------------------------
  // properties

  /** `react-dom` and `react-native` are not `react` specifiers: neither is
      "react" nor starts with "react/". */
  lemma OtherPackagesNotReact(rest: string)
    ensures !IsSpecifierOf("react", "react-dom" + rest)
    ensures !IsSpecifierOf("react", "react-native" + rest)
    ensures !IsSpecifierOf("react-dom", "react-native" + rest)
  {
    assert ("react-dom" + rest)[5] == '-';
    assert ("react-native" + rest)[5] == '-';
    assert ("react-native" + rest)[6] == 'n';
  }

  /** `react-native` is left to the default resolver, which finds it
      through `extraNodeModules` at the workspace root. */
  lemma ReactNativeDefault(dir: Path, platform: Option<string>)
    ensures ResolveRequest(dir, "react-native", platform) == Call(false, "react-native", platform)
  {
    OtherPackagesNotReact("");
    assert "react-native" + "" == "react-native";
  }

  /** The bare name goes to the package directory. */
  lemma BareTarget(mobile: Path, pkg: string)
    requires Plain(pkg)
    ensures Target(mobile, pkg, pkg) == mobile + [pkg]
  {
    ResolveOneTwo(mobile, pkg, "");
    ResolvePlain(mobile, pkg);
  }

  /** `pkg + "/"` has an empty subpath and is treated as the bare name. */
  lemma TrailingSlashTarget(mobile: Path, pkg: string)
    requires Plain(pkg)
    ensures IsSpecifierOf(pkg, pkg + "/")
    ensures Target(mobile, pkg, pkg + "/") == mobile + [pkg]
  {
    assert (pkg + "/")[..|pkg| + 1] == pkg + "/";
    assert (pkg + "/")[|pkg| + 1..] == "";
    ResolveOneTwo(mobile, pkg, "");
    ResolvePlain(mobile, pkg);
  }

  /** A subpath of plain segments lands inside the package directory, at
      exactly those segments. */
  lemma SubpathTarget(mobile: Path, pkg: string, segs: seq<string>)
    requires Plain(pkg)
    requires |segs| >= 1 && AllPlain(segs)
    ensures IsSpecifierOf(pkg, pkg + "/" + Join(segs, '/'))
    ensures Target(mobile, pkg, pkg + "/" + Join(segs, '/')) == mobile + [pkg] + segs
  {
    var sub := Join(segs, '/');
    var name := pkg + "/" + sub;
    assert name[..|pkg| + 1] == pkg + "/";
    assert name[|pkg| + 1..] == sub;
    forall k | 0 <= k < |segs| ensures '/' !in segs[k] {
    }
    SplitJoin(segs, Slash);
    JoinStartsWithFirst(segs, '/');
    ResolveOneTwo(mobile, pkg, sub);
    ResolvePlain(mobile, pkg);
    WalkPlain(mobile + [pkg], segs);
  }

  /** `Join` begins with the first word. */
  lemma JoinStartsWithFirst(words: seq<string>, sep: char)
    requires |words| >= 1 && |words[0]| > 0
    ensures |Join(words, sep)| > 0 && Join(words, sep)[0] == words[0][0]
  {
  }

  /** A `..` in the subpath climbs out of the package directory:
      `react/../x` is the sibling package `x`. */
  lemma DotDotLeavesPackage(mobile: Path, pkg: string, x: string)
    requires Plain(pkg) && Plain(x)
    ensures IsSpecifierOf(pkg, pkg + "/../" + x)
    ensures Target(mobile, pkg, pkg + "/../" + x) == mobile + [x]
  {
    var name := pkg + "/../" + x;
    assert name[..|pkg| + 1] == pkg + "/";
    var sub := name[|pkg| + 1..];
    assert sub == ".." + ['/'] + x;
    SplitOfWordThenSep("..", Slash, x);
    SplitOfWord(x, Slash);
    ResolveOneTwo(mobile, pkg, sub);
    ResolvePlain(mobile, pkg);
    assert Walk(mobile + [pkg], ["..", x]) == Walk(mobile, [x]);
    WalkPlain(mobile, [x]);
  }

  /** Every redirected specifier is an absolute path, which neither branch
      matches again: a second pass through the resolver leaves it alone. */
  lemma RedirectIsFinal(dir: Path, moduleName: string, platform: Option<string>)
    ensures var c := ResolveRequest(dir, moduleName, platform);
            c.resolverCleared ==> ResolveRequest(dir, c.moduleName, platform) == Call(false, c.moduleName, platform)
  {
    var c := ResolveRequest(dir, moduleName, platform);
    if c.resolverCleared {
      AbsoluteNotSpecifier("react", c.moduleName);
      AbsoluteNotSpecifier("react-dom", c.moduleName);
    }
  }

  /** An absolute path is no package specifier. */
  lemma AbsoluteNotSpecifier(pkg: string, name: string)
    requires |pkg| > 0 && pkg[0] != '/'
    requires |name| > 0 && name[0] == '/'
    ensures !IsSpecifierOf(pkg, name)
  {
  }

  /** The bare `react` and `react-dom` redirects agree with
      `extraNodeModules`. */
  lemma AgreesWithExtraNodeModules(dir: Path, platform: Option<string>)
    ensures ResolveRequest(dir, "react", platform).moduleName == Render(ExtraNodeModules(dir)[0].1)
    ensures ResolveRequest(dir, "react-dom", platform).moduleName == Render(ExtraNodeModules(dir)[1].1)
    ensures ExtraNodeModules(dir)[0].1 == dir + ["node_modules", "react"]
    ensures ExtraNodeModules(dir)[1].1 == dir + ["node_modules", "react-dom"]
  {
    ExtraEntries(dir);
    ReactBare(dir, platform);
    ReactDomBare(dir, platform);
    MobileAppend(dir, "react");
    MobileAppend(dir, "react-dom");
  }

  lemma MobileAppend(dir: Path, name: string)
    ensures MobileNodeModules(dir) + [name] == dir + ["node_modules", name]
  {
  }

  lemma ExtraEntries(dir: Path)
    ensures ExtraNodeModules(dir)[0].1 == dir + ["node_modules", "react"]
    ensures ExtraNodeModules(dir)[1].1 == dir + ["node_modules", "react-dom"]
  {
    PlainNames();
    MobileEntry(dir, "react");
    MobileEntry(dir, "react-dom");
  }

  /** An entry resolved from the mobile app's `node_modules`. */
  lemma MobileEntry(dir: Path, name: string)
    requires Plain(name)
    ensures Entry(MobileNodeModules(dir), name).1 == dir + ["node_modules", name]
  {
    InsideNodeModules(dir, MobileNodeModules(dir), name);
  }

  lemma InsideNodeModules(dir: Path, mobile: Path, name: string)
    requires mobile == dir + ["node_modules"] && Plain(name)
    ensures Entry(mobile, name).1 == dir + ["node_modules", name]
  {
  }

  lemma ReactBare(dir: Path, platform: Option<string>)
    ensures ResolveRequest(dir, "react", platform).moduleName == Render(MobileNodeModules(dir) + ["react"])
    ensures PathResolve(MobileNodeModules(dir), ["react"]) == dir + ["node_modules", "react"]
  {
    PlainNames();
    BareInMobile(dir, "react");
  }

  lemma ReactDomBare(dir: Path, platform: Option<string>)
    ensures ResolveRequest(dir, "react-dom", platform).moduleName == Render(MobileNodeModules(dir) + ["react-dom"])
    ensures PathResolve(MobileNodeModules(dir), ["react-dom"]) == dir + ["node_modules", "react-dom"]
  {
    ReactDomRedirect(dir, platform);
    PlainNames();
    BareInMobile(dir, "react-dom");
  }

  /** The bare name of a package, resolved inside the mobile app's
      `node_modules`. */
  lemma BareInMobile(dir: Path, name: string)
    requires Plain(name)
    ensures Target(MobileNodeModules(dir), name, name) == MobileNodeModules(dir) + [name]
    ensures PathResolve(MobileNodeModules(dir), [name]) == dir + ["node_modules", name]
  {
    var mobile := MobileNodeModules(dir);
    BareTarget(mobile, name);
    PlainEntry(mobile, name);
  }

  lemma ReactDomRedirect(dir: Path, platform: Option<string>)
    ensures ResolveRequest(dir, "react-dom", platform).moduleName == Render(Target(MobileNodeModules(dir), "react-dom", "react-dom"))
  {
    OtherPackagesNotReact("");
    assert "react-dom" + "" == "react-dom";
  }

  lemma PlainEntry(mobile: Path, name: string)
    ensures Plain(name) ==> PathResolve(mobile, [name]) == mobile + [name]
  {
    if Plain(name) {
      ResolveOneTwo(mobile, name, "");
      ResolvePlain(mobile, name);
    }
  }

  /** For the app's own location, `apps/mobile` two levels below the
      workspace, `react-native` comes from the workspace's `node_modules`. */
  lemma ReactNativeAtWorkspace(root: Path)
    ensures ExtraNodeModules(root + ["apps", "mobile"])[2].1 == root + ["node_modules", "react-native"]
  {
    PlainNames();
    WorkspaceEntry(root, "apps", "mobile", "react-native");
  }

  /** An entry resolved from the `node_modules` two levels above `dir`. */
  lemma WorkspaceEntry(root: Path, a: string, b: string, name: string)
    requires Plain(name)
    ensures Entry(MonorepoNodeModules(root + [a, b]), name).1 == root + ["node_modules", name]
  {
    var dir := root + [a, b];
    assert dir[..|dir| - 2] == root;
    InsideNodeModules(root, MonorepoNodeModules(dir), name);
  }
}

=== FILE: middleware.dfy ===
/** The web application's middleware for `/api` routes: a request whose
    `Origin` is a Tauri webview or a localhost page gets CORS headers that
    echo that origin; every other response passes through untouched. */
module Middleware {
  import opened Optional
  import opened Strings

  /** The three headers the middleware may add to the response. */
  datatype CorsHeaders = CorsHeaders(allowOrigin: string, allowMethods: string, allowHeaders: string)

  const AllowMethods: string := "GET, POST, PUT, DELETE, OPTIONS"
  const AllowHeaders: string := "Content-Type, x-api-key, Authorization"

  const TauriScheme: string := "tauri://"
  const LocalhostPrefix: string := "http://localhost"

  /** `config.matcher` `"/api/:path*"`: `/api` itself or anything below it. */
  predicate MatchesApi(path: string) {
    path == "/api" || IsPrefix("/api/", path)
  }

  /** The origin test as the middleware writes it: a plain prefix test. */
  predicate AllowedAsWritten(origin: string) {
    IsPrefix(TauriScheme, origin) || IsPrefix(LocalhostPrefix, origin)
  }

  /** `middleware(request)` as written: the headers to add, or `None` when
      the response goes out unchanged. */
  function CorsAsWritten(origin: Option<string>): (r: Option<CorsHeaders>)
    ensures r.Some? <==> Truthy(origin) && AllowedAsWritten(origin.value)
    ensures r.Some? ==> r.value.allowOrigin == origin.value
  {
    if Truthy(origin) && AllowedAsWritten(origin.value) then
      Some(CorsHeaders(origin.value, AllowMethods, AllowHeaders))
    else None
  }

  const HttpScheme: string := "http://"

  /** The host of an `http://` origin: what follows the scheme, up to the
      first `:` or `/`. */
  function HttpHost(origin: string): string
    requires IsPrefix(HttpScheme, origin)
  {
    HostPart(origin[|HttpScheme|..])
  }

  function HostPart(s: string): (h: string)
    ensures IsPrefix(h, s)
    ensures ':' !in h && '/' !in h
    ensures |h| < |s| ==> s[|h|] == ':' || s[|h|] == '/'
  {
    if |s| == 0 || s[0] == ':' || s[0] == '/' then ""
    else [s[0]] + HostPart(s[1..])
  }

  /** `LocalhostPrefix` is the scheme followed by the host name. */
  lemma LocalhostSplits()
    ensures LocalhostPrefix == HttpScheme + "localhost"
    ensures ':' !in "localhost" && '/' !in "localhost"
  {
  }

  /** An `http://localhost` origin followed by anything that does not start
      a port or a path: the prefix test lets it through, although its host
      is not "localhost". */
  lemma PrefixAdmitsLongerHosts(tail: string)
    requires |tail| > 0 && tail[0] != ':' && tail[0] != '/'
    ensures CorsAsWritten(Some(LocalhostPrefix + tail)).Some?
    ensures IsPrefix(HttpScheme, LocalhostPrefix + tail)
    ensures HttpHost(LocalhostPrefix + tail) != "localhost"
  {
    LocalhostSplits();
    PrefixOfJoin(LocalhostPrefix, tail);
    HostAfterScheme(HttpScheme, "localhost", tail);
    assert HostPart(tail) == [tail[0]] + HostPart(tail[1..]);
    assert |HttpHost(LocalhostPrefix + tail)| > |"localhost"|;
  }

  /** A string starts with each of its prefixes. */
  lemma PrefixOfJoin(p: string, t: string)
    ensures IsPrefix(p, p + t)
    ensures (p + t)[|p|..] == t
  {
    assert (p + t)[..|p|] == p;
  }

  /** The host of `scheme + host + rest`, for a host free of `:` and `/`,
      is the host followed by the host part of `rest`. */
  lemma HostAfterScheme(scheme: string, host: string, rest: string)
    requires ':' !in host && '/' !in host
    ensures IsPrefix(scheme, scheme + host + rest)
    ensures HostPart((scheme + host + rest)[|scheme|..]) == host + HostPart(rest)
  {
    assert scheme + host + rest == scheme + (host + rest);
    PrefixOfJoin(scheme, host + rest);
    HostPartKeeps(host, rest);
  }

  /** `http://localhost.example.com`, a host anyone may register, passes. */
  lemma PrefixAdmitsOtherHosts()
    ensures CorsAsWritten(Some("http://localhost.example.com")).Some?
  {
    var tail := ".example.com";
    assert LocalhostPrefix + tail == "http://localhost.example.com";
    PrefixAdmitsLongerHosts(tail);
  }

  /** A host-name part free of `:` and `/` is kept whole, together with
      what follows it up to the next `:` or `/`. */
  lemma {:induction false} HostPartKeeps(a: string, rest: string)
    requires ':' !in a && '/' !in a
    ensures HostPart(a + rest) == a + HostPart(rest)
  {
    if |a| == 0 {
      assert a + rest == rest;
    } else {
      var t := a + rest;
      assert t[0] == a[0] && t[1..] == a[1..] + rest;
      HostPartStep(t);
      HostPartKeeps(a[1..], rest);
      ConsJoin(a, HostPart(rest));
    }
  }

  /** A host character is kept, and the host part goes on after it. */
  lemma HostPartStep(s: string)
    requires |s| > 0 && s[0] != ':' && s[0] != '/'
    ensures HostPart(s) == [s[0]] + HostPart(s[1..])
  {
  }

  lemma ConsJoin(a: string, h: string)
    requires |a| > 0
    ensures [a[0]] + (a[1..] + h) == a + h
  {
    assert a == [a[0]] + a[1..];
  }

  /** A decimal port number. */
  predicate IsPort(p: string) {
    |p| > 0 && forall i :: 0 <= i < |p| ==> IsDigit(p[i])
  }

  /** A localhost origin: `http://localhost`, optionally with a port. */
  predicate IsLocalhostOrigin(origin: string) {
    origin == LocalhostPrefix
    || (IsPrefix(LocalhostPrefix + ":", origin) && IsPort(origin[|LocalhostPrefix| + 1..]))
  }

  /** The origin test as intended: Tauri, or localhost on any port. */
  predicate Allowed(origin: string) {
    IsPrefix(TauriScheme, origin) || IsLocalhostOrigin(origin)
  }

  /** The middleware with the intended origin test. */
  function Cors(origin: Option<string>): (r: Option<CorsHeaders>)
    ensures r.Some? <==> Truthy(origin) && Allowed(origin.value)
    ensures r.Some? ==> r.value == CorsHeaders(origin.value, AllowMethods, AllowHeaders)
  {
    if Truthy(origin) && Allowed(origin.value) then
      Some(CorsHeaders(origin.value, AllowMethods, AllowHeaders))
    else None
  }

  /** Every `http://` origin the intended test admits is served from the
      host "localhost" itself. */
  lemma AllowedHttpIsLocalhost(origin: string)
    requires Cors(Some(origin)).Some? && IsPrefix(HttpScheme, origin)
    ensures HttpHost(origin) == "localhost"
  {
    SchemesDiffer(origin);
    var rest := LocalhostRest(origin);
    LocalhostSplits();
    HostAfterScheme(HttpScheme, "localhost", rest);
  }

  /** No origin starts with both schemes. */
  lemma SchemesDiffer(origin: string)
    requires IsPrefix(HttpScheme, origin)
    ensures !IsPrefix(TauriScheme, origin)
  {
    assert origin[0] == HttpScheme[0] != TauriScheme[0];
  }

  /** A localhost origin is the localhost prefix followed by nothing or by
      a port. */
  lemma LocalhostRest(origin: string) returns (rest: string)
    requires IsLocalhostOrigin(origin)
    ensures origin == LocalhostPrefix + rest
    ensures HostPart(rest) == ""
  {
    var n := |LocalhostPrefix|;
    if origin == LocalhostPrefix {
      rest := "";
      assert origin == LocalhostPrefix + rest;
    } else {
      assert origin[..n + 1] == LocalhostPrefix + ":";
      assert origin[..n] == LocalhostPrefix;
      rest := origin[n..];
      assert origin == origin[..n] + rest;
      assert rest[0] == ':';
    }
  }

  /** The intended test still admits every origin the application uses:
      the Tauri webview and a localhost page on any port. */
  lemma AllowedOrigins(rest: string, port: string)
    requires IsPort(port)
    ensures Cors(Some(TauriScheme + rest)).Some?
    ensures Cors(Some(LocalhostPrefix)).Some?
    ensures Cors(Some(LocalhostPrefix + ":" + port)).Some?
  {
    assert (TauriScheme + rest)[..|TauriScheme|] == TauriScheme;
    var o := LocalhostPrefix + ":" + port;
    assert o[..|LocalhostPrefix| + 1] == LocalhostPrefix + ":";
    assert o[|LocalhostPrefix| + 1..] == port;
  }

  /** The intended test is a narrowing of the written one: it admits
      nothing the prefix test refused, and refuses the look-alike host. */
  lemma NarrowsAsWritten(origin: Option<string>)
    ensures Cors(origin).Some? ==> CorsAsWritten(origin).Some?
    ensures Cors(Some("http://localhost.example.com")).None?
  {
    if Cors(origin).Some? && !IsPrefix(TauriScheme, origin.value) {
      var o := origin.value;
      if o != LocalhostPrefix {
        assert o[..|LocalhostPrefix|] == (LocalhostPrefix + ":")[..|LocalhostPrefix|];
      }
    }
    var bad := "http://localhost.example.com";
    assert bad[|LocalhostPrefix|] == '.';
    assert !IsPrefix(LocalhostPrefix + ":", bad) by {
      assert (LocalhostPrefix + ":")[|LocalhostPrefix|] == ':';
    }
    assert !IsPrefix(TauriScheme, bad) by {
      assert bad[0] == 'h';
    }
  }

  /** `middleware` for a request to `path` with origin `origin`, as
      written: headers are added exactly on the matched routes for an
      origin the prefix test admits, and nothing is added without an
      origin. */
  function Handle(path: string, origin: Option<string>): (r: Option<CorsHeaders>)
    ensures r.Some? <==> MatchesApi(path) && Truthy(origin) && AllowedAsWritten(origin.value)
    ensures r.Some? ==> r.value == CorsHeaders(origin.value, AllowMethods, AllowHeaders)
    ensures origin.None? || origin == Some("") ==> r.None?
    ensures r.Some? ==> r.value.allowOrigin != "*"
  {
    if MatchesApi(path) then CorsAsWritten(origin) else None
  }

  /** The middleware with the intended origin test on the same routes. */
  function HandleIntended(path: string, origin: Option<string>): (r: Option<CorsHeaders>)
    ensures r.Some? <==> MatchesApi(path) && Truthy(origin) && Allowed(origin.value)
    ensures r.Some? ==> r.value == CorsHeaders(origin.value, AllowMethods, AllowHeaders)
    ensures r.Some? ==> Handle(path, origin) == r
  {
    NarrowsAsWritten(origin);
    if MatchesApi(path) then Cors(origin) else None
  }
}

=== FILE: mobile_layout.dfy ===
/** The mobile app's root layout: the `AuthRedirect` rule that keeps signed-out
    users in the `(auth)` route group and signed-in users out of it, and the
    choice of theme and status-bar style from the device colour scheme. */
module MobileLayout {
  import opened Optional

  /** A route the redirect can send to: its href and the route segments the
      router reports once it is shown. */
  datatype Route = Route(href: string, segments: seq<string>)

  const AuthGroup: string := "(auth)"
  const LoginRoute: Route := Route("/(auth)/login", ["(auth)", "login"])
  const TabsRoute: Route := Route("/(tabs)", ["(tabs)"])

  /** `segments[0] === "(auth)"`; with no segments `segments[0]` is
      `undefined`, which is not in the group. */
  predicate InAuthGroup(segments: seq<string>) {
    |segments| > 0 && segments[0] == AuthGroup
  }

  /** The effect of `AuthRedirect`: where `router.replace` sends the user,
      or `None` when it does nothing. */
  function Redirect(mounted: bool, isAuthenticated: bool, segments: seq<string>): (r: Option<Route>)
    ensures !mounted ==> r.None?
    ensures r.None? <==> !mounted || isAuthenticated != InAuthGroup(segments)
    ensures r == Some(LoginRoute) <==> mounted && !isAuthenticated && !InAuthGroup(segments)
    ensures r == Some(TabsRoute) <==> mounted && isAuthenticated && InAuthGroup(segments)
  {
    if !mounted then None
    else if !isAuthenticated && !InAuthGroup(segments) then Some(LoginRoute)
    else if isAuthenticated && InAuthGroup(segments) then Some(TabsRoute)
    else None
  }

  /** The rule settles after at most one redirect: once at its target, it
      asks for nothing more, and the user is inside the auth group exactly
      when signed out. */
  lemma RedirectSettles(isAuthenticated: bool, segments: seq<string>)
    ensures var r := Redirect(true, isAuthenticated, segments);
            var here := if r.Some? then r.value.segments else segments;
            && Redirect(true, isAuthenticated, here).None?
            && (InAuthGroup(here) <==> !isAuthenticated)
  {
  }

  /** Only the first segment counts: deeper segments never change the
      decision. */
  lemma OnlyFirstSegmentCounts(mounted: bool, isAuthenticated: bool, first: string, a: seq<string>, b: seq<string>)
    ensures Redirect(mounted, isAuthenticated, [first] + a) == Redirect(mounted, isAuthenticated, [first] + b)
  {
  }

  /** Signing in or out while mounted moves the user across the group
      boundary: from the login screen to the tabs after signing in, and
      from anywhere outside the group to the login screen after signing
      out. */
  lemma SignInOutRoutes(segments: seq<string>)
    ensures Redirect(true, true, LoginRoute.segments) == Some(TabsRoute)
    ensures !InAuthGroup(segments) ==> Redirect(true, false, segments) == Some(LoginRoute)
    ensures Redirect(true, false, []) == Some(LoginRoute)
  {
  }

  // ---------------------------------------------------------------------
  // theme

  /** The colours the layout overrides in the Material 3 base theme. */
  datatype Palette = Palette(primary: string, secondary: string, surface: string, background: string)

  datatype Theme = Theme(dark: bool, colors: Palette)

  const LightTheme: Theme := Theme(false, Palette("#0f172a", "#475569", "#ffffff", "#f8fafc"))
  const DarkTheme: Theme := Theme(true, Palette("#e2e8f0", "#94a3b8", "#1e293b", "#0f172a"))

  /** `colorScheme === "dark" ? darkTheme : lightTheme`; `useColorScheme`
      may give `null`, here `None`. */
  function ThemeFor(colorScheme: Option<string>): (t: Theme)
    ensures t.dark <==> colorScheme == Some("dark")
    ensures t == LightTheme || t == DarkTheme
  {
    if colorScheme == Some("dark") then DarkTheme else LightTheme
  }

  /** `<StatusBar style={colorScheme === "dark" ? "light" : "dark"} />`. */
  function StatusBarStyle(colorScheme: Option<string>): (style: string)
    ensures style == "light" || style == "dark"
  {
    if colorScheme == Some("dark") then "light" else "dark"
  }

  /** The status-bar content always contrasts with the chosen theme: light
      text on the dark theme, dark text on the light one, for every colour
      scheme including an unknown one. */
  lemma StatusBarContrasts(colorScheme: Option<string>)
    ensures StatusBarStyle(colorScheme) == "light" <==> ThemeFor(colorScheme).dark
    ensures colorScheme.None? ==> ThemeFor(colorScheme) == LightTheme
  {
  }
}

=== FILE: mock_data.dfy ===
/** The fixed tables every client reads: the application modules, the menu
    tree, the three permission sets derived from the module list, and the
    three demo users. */
module MockData {
  import opened Optional
  import opened Types
  import opened Seqs

  const AppModules: seq<AppModule> := [
    AppModule("dashboard", "Dashboard", "Overview and KPIs", "LayoutDashboard", System),
    AppModule("invoices", "Invoices", "Invoice management", "FileText", Finance),
    AppModule("customers", "Customers", "Customer database", "Users", Finance),
    AppModule("products", "Products", "Product catalog", "Package", Warehouse),
    AppModule("warehouse", "Warehouse", "Stock management", "Warehouse", Warehouse),
    AppModule("reports", "Reports", "Analytics and reports", "BarChart3", Reporting),
    AppModule("settings", "Settings", "System configuration", "Settings", System),
    AppModule("users", "User Management", "Users and permissions", "Shield", System)
  ]

  function Leaf(id: string, caption: string, icon: string, href: string, moduleId: string): MenuItem {
    MenuItem(id, caption, icon, Some(href), Some(moduleId), None)
  }

  function Group(id: string, caption: string, icon: string, children: seq<MenuItem>): MenuItem {
    MenuItem(id, caption, icon, None, None, Some(children))
  }

  const MenuItems: seq<MenuItem> := [
    Leaf("dashboard", "Dashboard", "LayoutDashboard", "/dashboard", "dashboard"),
    Group("finance", "Finance", "Banknote", [
      Leaf("invoices", "Invoices", "FileText", "/invoices", "invoices"),
      Leaf("customers", "Customers", "Users", "/customers", "customers")
    ]),
    Group("warehouse-menu", "Warehouse", "Package", [
      Leaf("products", "Products", "Package", "/products", "products"),
      Leaf("warehouse", "Stock", "Warehouse", "/warehouse", "warehouse")
    ]),
    Leaf("reports", "Reports", "BarChart3", "/reports", "reports"),
    Leaf("settings", "Settings", "Settings", "/settings", "settings"),
    Leaf("users", "Users", "Shield", "/users", "users")
  ]

  /** The ids of the modules, in order. */
  function ModuleIds(mods: seq<AppModule>): seq<string> {
    seq(|mods|, i requires 0 <= i < |mods| => mods[i].id)
  }

  // ---------------------------------------------------------------------
  // permission sets

  /** Every flag set, for module `id`. */
  function FullAccess(id: string): Permission {
    Permission(id, true, true, true, true, true, true)
  }

  /** `appModules.map(...)` with every flag true. */
  function AllPermissionsOf(mods: seq<AppModule>): seq<Permission> {
    seq(|mods|, i requires 0 <= i < |mods| => FullAccess(mods[i].id))
  }

  /** The admin's flags for module `id`: everything but deleting settings
      and managing users. */
  function AdminAccess(id: string): Permission {
    Permission(id, true, true, true, id != "settings", true, false)
  }

  /** `appModules.filter(m => !["users"].includes(m.id)).map(...)`. */
  function AdminPermissionsOf(mods: seq<AppModule>): seq<Permission> {
    var kept := Filter(mods, (m: AppModule) => m.id != "users");
    seq(|kept|, i requires 0 <= i < |kept| => AdminAccess(kept[i].id))
  }

  /** The regular user's flags for module `id`: dashboard and reports are
      read-only, only reports can be exported, nothing can be deleted. */
  function UserAccess(id: string): Permission {
    var writable := id != "dashboard" && id != "reports";
    Permission(id, true, writable, writable, false, id == "reports", false)
  }

  const UserModuleIds: seq<string> := ["dashboard", "invoices", "customers", "products", "reports"]

  /** `[...ids].map(...)`. */
  function UserPermissionsOf(ids: seq<string>): seq<Permission> {
    seq(|ids|, i requires 0 <= i < |ids| => UserAccess(ids[i]))
  }

  /** The superadmin's set, for any module list: one entry per module, in
      module order, every flag true. */
  lemma AllPermissionsShape(mods: seq<AppModule>)
    ensures |AllPermissionsOf(mods)| == |mods|
    ensures forall i :: 0 <= i < |mods| ==> AllPermissionsOf(mods)[i].moduleId == mods[i].id
    ensures forall p, a :: p in AllPermissionsOf(mods) ==> Flag(p, a)
  {
  }

  /** The admin's set, for any module list: every module but "users";
      deleting allowed everywhere but "settings"; user management never. */
  lemma AdminPermissionsShape(mods: seq<AppModule>)
    ensures Covered(AdminPermissionsOf(mods)) == ModuleIdSet(mods) - {"users"}
    ensures forall p :: p in AdminPermissionsOf(mods) ==> p.canView && p.canCreate && p.canEdit && p.canExport
    ensures forall p :: p in AdminPermissionsOf(mods) ==> (p.canDelete <==> p.moduleId != "settings")
    ensures forall p :: p in AdminPermissionsOf(mods) ==> !p.canManageUsers
  {
    AdminCovered(mods);
    AdminFlags(mods);
  }

  lemma AdminCovered(mods: seq<AppModule>)
    ensures Covered(AdminPermissionsOf(mods)) == ModuleIdSet(mods) - {"users"}
  {
    var kept := Filter(mods, (m: AppModule) => m.id != "users");
    var r := AdminPermissionsOf(mods);
    forall id | id in ModuleIdSet(mods) - {"users"} ensures id in Covered(r) {
      var k :| 0 <= k < |mods| && mods[k].id == id;
      assert mods[k] in kept;
      var j :| 0 <= j < |kept| && kept[j] == mods[k];
      assert r[j].moduleId == id;
    }
    forall id | id in Covered(r) ensures id in ModuleIdSet(mods) - {"users"} {
      var p :| p in r && p.moduleId == id;
      var j :| 0 <= j < |r| && r[j] == p;
      assert kept[j] in mods;
    }
  }

  lemma AdminFlags(mods: seq<AppModule>)
    ensures forall p :: p in AdminPermissionsOf(mods) ==> p.canView && p.canCreate && p.canEdit && p.canExport
    ensures forall p :: p in AdminPermissionsOf(mods) ==> (p.canDelete <==> p.moduleId != "settings")
    ensures forall p :: p in AdminPermissionsOf(mods) ==> !p.canManageUsers
  {
  }

  /** The regular user's set, for any id list: exactly those modules;
      dashboard and reports read-only; only reports export; nothing is
      deleted or administered. */
  lemma UserPermissionsShape(ids: seq<string>)
    ensures Covered(UserPermissionsOf(ids)) == set id | id in ids
    ensures forall p :: p in UserPermissionsOf(ids) ==>
      (p.canCreate <==> p.moduleId != "dashboard" && p.moduleId != "reports")
    ensures forall p :: p in UserPermissionsOf(ids) ==> p.canEdit == p.canCreate
    ensures forall p :: p in UserPermissionsOf(ids) ==> (p.canExport <==> p.moduleId == "reports")
    ensures forall p :: p in UserPermissionsOf(ids) ==> p.canView && !p.canDelete && !p.canManageUsers
  {
    var r := UserPermissionsOf(ids);
    forall id | id in ids ensures id in Covered(r) {
      var k :| 0 <= k < |ids| && ids[k] == id;
      assert r[k].moduleId == id;
    }
  }

  const AllPermissions: seq<Permission> := AllPermissionsOf(AppModules)
  const AdminPermissions: seq<Permission> := AdminPermissionsOf(AppModules)
  const UserPermissions: seq<Permission> := UserPermissionsOf(UserModuleIds)

  /** The `users` table, given the three permission sets it refers to. */
  function DemoUsers(all: seq<Permission>, admin: seq<Permission>, user: seq<Permission>): seq<User> {
    [
      User("1", "superadmin@company.com", "Super Administrator", SuperAdmin, None,
           all, "2024-01-01T00:00:00Z", "2026-02-19T08:00:00Z"),
      User("2", "admin@company.com", "Anna Kowalska", Admin, None,
           admin, "2024-06-15T00:00:00Z", "2026-02-18T14:30:00Z"),
      User("3", "user@company.com", "Jan Nowak", RegularUser, None,
           user, "2025-01-10T00:00:00Z", "2026-02-19T09:15:00Z")
    ]
  }

  const Users: seq<User> := DemoUsers(AllPermissions, AdminPermissions, UserPermissions)

  // ---------------------------------------------------------------------
  // facts about the tables

  /** The ids of a list of permissions, as a set. */
  function Covered(perms: seq<Permission>): set<string> {
    set p | p in perms :: p.moduleId
  }

  function ModuleIdSet(mods: seq<AppModule>): set<string> {
    set m | m in mods :: m.id
  }

  predicate Distinct<T(==)>(s: seq<T>) {
    forall i, j :: 0 <= i < j < |s| ==> s[i] != s[j]
  }

  lemma ModuleIdsUnique()
    ensures Distinct(ModuleIds(AppModules))
  {
    assert ModuleIds(AppModules) == ["dashboard", "invoices", "customers", "products",
                                     "warehouse", "reports", "settings", "users"];
  }

  /** The module ids a two-level menu refers to, top-level entries and their
      children alike. */
  function MenuModuleIds(items: seq<MenuItem>): set<string> {
    (set it | it in items && it.moduleId.Some? :: it.moduleId.value)
    + (set it, c | it in items && it.children.Some? && c in it.children.value && c.moduleId.Some?
         :: c.moduleId.value)
  }

  /** Every `moduleId` in the menu names an application module. */
  lemma MenuModulesExist()
    ensures forall it :: it in MenuItems && it.moduleId.Some? ==> it.moduleId.value in ModuleIdSet(AppModules)
    ensures forall it, c ::
      (it in MenuItems && it.children.Some? && c in it.children.value && c.moduleId.Some?)
      ==> c.moduleId.value in ModuleIdSet(AppModules)
  {
    TopModulesExist();
    ChildModulesExist();
  }

  lemma TopModulesExist()
    ensures forall it :: it in MenuItems && it.moduleId.Some? ==> it.moduleId.value in ModuleIdSet(AppModules)
  {
    ModuleIdsIn();
    MenuTopIds();
    TopIdsIn(MenuItems, ModuleIdSet(AppModules));
  }

  lemma ChildModulesExist()
    ensures forall it, c ::
      (it in MenuItems && it.children.Some? && c in it.children.value && c.moduleId.Some?)
      ==> c.moduleId.value in ModuleIdSet(AppModules)
  {
    ModuleIdsIn();
    MenuTopIds();
    ChildIdsIn(MenuItems, ModuleIdSet(AppModules));
  }

  /** The shape of the menu as far as module ids go: which entries are
      leaves, which are groups, and the module each leaf names. */
  predicate MenuShape(items: seq<MenuItem>) {
    && |items| == 6
    && items[0].moduleId == Some("dashboard") && items[0].children.None?
    && items[1].moduleId.None? && items[1].children.Some?
    && |items[1].children.value| == 2
    && items[1].children.value[0].moduleId == Some("invoices")
    && items[1].children.value[1].moduleId == Some("customers")
    && items[2].moduleId.None? && items[2].children.Some?
    && |items[2].children.value| == 2
    && items[2].children.value[0].moduleId == Some("products")
    && items[2].children.value[1].moduleId == Some("warehouse")
    && items[3].moduleId == Some("reports") && items[3].children.None?
    && items[4].moduleId == Some("settings") && items[4].children.None?
    && items[5].moduleId == Some("users") && items[5].children.None?
  }

  /** A set holding the eight module ids. */
  predicate HasModuleIds(ids: set<string>) {
    "dashboard" in ids && "invoices" in ids && "customers" in ids && "products" in ids &&
    "warehouse" in ids && "reports" in ids && "settings" in ids && "users" in ids
  }

  lemma TopIdsIn(items: seq<MenuItem>, ids: set<string>)
    requires MenuShape(items) && HasModuleIds(ids)
    ensures forall it :: it in items && it.moduleId.Some? ==> it.moduleId.value in ids
  {
    forall it | it in items && it.moduleId.Some? ensures it.moduleId.value in ids {
      var i :| 0 <= i < |items| && items[i] == it;
    }
  }

  lemma ChildIdsIn(items: seq<MenuItem>, ids: set<string>)
    requires MenuShape(items) && HasModuleIds(ids)
    ensures forall it, c ::
      (it in items && it.children.Some? && c in it.children.value && c.moduleId.Some?)
      ==> c.moduleId.value in ids
  {
    forall it, c | it in items && it.children.Some? && c in it.children.value && c.moduleId.Some?
      ensures c.moduleId.value in ids
    {
      var i :| 0 <= i < |items| && items[i] == it;
      var j :| 0 <= j < |it.children.value| && it.children.value[j] == c;
    }
  }

  /** The module ids the menu names, entry by entry. */
  lemma MenuTopIds()
    ensures MenuShape(MenuItems)
  {
  }

  lemma ModuleIdList()
    ensures ModuleIds(AppModules) == ["dashboard", "invoices", "customers", "products",
                                      "warehouse", "reports", "settings", "users"]
    ensures forall id :: id in ModuleIdSet(AppModules) <==> id in ModuleIds(AppModules)
  {
    IdSetOfIds(AppModules);
  }

  /** Each of the eight module ids is in the id set. */
  lemma ModuleIdsIn()
    ensures HasModuleIds(ModuleIdSet(AppModules))
  {
    assert AppModules[0] in AppModules && AppModules[1] in AppModules;
    assert AppModules[2] in AppModules && AppModules[3] in AppModules;
    assert AppModules[4] in AppModules && AppModules[5] in AppModules;
    assert AppModules[6] in AppModules && AppModules[7] in AppModules;
  }

  /** A module list's id set holds exactly the ids of its list. */
  lemma IdSetOfIds(mods: seq<AppModule>)
    ensures forall id :: id in ModuleIdSet(mods) <==> id in ModuleIds(mods)
  {
    forall id | id in ModuleIds(mods) ensures id in ModuleIdSet(mods) {
      var i :| 0 <= i < |mods| && ModuleIds(mods)[i] == id;
      assert mods[i] in mods;
    }
    forall id | id in ModuleIdSet(mods) ensures id in ModuleIds(mods) {
      var m :| m in mods && m.id == id;
      var i :| 0 <= i < |mods| && mods[i] == m;
      assert ModuleIds(mods)[i] == id;
    }
  }

  /** The demo users, one per role, with the derived permission sets. */
  lemma UsersTable()
    ensures Users[0].role == SuperAdmin && Users[0].permissions == AllPermissions
    ensures Users[1].role == Admin && Users[1].permissions == AdminPermissions
    ensures Users[2].role == RegularUser && Users[2].permissions == UserPermissions
  {
    DemoUsersShape(AllPermissions, AdminPermissions, UserPermissions);
  }

  lemma DemoUsersShape(all: seq<Permission>, admin: seq<Permission>, user: seq<Permission>)
    ensures var u := DemoUsers(all, admin, user);
      |u| == 3 &&
      u[0].role == SuperAdmin && u[0].permissions == all &&
      u[1].role == Admin && u[1].permissions == admin &&
      u[2].role == RegularUser && u[2].permissions == user
  {
  }

  /** `adminPermissions` covers every module except "users". */
  lemma AdminPermissionsFacts()
    ensures forall id :: id in Covered(AdminPermissions) <==> id in ModuleIds(AppModules) && id != "users"
  {
    AdminCoveredIds(AppModules);
  }

  lemma AdminCoveredIds(mods: seq<AppModule>)
    ensures forall id :: id in Covered(AdminPermissionsOf(mods)) <==> id in ModuleIds(mods) && id != "users"
  {
    AdminPermissionsShape(mods);
    IdSetOfIds(mods);
  }

  /** `userPermissions` covers exactly five modules. */
  lemma UserPermissionsFacts()
    ensures Covered(UserPermissions) == {"dashboard", "invoices", "customers", "products", "reports"}
  {
    UserPermissionsShape(UserModuleIds);
  }

  function UserIds(users: seq<User>): (r: seq<string>)
    ensures |r| == |users| && forall i :: 0 <= i < |users| ==> r[i] == users[i].id
  {
    seq(|users|, i requires 0 <= i < |users| => users[i].id)
  }

  function UserEmails(users: seq<User>): (r: seq<string>)
    ensures |r| == |users| && forall i :: 0 <= i < |users| ==> r[i] == users[i].email
  {
    seq(|users|, i requires 0 <= i < |users| => users[i].email)
  }

  function UserRoles(users: seq<User>): (r: seq<Role>)
    ensures |r| == |users| && forall i :: 0 <= i < |users| ==> r[i] == users[i].role
  {
    seq(|users|, i requires 0 <= i < |users| => users[i].role)
  }

  /** The three demo users have distinct ids and distinct emails, and there
      is exactly one user per role. */
  lemma UsersDistinct()
    ensures Distinct(UserIds(Users))
    ensures Distinct(UserEmails(Users))
    ensures Distinct(UserRoles(Users))
    ensures forall r: Role :: r in UserRoles(Users)
  {
    DemoUsersDistinct(AllPermissions, AdminPermissions, UserPermissions);
  }

  lemma DemoUsersDistinct(all: seq<Permission>, admin: seq<Permission>, user: seq<Permission>)
    ensures Distinct(UserIds(DemoUsers(all, admin, user)))
    ensures Distinct(UserEmails(DemoUsers(all, admin, user)))
    ensures Distinct(UserRoles(DemoUsers(all, admin, user)))
    ensures forall r: Role :: r in UserRoles(DemoUsers(all, admin, user))
  {
    var roles := UserRoles(DemoUsers(all, admin, user));
    assert roles[0] == SuperAdmin && roles[1] == Admin && roles[2] == RegularUser;
    forall r: Role ensures r in roles {
      match r
      case SuperAdmin => assert roles[0] == r;
      case Admin => assert roles[1] == r;
      case RegularUser => assert roles[2] == r;
    }
  }
}

=== FILE: optional.dfy ===
/** The absent-or-present value shared by every module: JavaScript's
    `undefined`/`null` and C#'s `null` on the modelled side. */
module Optional {

  datatype Option<+T> = None | Some(value: T) {

    /** The value, or `default` when absent (JavaScript `??`, C# `??`). */
    function GetOr(default: T): T {
      match this
      case Some(v) => v
      case None => default
    }
  }

  /** JavaScript truthiness of an optional string: absent and `""` are falsy. */
  predicate Truthy(s: Option<string>) {
    s.Some? && s.value != ""
  }
}

=== FILE: paging.dfy ===
/** Offset pagination as the benchmarking API writes it in C#: the offset
    `(page - 1) * limit` in 32-bit `int` arithmetic, then LINQ
    `Skip(offset).Take(limit)` over the rows in the endpoint's sort order. */
module Paging {
  import opened Seqs

  // ---------------------------------------------------------------------
  // C# `int`

  const Int32Min: int := -0x8000_0000
  const Int32Max: int := 0x7fff_ffff
  const TwoTo32: int := 0x1_0000_0000

  predicate IsInt32(n: int) {
    Int32Min <= n <= Int32Max
  }

  /** Unchecked `int` arithmetic: the exact result modulo 2^32, read back as
      a signed value. */
  function Wrap32(n: int): (r: int)
    ensures IsInt32(r)
    ensures (n - r) % TwoTo32 == 0
    ensures IsInt32(n) ==> r == n
  {
    (n - Int32Min) % TwoTo32 + Int32Min
  }

  /** There is exactly one `int` value congruent to `n`, so `Wrap32` is the
      only way to read a wrapped result. */
  lemma Wrap32Unique(n: int, r: int)
    requires IsInt32(r) && (n - r) % TwoTo32 == 0
    ensures r == Wrap32(n)
  {
    var w := Wrap32(n);
    var a := (n - r) / TwoTo32;
    var b := (n - w) / TwoTo32;
    assert n - r == a * TwoTo32;
    assert n - w == b * TwoTo32;
    assert r - w == (b - a) * TwoTo32;
    MultipleInWindow(b - a, r - w);
  }

  /** The only multiple of 2^32 strictly between -2^32 and 2^32 is 0. */
  lemma MultipleInWindow(k: int, m: int)
    requires m == k * TwoTo32 && -TwoTo32 < m < TwoTo32
    ensures m == 0
  {
    if k >= 1 {
      assert false;
    } else if k <= -1 {
      assert false;
    }
  }

  // ---------------------------------------------------------------------
  // the offset

  /** `(page - 1) * limit` as written: both steps in unchecked 32-bit
      arithmetic. */
  function OffsetAsWritten(page: int, limit: int): (r: int)
    requires IsInt32(page) && IsInt32(limit)
    ensures IsInt32(r)
    ensures NoWrap(page, limit) ==> r == (page - 1) * limit
  {
    Wrap32(Wrap32(page - 1) * limit)
  }

  /** Neither step of the as-written offset leaves the `int` range. */
  predicate NoWrap(page: int, limit: int) {
    IsInt32(page - 1) && IsInt32((page - 1) * limit)
  }

  /** The offset as intended: `(page - 1) * limit` computed exactly (it
      fits 64-bit arithmetic, see `ExactOffsetFitsInt64`) and capped to the
      `int` range that `Skip` accepts. */
  function Offset(page: int, limit: int): (r: int)
    requires IsInt32(page) && IsInt32(limit)
    ensures IsInt32(r)
    ensures r <= 0 <==> (page - 1) * limit <= 0
    ensures IsInt32((page - 1) * limit) ==> r == (page - 1) * limit
  {
    var exact := (page - 1) * limit;
    if exact > Int32Max then Int32Max
    else if exact < Int32Min then Int32Min
    else exact
  }

  const Int64Max: int := 0x7fff_ffff_ffff_ffff

  /** The exact offset of two `int` parameters never overflows a `long`. */
  lemma ExactOffsetFitsInt64(page: int, limit: int)
    requires IsInt32(page) && IsInt32(limit)
    ensures -Int64Max <= (page - 1) * limit <= Int64Max
  {
    var a := if page - 1 < 0 then 1 - page else page - 1;
    var b := if limit < 0 then -limit else limit;
    assert a <= 0x8000_0001 && b <= 0x8000_0000;
    MulBound(a, b, 0x8000_0001, 0x8000_0000);
    assert (page - 1) * limit == a * b || (page - 1) * limit == -(a * b);
  }

  lemma MulBound(a: nat, b: nat, x: nat, y: nat)
    requires a <= x && b <= y
    ensures a * b <= x * y
  {
    assert a * b <= x * b;
    assert x * b <= x * y;
  }

  /** The as-written offset agrees with the intended one as long as the
      exact product is an `int`. */
  lemma OffsetAgreesInRange(page: int, limit: int)
    requires IsInt32(page) && IsInt32(limit)
    requires NoWrap(page, limit)
    ensures OffsetAsWritten(page, limit) == Offset(page, limit) == (page - 1) * limit
  {
  }

  /** Page 107374184 of 20 rows: the exact offset 2147483660 exceeds
      `int.MaxValue`, and the 32-bit product wraps to -2147483636, an offset
      that skips nothing. */
  lemma OffsetWraps()
    ensures OffsetAsWritten(107374184, 20) == -2147483636
    ensures Offset(107374184, 20) == Int32Max
    ensures (107374184 - 1) * 20 == 2147483660
  {
    assert Wrap32(107374183 * 20) == -2147483636 by {
      assert 107374183 * 20 == -2147483636 + TwoTo32;
      Wrap32Unique(107374183 * 20, -2147483636);
    }
  }

  // ---------------------------------------------------------------------
  // LINQ

  /** `Enumerable.Skip(n)`: drops the first `n` elements; a count of zero
      or less drops nothing. */
  function Skip<T>(s: seq<T>, n: int): (r: seq<T>)
    ensures |r| <= |s| && r == s[|s| - |r|..]
  {
    if n <= 0 then s else if n >= |s| then [] else s[n..]
  }

  /** `Enumerable.Take(n)`: the first `n` elements; a count of zero or less
      takes nothing. */
  function Take<T>(s: seq<T>, n: int): (r: seq<T>)
    ensures |r| <= |s| && r == s[..|r|]
    ensures |r| <= n || n <= 0
  {
    if n <= 0 then [] else if n >= |s| then s else s[..n]
  }

  // ---------------------------------------------------------------------
  // pages

  /** The `pagination` object and the rows of one page. */
  datatype Paged<T> = Paged(data: seq<T>, page: int, limit: int, total: int)

  function Min(a: int, b: int): int {
    if a <= b then a else b
  }

  /** The `limit` rows from `start` on, as far as there are rows. */
  function Run<T>(rows: seq<T>, start: nat, limit: nat): (w: seq<T>)
    ensures |w| <= limit
  {
    rows[Min(start, |rows|)..Min(start + limit, |rows|)]
  }

  /** Page `page` (counting from 1) of `rows` in pages of `limit` rows: the
      reference the endpoints are measured against. */
  function Window<T>(rows: seq<T>, page: nat, limit: nat): (w: seq<T>)
    requires page >= 1
    ensures |w| <= limit
  {
    Run(rows, (page - 1) * limit, limit)
  }

  /** `query.Skip((page - 1) * limit).Take(limit)` together with
      `pagination = { page, limit, total }`, where `total` counts the rows
      before paging, with the intended offset. */
  function PageOf<T>(rows: seq<T>, page: int, limit: int): (r: Paged<T>)
    requires IsInt32(page) && IsInt32(limit)
    ensures r.page == page && r.limit == limit && r.total == |rows|
    ensures IsSubsequence(r.data, rows)
    ensures limit <= 0 ==> r.data == []
    ensures |rows| <= Int32Max && page >= 1 && limit >= 1 ==> r.data == Window(rows, page, limit)
    ensures page <= 1 && limit >= 1 ==> r.data == rows[..Min(limit, |rows|)]
  {
    var data := Take(Skip(rows, Offset(page, limit)), limit);
    PageData(rows, page, limit, data);
    Paged(data, page, limit, |rows|)
  }

  lemma PageData<T>(rows: seq<T>, page: int, limit: int, data: seq<T>)
    requires IsInt32(page) && IsInt32(limit)
    requires data == Take(Skip(rows, Offset(page, limit)), limit)
    ensures IsSubsequence(data, rows)
    ensures |rows| <= Int32Max && page >= 1 && limit >= 1 ==> data == Window(rows, page, limit)
    ensures page <= 1 && limit >= 1 ==> data == rows[..Min(limit, |rows|)]
  {
    TakeSkipIsSlice(rows, Offset(page, limit), limit);
    if |rows| <= Int32Max && page >= 1 && limit >= 1 {
      InnerPage(rows, page, limit);
    }
    if page <= 1 && limit >= 1 {
      NoOffset(page, limit);
    }
  }

  /** Page 1, and every page number below it, starts at the first row. */
  lemma NoOffset(page: int, limit: int)
    requires IsInt32(page) && IsInt32(limit)
    requires page <= 1 && limit >= 1
    ensures Offset(page, limit) <= 0
  {
    MulBound(0, limit, 1 - page, limit);
    assert (page - 1) * limit == -((1 - page) * limit);
  }

  /** Where `Skip(n)` starts in a sequence of `len` elements. */
  function SkipStart(n: int, len: nat): (from: nat)
    ensures from <= len
  {
    if n <= 0 then 0 else Min(n, len)
  }

  /** Where `Take(m)` ends when it starts at `from`. */
  function TakeEnd(from: nat, m: int, len: nat): (to: nat)
    requires from <= len
    ensures from <= to <= len
  {
    if m <= 0 then from else Min(from + m, len)
  }

  /** `Skip` then `Take` is a contiguous run of the rows, starting where
      `Skip` stopped. */
  lemma TakeSkipIsSlice<T>(rows: seq<T>, n: int, m: int)
    ensures Take(Skip(rows, n), m) == rows[SkipStart(n, |rows|)..TakeEnd(SkipStart(n, |rows|), m, |rows|)]
    ensures IsSubsequence(Take(Skip(rows, n), m), rows)
  {
    var from := SkipStart(n, |rows|);
    var to := TakeEnd(from, m, |rows|);
    SkipIsSuffix(rows, n);
    TakeIsPrefix(rows[from..], m);
    SuffixPrefix(rows, from, m);
    RunIsSubsequence(rows, from, to, Take(Skip(rows, n), m));
  }

  lemma SkipIsSuffix<T>(rows: seq<T>, n: int)
    ensures Skip(rows, n) == rows[SkipStart(n, |rows|)..]
  {
  }

  lemma TakeIsPrefix<T>(s: seq<T>, m: int)
    ensures Take(s, m) == s[..TakeEnd(0, m, |s|)]
  {
  }

  lemma SuffixPrefix<T>(rows: seq<T>, from: nat, m: int)
    requires from <= |rows|
    ensures rows[from..][..TakeEnd(0, m, |rows| - from)] == rows[from..TakeEnd(from, m, |rows|)]
  {
  }

  lemma RunIsSubsequence<T>(rows: seq<T>, from: nat, to: nat, run: seq<T>)
    requires from <= to <= |rows| && run == rows[from..to]
    ensures IsSubsequence(run, rows)
  {
    SliceIsSubsequence(rows, from, to);
  }

  lemma InnerPage<T>(rows: seq<T>, page: int, limit: int)
    requires IsInt32(page) && IsInt32(limit)
    requires |rows| <= Int32Max && page >= 1 && limit >= 1
    ensures Take(Skip(rows, Offset(page, limit)), limit) == Window(rows, page, limit)
  {
    TakeSkipIsSlice(rows, Offset(page, limit), limit);
    OffsetStart(page, limit, |rows|);
  }

  /** For a table that `Count` can report, the capped offset starts where
      the exact one does. */
  lemma OffsetStart(page: int, limit: int, len: nat)
    requires IsInt32(page) && IsInt32(limit)
    requires len <= Int32Max && page >= 1 && limit >= 1
    ensures (page - 1) * limit >= 0
    ensures SkipStart(Offset(page, limit), len) == Min((page - 1) * limit, len)
  {
    var exact := (page - 1) * limit;
    assert exact >= 0 by {
      MulBound(0, 0, page - 1, limit);
    }
  }

  /** The same page with the as-written offset: while the offset does not
      wrap, the window of its number, or the first rows for page 1 or
      below. */
  function PageAsWritten<T>(rows: seq<T>, page: int, limit: int): (r: Paged<T>)
    requires IsInt32(page) && IsInt32(limit)
    ensures r.page == page && r.limit == limit && r.total == |rows|
    ensures IsSubsequence(r.data, rows)
    ensures limit <= 0 ==> r.data == []
    ensures NoWrap(page, limit) && |rows| <= Int32Max && page >= 1 && limit >= 1 ==> r.data == Window(rows, page, limit)
    ensures NoWrap(page, limit) && page <= 1 && limit >= 1 ==> r.data == rows[..Min(limit, |rows|)]
  {
    var data := Take(Skip(rows, OffsetAsWritten(page, limit)), limit);
    TakeSkipIsSlice(rows, OffsetAsWritten(page, limit), limit);
    UnwrappedPage(rows, page, limit, data);
    Paged(data, page, limit, |rows|)
  }

  /** Without a wrap, the as-written rows are the intended page's rows. */
  lemma UnwrappedPage<T>(rows: seq<T>, page: int, limit: int, data: seq<T>)
    requires IsInt32(page) && IsInt32(limit)
    requires data == Take(Skip(rows, OffsetAsWritten(page, limit)), limit)
    ensures NoWrap(page, limit) && |rows| <= Int32Max && page >= 1 && limit >= 1 ==> data == Window(rows, page, limit)
    ensures NoWrap(page, limit) && page <= 1 && limit >= 1 ==> data == rows[..Min(limit, |rows|)]
  {
    if NoWrap(page, limit) {
      OffsetAgreesInRange(page, limit);
      PageData(rows, page, limit, data);
    }
  }

  /** While the offset fits an `int`, the two pages are the same. */
  lemma PageAgreesInRange<T>(rows: seq<T>, page: int, limit: int)
    requires IsInt32(page) && IsInt32(limit)
    requires NoWrap(page, limit)
    ensures PageAsWritten(rows, page, limit) == PageOf(rows, page, limit)
  {
    OffsetAgreesInRange(page, limit);
  }

  /** Past the wrap-around the as-written page is the first page again,
      where the intended page is empty. */
  lemma PageWraps<T>(rows: seq<T>)
    requires 0 < |rows| <= Int32Max
    ensures PageAsWritten(rows, 107374184, 20).data == rows[..Min(20, |rows|)]
    ensures PageOf(rows, 107374184, 20).data == []
  {
    OffsetWraps();
  }

  /** Pages 1 to `n`, one after the other. */
  function PagesUpTo<T>(rows: seq<T>, limit: nat, n: nat): seq<T> {
    if n == 0 then [] else PagesUpTo(rows, limit, n - 1) + Window(rows, n, limit)
  }

  /** Reading pages 1 to `n` in turn visits the first `n * limit` rows, each
      once and in order: no row is skipped or repeated between pages. */
  lemma {:induction false} PagesCover<T>(rows: seq<T>, limit: nat, n: nat)
    ensures PagesUpTo(rows, limit, n) == rows[..Min(n * limit, |rows|)]
  {
    if n > 0 {
      PagesCover(rows, limit, n - 1);
      var a := Min((n - 1) * limit, |rows|);
      var b := Min(n * limit, |rows|);
      assert n * limit == (n - 1) * limit + limit;
      assert rows[..a] + rows[a..b] == rows[..b];
    }
  }

  /** Row `i` is on page `i / limit + 1`, at position `i % limit`. */
  lemma RowOnPage<T>(rows: seq<T>, limit: nat, i: nat)
    requires limit >= 1 && i < |rows|
    ensures i % limit < |Window(rows, i / limit + 1, limit)|
    ensures Window(rows, i / limit + 1, limit)[i % limit] == rows[i]
  {
    var q := i / limit;
    var r := i % limit;
    assert i == q * limit + r;
    assert (q + 1) * limit == q * limit + limit;
  }
}

=== FILE: perf_api.dfy ===
/** The benchmarking API's own logic: the cache keys, tags and entry
    options of the cached endpoints, the product, order and customer
    queries up to the database, the health-check endpoints' selection and
    verdict, the tracing filter, and the correlation-id middleware.

    Each table is given in the order the endpoint's `ORDER BY` produces
    (products and customers by name, orders newest first). Money is counted
    in the smallest currency unit, and times in seconds. */
module PerfApi {
  import opened Optional
  import opened Strings
  import opened Seqs
  import opened Paging

  // ---------------------------------------------------------------------
  // entities

  datatype Product = Product(id: int, name: string, sku: string, category: string, price: int, stockQuantity: int)

  datatype Order = Order(id: int, customerId: int, status: string, total: int, createdAt: int)

  datatype Customer = Customer(id: int, name: string, email: string, company: string)

  /** The three tables, each in its endpoint's sort order. */
  datatype Db = Db(products: seq<Product>, orders: seq<Order>, customers: seq<Customer>)

  /** `string.IsNullOrEmpty`; `None` is a missing query parameter. */
  predicate IsNullOrEmpty(s: Option<string>) {
    s.None? || s.value == ""
  }

  /** Query-string defaults: `int page = 1, int limit = 20`. */
  const DefaultPage: int := 1
  const DefaultLimit: int := 20

  function BindPaging(page: Option<int>, limit: Option<int>): (r: (int, int))
    ensures page.None? ==> r.0 == DefaultPage
    ensures limit.None? ==> r.1 == DefaultLimit
    ensures page.Some? ==> r.0 == page.value
    ensures limit.Some? ==> r.1 == limit.value
  {
    (page.GetOr(DefaultPage), limit.GetOr(DefaultLimit))
  }

  /** With neither parameter, a list endpoint shows the first twenty rows. */
  lemma DefaultPaging<T>(rows: seq<T>)
    ensures var (page, limit) := BindPaging(None, None);
            PageAsWritten(rows, page, limit).data == rows[..Min(20, |rows|)]
  {
  }

  // ---------------------------------------------------------------------
  // products

  function InCategory(c: string): Product -> bool {
    (p: Product) => p.category == c
  }

  /** The category the product list filters on, as written: every
      non-empty category, including "all". */
  function CategoryFilterAsWritten(category: Option<string>): (f: Option<string>)
    ensures f.None? <==> IsNullOrEmpty(category)
    ensures f.Some? ==> f == category
  {
    if IsNullOrEmpty(category) then None else category
  }

  /** The category filter as intended: "all", which the cache key already
      uses for a missing category, also means no filter. */
  function CategoryFilter(category: Option<string>): (f: Option<string>)
    ensures f.None? <==> IsNullOrEmpty(category) || category == Some("all")
    ensures f.Some? ==> f == category
  {
    if IsNullOrEmpty(category) || category == Some("all") then None else category
  }

  function ProductsIn(products: seq<Product>, filter: Option<string>): seq<Product> {
    match filter
    case None => products
    case Some(c) => Filter(products, InCategory(c))
  }

  /** `GET /api/products` as written: the products the written filter
      keeps, counted before paging, and the page of them the 32-bit offset
      selects, which is the page of its number while the offset does not
      wrap. */
  function ListProductsAsWritten(products: seq<Product>, page: int, limit: int, category: Option<string>): (r: Paged<Product>)
    requires IsInt32(page) && IsInt32(limit)
    ensures r.page == page && r.limit == limit
    ensures r.total == |ProductsIn(products, CategoryFilterAsWritten(category))|
    ensures IsSubsequence(r.data, products)
    ensures CategoryFilterAsWritten(category).Some? ==>
              forall k :: 0 <= k < |r.data| ==> r.data[k].category == category.value
    ensures NoWrap(page, limit) && page >= 1 && limit >= 1 && r.total <= Int32Max ==>
              r.data == Window(ProductsIn(products, CategoryFilterAsWritten(category)), page, limit)
  {
    var rows := ProductsIn(products, CategoryFilterAsWritten(category));
    var r := PageAsWritten(rows, page, limit);
    PageOfFiltered(r.data, rows, products, InCategory(CategoryFilterAsWritten(category).GetOr("")));
    r
  }

  /** `GET /api/products` with both corrections: "all" means no filter, and
      the offset does not wrap. The products of the category, counted
      before paging, and the page of its number. */
  function ListProducts(products: seq<Product>, page: int, limit: int, category: Option<string>): (r: Paged<Product>)
    requires IsInt32(page) && IsInt32(limit)
    ensures r.page == page && r.limit == limit
    ensures r.total == |ProductsIn(products, CategoryFilter(category))|
    ensures IsSubsequence(r.data, products)
    ensures CategoryFilter(category).None? ==> r.total == |products|
    ensures CategoryFilter(category).Some? ==>
              r.total <= |products| && forall k :: 0 <= k < |r.data| ==> r.data[k].category == category.value
    ensures page >= 1 && limit >= 1 && r.total <= Int32Max ==>
              r.data == Window(ProductsIn(products, CategoryFilter(category)), page, limit)
  {
    var rows := ProductsIn(products, CategoryFilter(category));
    var r := PageOf(rows, page, limit);
    PageOfFiltered(r.data, rows, products, InCategory(CategoryFilter(category).GetOr("")));
    r
  }

  /** A page of a filtered table lies within the table, and each of its
      rows passes the filter. */
  lemma PageOfFiltered<T>(data: seq<T>, rows: seq<T>, all: seq<T>, p: T -> bool)
    requires IsSubsequence(data, rows)
    requires rows == all || rows == Filter(all, p)
    ensures IsSubsequence(data, all)
    ensures rows == Filter(all, p) ==> forall k :: 0 <= k < |data| ==> p(data[k])
  {
    if rows == Filter(all, p) {
      SubsequenceTransitive(data, rows, all);
      SubsequenceLength(data, rows);
      forall k | 0 <= k < |data| ensures p(data[k]) {
        assert data[k] in rows;
      }
    }
  }

  /** `product is not null ? Ok(product) : NotFound()`. */
  datatype Lookup<T> = Found(value: T) | NotFound {
    function Status(): int {
      if Found? then 200 else 404
    }
  }

  function HasProductId(id: int): Product -> bool {
    (p: Product) => p.id == id
  }

  /** `GET /api/products/{id}`: the first product with that id. */
  function GetProduct(products: seq<Product>, id: int): (r: Lookup<Product>)
    ensures r.NotFound? <==> forall k :: 0 <= k < |products| ==> products[k].id != id
    ensures r.Found? ==> r.value.id == id && r.value in products
  {
    match Find(products, HasProductId(id))
    case Some(p) => Found(p)
    case None => NotFound
  }

  /** A detail endpoint answers 404 exactly when no row has the id, and 200
      with that row otherwise. */
  lemma DetailStatus(products: seq<Product>, orders: seq<Order>, id: int)
    ensures GetProduct(products, id).Status() == 404 <==> forall k :: 0 <= k < |products| ==> products[k].id != id
    ensures GetOrder(orders, id).Status() == 404 <==> forall k :: 0 <= k < |orders| ==> orders[k].id != id
    ensures GetProduct(products, id).Status() == 200 ==> GetProduct(products, id).value.id == id
    ensures GetOrder(orders, id).Status() == 200 ==> GetOrder(orders, id).value.id == id
  {
  }

  // ---------------------------------------------------------------------
  // orders and customers

  function HasStatus(s: string): Order -> bool {
    (o: Order) => o.status == s
  }

  /** The orders the status filter keeps: all of them for a null or empty
      status. */
  function OrdersIn(orders: seq<Order>, status: Option<string>): seq<Order> {
    if IsNullOrEmpty(status) then orders else Filter(orders, HasStatus(status.value))
  }

  /** `GET /api/orders`: filtered by status unless it is null or empty,
      counted before paging, newest first, and the page the 32-bit offset
      selects. */
  function ListOrders(orders: seq<Order>, page: int, limit: int, status: Option<string>): (r: Paged<Order>)
    requires IsInt32(page) && IsInt32(limit)
    ensures r.page == page && r.limit == limit
    ensures r.total == |OrdersIn(orders, status)|
    ensures IsSubsequence(r.data, orders)
    ensures IsNullOrEmpty(status) ==> r.total == |orders|
    ensures !IsNullOrEmpty(status) ==>
              r.total <= |orders| && forall k :: 0 <= k < |r.data| ==> r.data[k].status == status.value
    ensures NoWrap(page, limit) && page >= 1 && limit >= 1 && r.total <= Int32Max ==>
              r.data == Window(OrdersIn(orders, status), page, limit)
  {
    var filter := HasStatus(if IsNullOrEmpty(status) then "" else status.value);
    var rows := OrdersIn(orders, status);
    var r := PageAsWritten(rows, page, limit);
    PageOfFiltered(r.data, rows, orders, filter);
    r
  }

  function HasOrderId(id: int): Order -> bool {
    (o: Order) => o.id == id
  }

  /** `GET /api/orders/{id}`. */
  function GetOrder(orders: seq<Order>, id: int): (r: Lookup<Order>)
    ensures r.NotFound? <==> forall k :: 0 <= k < |orders| ==> orders[k].id != id
    ensures r.Found? ==> r.value.id == id && r.value in orders
  {
    match Find(orders, HasOrderId(id))
    case Some(o) => Found(o)
    case None => NotFound
  }

  /** `GET /api/customers`: every customer counts, and the page the 32-bit
      offset selects. */
  function ListCustomers(customers: seq<Customer>, page: int, limit: int): (r: Paged<Customer>)
    requires IsInt32(page) && IsInt32(limit)
    ensures r.page == page && r.limit == limit && r.total == |customers|
    ensures IsSubsequence(r.data, customers)
    ensures NoWrap(page, limit) && page >= 1 && limit >= 1 && r.total <= Int32Max ==>
              r.data == Window(customers, page, limit)
  {
    PageAsWritten(customers, page, limit)
  }

  // ---------------------------------------------------------------------
  // stats

  const Completed: string := "completed"

  /** `db.Orders.Where(o => o.Status == "completed").Sum(o => o.Total)`. */
  function Revenue(orders: seq<Order>): int {
    if |orders| == 0 then 0
    else (if orders[0].status == Completed then orders[0].total else 0) + Revenue(orders[1..])
  }

  /** Revenue adds up over any split of the orders. */
  lemma {:induction false} RevenueAppend(a: seq<Order>, b: seq<Order>)
    ensures Revenue(a + b) == Revenue(a) + Revenue(b)
  {
    if |a| > 0 {
      assert (a + b)[1..] == a[1..] + b;
      RevenueAppend(a[1..], b);
    } else {
      assert a + b == b;
    }
  }

  /** Only completed orders count: dropping every other order changes
      nothing. */
  lemma {:induction false} RevenueOfCompleted(orders: seq<Order>)
    ensures Revenue(Filter(orders, HasStatus(Completed))) == Revenue(orders)
  {
    if |orders| > 0 {
      RevenueOfCompleted(orders[1..]);
      var rest := Filter(orders[1..], HasStatus(Completed));
      if orders[0].status == Completed {
        assert Filter(orders, HasStatus(Completed)) == [orders[0]] + rest;
        assert ([orders[0]] + rest)[1..] == rest;
      } else {
        assert Filter(orders, HasStatus(Completed)) == rest;
      }
    }
  }

  datatype Stats = Stats(products: int, orders: int, customers: int, revenue: int, timestamp: int)

  /** `GET /api/stats` computed at time `now`. */
  function DashboardStats(db: Db, now: int): (s: Stats)
    ensures s.products == |db.products| && s.orders == |db.orders| && s.customers == |db.customers|
    ensures s.revenue == Revenue(Filter(db.orders, HasStatus(Completed)))
    ensures s.timestamp == now
  {
    RevenueOfCompleted(db.orders);
    Stats(|db.products|, |db.orders|, |db.customers|, Revenue(db.orders), now)
  }

  // ---------------------------------------------------------------------
  // the cached endpoints

  /** A request to one of the three endpoints that go through the cache. */
  datatype CachedRequest =
    | ProductList(page: int, limit: int, category: Option<string>)
    | ProductDetail(id: int)
    | DashboardStatsRequest
  {
    predicate Valid() {
      match this
      case ProductList(page, limit, _) => IsInt32(page) && IsInt32(limit)
      case ProductDetail(id) => IsInt32(id)
      case DashboardStatsRequest => true
    }
  }

  const ListKeyHead: string := "products:page:"
  const DetailKeyHead: string := "product:"
  const StatsKey: string := "dashboard:stats"

  /** `$"products:page:{page}:limit:{limit}:cat:{category ?? "all"}"`. */
  function ListKey(page: int, limit: int, category: Option<string>): string {
    ListKeyHead + ListKeyFields(IntToString(page), IntToString(limit), category.GetOr("all"))
  }

  function ListKeyFields(page: string, limit: string, category: string): string {
    page + ":limit:" + limit + ":cat:" + category
  }

  /** The fields of a list key, each ended by the first `:` after it. */
  lemma FieldsSplit(a: string, b: string, c: string)
    ensures ListKeyFields(a, b, c) == a + [':'] + ("limit:" + (b + [':'] + ("cat:" + c)))
  {
    assert ":limit:" == [':'] + "limit:";
    assert ":cat:" == [':'] + "cat:";
  }

  /** Printed integers contain no `:`, so the fields of a list key are
      read back unambiguously. */
  lemma FieldsInjective(a1: string, b1: string, c1: string, a2: string, b2: string, c2: string)
    requires ':' !in a1 && ':' !in b1 && ':' !in a2 && ':' !in b2
    requires ListKeyFields(a1, b1, c1) == ListKeyFields(a2, b2, c2)
    ensures a1 == a2 && b1 == b2 && c1 == c2
  {
    FieldsSplit(a1, b1, c1);
    FieldsSplit(a2, b2, c2);
    SplitAtFirst(a1, "limit:" + (b1 + [':'] + ("cat:" + c1)), a2, "limit:" + (b2 + [':'] + ("cat:" + c2)), ':');
    DropCommonPrefix("limit:", b1 + [':'] + ("cat:" + c1), b2 + [':'] + ("cat:" + c2));
    SplitAtFirst(b1, "cat:" + c1, b2, "cat:" + c2, ':');
    DropCommonPrefix("cat:", c1, c2);
  }

  /** `$"product:{id}"`. */
  function DetailKey(id: int): string {
    DetailKeyHead + IntToString(id)
  }

  function CacheKey(q: CachedRequest): string {
    match q
    case ProductList(page, limit, category) => ListKey(page, limit, category)
    case ProductDetail(id) => DetailKey(id)
    case DashboardStatsRequest => StatsKey
  }

  /** Requests the keys cannot tell apart: a missing category is written as
      "all". */
  function KeyClass(q: CachedRequest): CachedRequest {
    match q
    case ProductList(page, limit, category) => ProductList(page, limit, Some(category.GetOr("all")))
    case _ => q
  }

  /** The list key is made of its three parts: equal keys mean equal page,
      equal limit and equal category, once a missing category is read as
      "all". */
  lemma ListKeyInjective(p1: int, l1: int, c1: Option<string>, p2: int, l2: int, c2: Option<string>)
    ensures ListKey(p1, l1, c1) == ListKey(p2, l2, c2) <==>
              p1 == p2 && l1 == l2 && c1.GetOr("all") == c2.GetOr("all")
  {
    if ListKey(p1, l1, c1) == ListKey(p2, l2, c2) {
      var f1 := ListKeyFields(IntToString(p1), IntToString(l1), c1.GetOr("all"));
      var f2 := ListKeyFields(IntToString(p2), IntToString(l2), c2.GetOr("all"));
      DropCommonPrefix(ListKeyHead, f1, f2);
      FieldsInjective(IntToString(p1), IntToString(l1), c1.GetOr("all"), IntToString(p2), IntToString(l2), c2.GetOr("all"));
      IntToStringInjective(p1, p2);
      IntToStringInjective(l1, l2);
    }
  }

  /** Distinct ids give distinct detail keys. */
  lemma DetailKeyInjective(a: int, b: int)
    ensures DetailKey(a) == DetailKey(b) <==> a == b
  {
    if DetailKey(a) == DetailKey(b) {
      DropCommonPrefix(DetailKeyHead, IntToString(a), IntToString(b));
      IntToStringInjective(a, b);
    }
  }

  /** A detail key never equals a list key: the eighth character is `:` in
      one and `s` in the other. */
  lemma DetailNotList(id: int, page: int, limit: int, category: Option<string>)
    ensures DetailKey(id) != ListKey(page, limit, category)
    ensures DetailKey(id)[7] == ':' && ListKey(page, limit, category)[7] == 's'
  {
    HeadsDiffer(IntToString(id), ListKeyFields(IntToString(page), IntToString(limit), category.GetOr("all")));
  }

  lemma HeadsDiffer(id: string, fields: string)
    ensures (DetailKeyHead + id)[7] == ':'
    ensures (ListKeyHead + fields)[7] == 's'
  {
  }

  /** The stats key is neither kind of product key. */
  lemma StatsKeyApart(id: int, page: int, limit: int, category: Option<string>)
    ensures StatsKey != DetailKey(id) && StatsKey != ListKey(page, limit, category)
  {
    assert DetailKey(id)[0] == 'p';
    assert ListKey(page, limit, category)[0] == 'p';
  }

  /** Two cached requests share a key exactly when they are the same
      request up to the missing-category spelling. */
  lemma CacheKeyIff(a: CachedRequest, b: CachedRequest)
    ensures CacheKey(a) == CacheKey(b) <==> KeyClass(a) == KeyClass(b)
  {
    match a {
      case ProductList(p1, l1, c1) =>
        match b {
          case ProductList(p2, l2, c2) => ListKeyInjective(p1, l1, c1, p2, l2, c2);
          case ProductDetail(id) => DetailNotList(id, p1, l1, c1);
          case DashboardStatsRequest => StatsKeyApart(0, p1, l1, c1);
        }
      case ProductDetail(i1) =>
        match b {
          case ProductList(p2, l2, c2) => DetailNotList(i1, p2, l2, c2);
          case ProductDetail(i2) => DetailKeyInjective(i1, i2);
          case DashboardStatsRequest => StatsKeyApart(i1, 0, 0, None);
        }
      case DashboardStatsRequest =>
        match b {
          case ProductList(p2, l2, c2) => StatsKeyApart(0, p2, l2, c2);
          case ProductDetail(i2) => StatsKeyApart(i2, 0, 0, None);
          case DashboardStatsRequest =>
        }
    }
  }

  const ProductsTag: string := "products"
  const StatsTag: string := "stats"

  /** The tags each cached entry carries. */
  function Tags(q: CachedRequest): seq<string> {
    match q
    case ProductList(_, _, _) => [ProductsTag]
    case ProductDetail(_) => [ProductsTag]
    case DashboardStatsRequest => [StatsTag]
  }

  /** Invalidating the "products" tag drops both product endpoints' entries
      and keeps the stats; invalidating "stats" does the opposite. */
  lemma TagsSeparateEndpoints(q: CachedRequest)
    ensures ProductsTag in Tags(q) <==> !q.DashboardStatsRequest?
    ensures StatsTag in Tags(q) <==> q.DashboardStatsRequest?
    ensures |Tags(q)| == 1
  {
  }

  /** `HybridCacheEntryOptions`, in seconds. */
  datatype EntryOptions = EntryOptions(expiration: nat, localCacheExpiration: nat)

  const DefaultEntryOptions: EntryOptions := EntryOptions(5 * 60, 1 * 60)
  const StatsEntryOptions: EntryOptions := EntryOptions(1 * 60, 30)

  /** The options each cached entry is stored with. */
  function OptionsFor(q: CachedRequest): EntryOptions {
    if q.DashboardStatsRequest? then StatsEntryOptions else DefaultEntryOptions
  }

  /** No entry outlives its distributed copy in the local tier, every entry
      expires, and stats expire sooner than products. */
  lemma ExpirationsOrdered(q: CachedRequest)
    ensures 0 < OptionsFor(q).localCacheExpiration <= OptionsFor(q).expiration
    ensures OptionsFor(q).expiration <= DefaultEntryOptions.expiration
    ensures q.DashboardStatsRequest? <==> OptionsFor(q).expiration < DefaultEntryOptions.expiration
  {
  }

  /** What a cached endpoint stores under its key. */
  datatype CachedValue =
    | ProductPage(listing: Paged<Product>)
    | ProductEntry(product: Lookup<Product>)
    | StatsEntry(stats: Stats)

  /** The value the factory computes for a request, with the category
      filter as written. */
  function ComputeAsWritten(db: Db, now: int, q: CachedRequest): CachedValue
    requires q.Valid()
  {
    match q
    case ProductList(page, limit, category) => ProductPage(ListProductsAsWritten(db.products, page, limit, category))
    case ProductDetail(id) => ProductEntry(GetProduct(db.products, id))
    case DashboardStatsRequest => StatsEntry(DashboardStats(db, now))
  }

  /** The value with the intended category filter. */
  function Compute(db: Db, now: int, q: CachedRequest): CachedValue
    requires q.Valid()
  {
    match q
    case ProductList(page, limit, category) => ProductPage(ListProducts(db.products, page, limit, category))
    case ProductDetail(id) => ProductEntry(GetProduct(db.products, id))
    case DashboardStatsRequest => StatsEntry(DashboardStats(db, now))
  }

  /** With the intended filter, a cache key determines the value: a
      request answered from another request's entry gets what it would
      have computed itself. */
  lemma KeyDeterminesValue(db: Db, now: int, a: CachedRequest, b: CachedRequest)
    requires a.Valid() && b.Valid()
    requires CacheKey(a) == CacheKey(b)
    ensures Compute(db, now, a) == Compute(db, now, b)
  {
    CacheKeyIff(a, b);
    if a.ProductList? {
      assert CategoryFilter(a.category) == CategoryFilter(b.category);
    }
  }

  /** As written, a product list without a category and one for the
      category "all" share a key but not a value: for a table holding one
      product of another category, one counts one product, the other none.
      Whichever request fills the entry first decides what the other gets
      until it expires. */
  lemma CategoryKeyCollision(p: Product, page: int, limit: int)
    requires IsInt32(page) && IsInt32(limit)
    requires p.category != "all"
    ensures CacheKey(ProductList(page, limit, None)) == CacheKey(ProductList(page, limit, Some("all")))
    ensures ListProductsAsWritten([p], page, limit, None).total == 1
    ensures ListProductsAsWritten([p], page, limit, Some("all")).total == 0
    ensures ComputeAsWritten(Db([p], [], []), 0, ProductList(page, limit, None))
         != ComputeAsWritten(Db([p], [], []), 0, ProductList(page, limit, Some("all")))
  {
    assert Filter([p], InCategory("all")) == [] by {
      assert !InCategory("all")(p);
      assert [p][1..] == [];
    }
  }

  // ---------------------------------------------------------------------
  // health checks

  /** `HealthStatus`, worst first. */
  datatype HealthStatus = Unhealthy | Degraded | Healthy {
    function Rank(): nat {
      match this
      case Unhealthy => 0
      case Degraded => 1
      case Healthy => 2
    }
  }

  datatype HealthCheck = HealthCheck(name: string, tags: seq<string>)

  const Critical: string := "critical"

  /** The registered checks: `AddNpgSql` and `AddRedis`. */
  const Registered: seq<HealthCheck> := [
    HealthCheck("postgresql", ["database", Critical]),
    HealthCheck("redis", ["cache", Critical])
  ]

  /** `/healthz`, `/healthz/ready` and `/healthz/live`. */
  datatype HealthEndpoint = Healthz | Ready | Live

  /** Each endpoint's `Predicate`; `/healthz` has none and runs every check. */
  function Selects(e: HealthEndpoint): HealthCheck -> bool {
    match e
    case Healthz => (c: HealthCheck) => true
    case Ready => (c: HealthCheck) => Critical in c.tags
    case Live => (c: HealthCheck) => false
  }

  function Selected(e: HealthEndpoint, checks: seq<HealthCheck>): seq<HealthCheck> {
    Filter(checks, Selects(e))
  }

  /** The report's overall status: the worst of the entries, `Healthy` when
      there are none. */
  function Aggregate(statuses: seq<HealthStatus>): (r: HealthStatus)
    ensures forall k :: 0 <= k < |statuses| ==> r.Rank() <= statuses[k].Rank()
    ensures r == Healthy || r in statuses
  {
    if |statuses| == 0 then Healthy
    else
      var rest := Aggregate(statuses[1..]);
      if statuses[0].Rank() <= rest.Rank() then statuses[0] else rest
  }

  /** The endpoint's verdict when each check `c` reports `observed(c)`. */
  function Report(e: HealthEndpoint, checks: seq<HealthCheck>, observed: HealthCheck -> HealthStatus): (r: HealthStatus)
    ensures r == Healthy <==> forall c :: c in Selected(e, checks) ==> observed(c) == Healthy
    ensures r == Unhealthy <==> exists c :: c in Selected(e, checks) && observed(c) == Unhealthy
  {
    var sel := Selected(e, checks);
    AggregateOf(sel, observed);
    Aggregate(StatusesOf(sel, observed))
  }

  function StatusesOf(sel: seq<HealthCheck>, observed: HealthCheck -> HealthStatus): (st: seq<HealthStatus>)
    ensures |st| == |sel| && forall i :: 0 <= i < |sel| ==> st[i] == observed(sel[i])
  {
    seq(|sel|, i requires 0 <= i < |sel| => observed(sel[i]))
  }

  /** The worst status is `Healthy` exactly when every check is healthy,
      and `Unhealthy` exactly when some check is. */
  lemma AggregateOf(sel: seq<HealthCheck>, observed: HealthCheck -> HealthStatus)
    ensures var r := Aggregate(StatusesOf(sel, observed));
            && (r == Healthy <==> forall c :: c in sel ==> observed(c) == Healthy)
            && (r == Unhealthy <==> exists c :: c in sel && observed(c) == Unhealthy)
  {
    var st := StatusesOf(sel, observed);
    var r := Aggregate(st);
    forall c | c in sel ensures r.Rank() <= observed(c).Rank() {
      var i :| 0 <= i < |sel| && sel[i] == c;
      assert st[i] == observed(c);
    }
    if r != Healthy {
      var i :| 0 <= i < |st| && st[i] == r;
      assert sel[i] in sel;
    }
  }

  /** The response code: 503 for `Unhealthy`, 200 otherwise. */
  function HttpStatus(s: HealthStatus): int {
    if s == Unhealthy then 503 else 200
  }

  /** Readiness runs exactly the checks tagged "critical". */
  lemma ReadySelectsCritical(checks: seq<HealthCheck>, c: HealthCheck)
    ensures c in Selected(Ready, checks) <==> c in checks && Critical in c.tags
  {
    if c in checks && Critical in c.tags {
      var i :| 0 <= i < |checks| && checks[i] == c;
      assert Selects(Ready)(checks[i]);
    }
  }

  /** Liveness runs no check and so answers 200 whatever the database and
      Redis report. */
  lemma LiveAlwaysHealthy(checks: seq<HealthCheck>, observed: HealthCheck -> HealthStatus)
    ensures Selected(Live, checks) == []
    ensures Report(Live, checks, observed) == Healthy
    ensures HttpStatus(Report(Live, checks, observed)) == 200
  {
  }

  /** Both registered checks are critical, so readiness runs them all and
      agrees with `/healthz`. */
  lemma ReadyIsFull(observed: HealthCheck -> HealthStatus)
    ensures Selected(Ready, Registered) == Registered
    ensures Selected(Healthz, Registered) == Registered
    ensures Report(Ready, Registered, observed) == Report(Healthz, Registered, observed)
  {
    assert Critical in Registered[0].tags && Critical in Registered[1].tags;
    FilterAll(Registered, Selects(Ready));
    FilterAll(Registered, Selects(Healthz));
  }

  // ---------------------------------------------------------------------
  // tracing

  /** `PathString.StartsWithSegments`: the whole path, or the path followed
      by `/`, compared case-insensitively. */
  predicate StartsWithSegments(path: string, other: string) {
    ToLower(path) == ToLower(other) || IsPrefix(ToLower(other) + "/", ToLower(path))
  }

  /** The ASP.NET Core instrumentation's filter: health and metrics
      requests are not traced. */
  predicate Traced(path: string) {
    !StartsWithSegments(path, "/healthz") && !StartsWithSegments(path, "/metrics")
  }

  /** Anything below `/healthz` or `/metrics`, in any mix of cases, goes
      untraced. */
  lemma UntracedBelow(p: string, rest: string)
    requires ToLower(p) == "/healthz/" || ToLower(p) == "/metrics/"
    ensures !Traced(p + rest)
  {
    ToLowerAppend(p, rest);
    var low := ToLower(p + rest);
    assert low[..9] == ToLower(p);
    if ToLower(p) == "/healthz/" {
      assert IsPrefix(ToLower("/healthz") + "/", low);
    } else {
      assert IsPrefix(ToLower("/metrics") + "/", low);
    }
  }

  /** The health and metrics endpoints themselves go untraced, in any
      case. */
  lemma UntracedEndpoints(p: string)
    requires ToLower(p) == "/healthz" || ToLower(p) == "/metrics"
    ensures !Traced(p)
  {
  }

  /** The application's own API is traced, and so is a path that merely
      begins with the letters of `/healthz`. */
  lemma TracedPaths(rest: string)
    ensures Traced("/api/" + rest)
    ensures Traced("/healthzz" + rest)
  {
    var api := "/api/" + rest;
    ToLowerAppend("/api/", rest);
    assert ToLower(api)[1] == 'a';
    assert ToLower("/healthz")[1] == 'h' && ToLower("/metrics")[1] == 'm';
    assert (ToLower("/healthz") + "/")[1] == 'h' && (ToLower("/metrics") + "/")[1] == 'm';
    var hz := "/healthzz" + rest;
    ToLowerAppend("/healthzz", rest);
    assert ToLower(hz)[8] == 'z' && ToLower(hz)[1] == 'h';
    assert (ToLower("/healthz") + "/")[8] == '/';
  }

  // ---------------------------------------------------------------------
  // correlation id

  const CorrelationHeader: string := "X-Correlation-ID"

  /** The middleware's effect: the response header it sets and the log
      property it pushes for the rest of the request. */
  datatype Correlated = Correlated(responseHeader: string, logProperty: string)

  /** `Headers["X-Correlation-ID"].FirstOrDefault() ?? TraceIdentifier`,
      for the request's header values in order. */
  function Correlate(values: seq<string>, traceIdentifier: string): (c: Correlated)
    ensures c.responseHeader == c.logProperty
    ensures |values| > 0 ==> c.responseHeader == values[0]
    ensures |values| == 0 ==> c.responseHeader == traceIdentifier
  {
    var id := if |values| > 0 then values[0] else traceIdentifier;
    Correlated(id, id)
  }

  /** A service that forwards the id it echoed keeps the id across hops,
      whatever trace identifier the next hop has; an empty header value
      is kept too, since only a missing header falls back. */
  lemma CorrelationPropagates(values: seq<string>, t1: string, t2: string)
    ensures Correlate([Correlate(values, t1).responseHeader], t2) == Correlate(values, t1)
    ensures Correlate([""], t2).responseHeader == ""
    ensures Correlate(values, t1).responseHeader == t1 || Correlate(values, t1).responseHeader in values
  {
  }
}

=== FILE: seqs.dfy ===
/** Sequence operations the program takes from its runtime (JavaScript's
    `Array.prototype.filter`, `slice`, `find`) and the order-preserving
    subsequence relation used to state what a filter keeps. */
module Seqs {
  import opened Optional

  /** `a` can be obtained from `b` by deleting elements, keeping order. */
  predicate IsSubsequence<T(==)>(a: seq<T>, b: seq<T>)
    decreases |b|
  {
    if |a| == 0 then true
    else if |b| == 0 then false
    else if a[0] == b[0] then IsSubsequence(a[1..], b[1..])
    else IsSubsequence(a, b[1..])
  }

  lemma {:induction false} SubsequenceLength<T>(a: seq<T>, b: seq<T>)
    requires IsSubsequence(a, b)
    ensures |a| <= |b|
    ensures forall x :: x in a ==> x in b
    decreases |b|
  {
    if |a| > 0 {
      if a[0] == b[0] {
        SubsequenceLength(a[1..], b[1..]);
        assert a == [a[0]] + a[1..];
      } else {
        SubsequenceLength(a, b[1..]);
      }
    }
  }

  /** A subsequence of `b` is also one of `b` with an element put in front. */
  lemma {:induction false} SubsequenceCons<T>(a: seq<T>, x: T, b: seq<T>)
    requires IsSubsequence(a, b)
    ensures IsSubsequence(a, [x] + b)
    decreases |b|, 1
  {
    assert ([x] + b)[1..] == b;
    if |a| > 0 && a[0] == x {
      SubsequenceTail(a, b);
    }
  }

  /** Dropping the first element of a subsequence keeps it a subsequence. */
  lemma {:induction false} SubsequenceTail<T>(a: seq<T>, b: seq<T>)
    requires |a| > 0 && IsSubsequence(a, b)
    ensures IsSubsequence(a[1..], b)
    decreases |b|, 0
  {
    assert |b| > 0;
    assert b == [b[0]] + b[1..];
    if a[0] == b[0] {
      SubsequenceCons(a[1..], b[0], b[1..]);
    } else {
      SubsequenceTail(a, b[1..]);
      SubsequenceCons(a[1..], b[0], b[1..]);
    }
  }

  lemma {:induction false} SubsequenceTransitive<T>(a: seq<T>, b: seq<T>, c: seq<T>)
    requires IsSubsequence(a, b) && IsSubsequence(b, c)
    ensures IsSubsequence(a, c)
    decreases |c|
  {
    if |a| > 0 {
      SubsequenceLength(a, b);
      SubsequenceLength(b, c);
      assert c == [c[0]] + c[1..];
      if b[0] == c[0] {
        if a[0] == b[0] {
          SubsequenceTransitive(a[1..], b[1..], c[1..]);
        } else {
          SubsequenceTransitive(a, b[1..], c[1..]);
          SubsequenceCons(a, c[0], c[1..]);
        }
      } else {
        SubsequenceTransitive(a, b, c[1..]);
        SubsequenceCons(a, c[0], c[1..]);
      }
    }
  }

  /** `s.filter(p)`: the elements satisfying `p`, in their original order. */
  function Filter<T(==)>(s: seq<T>, p: T -> bool): (r: seq<T>)
    ensures forall k :: 0 <= k < |r| ==> r[k] in s && p(r[k])
    ensures forall k :: 0 <= k < |s| && p(s[k]) ==> s[k] in r
    ensures IsSubsequence(r, s)
    ensures |r| <= |s|
    ensures |r| == |s| <==> forall k :: 0 <= k < |s| ==> p(s[k])
  {
    if |s| == 0 then []
    else
      var rest := Filter(s[1..], p);
      assert s == [s[0]] + s[1..];
      if p(s[0]) then
        assert ([s[0]] + rest)[1..] == rest;
        [s[0]] + rest
      else
        assert |rest| < |s|;
        rest
  }

  /** Filtering twice with the same predicate changes nothing the second time. */
  lemma FilterIdempotent<T>(s: seq<T>, p: T -> bool)
    ensures Filter(Filter(s, p), p) == Filter(s, p)
  {
    var r := Filter(s, p);
    assert forall k :: 0 <= k < |r| ==> p(r[k]) by {
      forall k | 0 <= k < |r| ensures p(r[k]) {
        assert r[k] in r;
      }
    }
    FilterAll(r, p);
  }

  lemma {:induction false} FilterAll<T>(s: seq<T>, p: T -> bool)
    requires forall k :: 0 <= k < |s| ==> p(s[k])
    ensures Filter(s, p) == s
  {
    if |s| > 0 {
      FilterAll(s[1..], p);
      assert s == [s[0]] + s[1..];
    }
  }

  /** A filter that rejects only the last element drops just that one. */
  lemma {:induction false} FilterDropsLast<T>(s: seq<T>, p: T -> bool)
    requires |s| > 0 && !p(s[|s| - 1])
    requires forall k :: 0 <= k < |s| - 1 ==> p(s[k])
    ensures Filter(s, p) == s[..|s| - 1]
  {
    var t := s[1..];
    if |s| > 1 {
      assert Filter(t, p) == t[..|t| - 1] by {
        assert t[|t| - 1] == s[|s| - 1];
        forall k | 0 <= k < |t| - 1 ensures p(t[k]) {
          assert t[k] == s[k + 1];
        }
        FilterDropsLast(t, p);
      }
      assert Filter(s, p) == [s[0]] + Filter(t, p) by {
        assert p(s[0]);
        FilterStep(s, p);
      }
      assert [s[0]] + t[..|t| - 1] == s[..|s| - 1];
    } else {
      FilterStep(s, p);
      assert Filter(t, p) == [];
    }
  }

  /** One step of `Filter`: the first element's fate, then the rest. */
  lemma FilterStep<T>(s: seq<T>, p: T -> bool)
    requires |s| > 0
    ensures Filter(s, p) == (if p(s[0]) then [s[0]] else []) + Filter(s[1..], p)
  {
  }

  /** The filter keeps every copy of an element that passes and no copy of
      one that fails. */
  lemma {:induction false} FilterMultiplicity<T>(s: seq<T>, p: T -> bool)
    ensures forall x :: multiset(Filter(s, p))[x] == if p(x) then multiset(s)[x] else 0
  {
    if |s| > 0 {
      FilterMultiplicity(s[1..], p);
      FilterStep(s, p);
      MultiplicityStep(s[0], s[1..], s, Filter(s[1..], p), Filter(s, p), p);
    }
  }

  /** Putting `x` in front, and keeping it exactly when it passes, keeps
      the count of every element in step. */
  lemma MultiplicityStep<T>(x: T, rest: seq<T>, whole: seq<T>, kept: seq<T>, keptWhole: seq<T>, p: T -> bool)
    requires |whole| > 0 && whole[0] == x && whole[1..] == rest
    requires keptWhole == (if p(x) then [x] else []) + kept
    requires forall y :: multiset(kept)[y] == if p(y) then multiset(rest)[y] else 0
    ensures forall y :: multiset(keptWhole)[y] == if p(y) then multiset(whole)[y] else 0
  {
    assert whole == [x] + rest;
    assert multiset(whole) == multiset{x} + multiset(rest);
    assert multiset(keptWhole) == (if p(x) then multiset{x} else multiset{}) + multiset(kept);
  }

  /** Filtering a concatenation filters each part. */
  lemma {:induction false} FilterAppend<T>(a: seq<T>, b: seq<T>, p: T -> bool)
    ensures Filter(a + b, p) == Filter(a, p) + Filter(b, p)
  {
    if |a| > 0 {
      var x, t := a[0], a[1..];
      var head := if p(x) then [x] else [];
      assert (a + b)[0] == x && (a + b)[1..] == t + b;
      FilterStep(a + b, p);
      FilterStep(a, p);
      FilterAppend(t, b, p);
      HeadAssoc(Filter(a + b, p), Filter(a, p), Filter(t + b, p), Filter(t, p), Filter(b, p), head);
    } else {
      assert a + b == b;
    }
  }

  /** The common head of two sequences stays in front when the second is
      extended. */
  lemma HeadAssoc<T>(whole: seq<T>, left: seq<T>, wholeRest: seq<T>, leftRest: seq<T>, right: seq<T>, head: seq<T>)
    requires whole == head + wholeRest && left == head + leftRest && wholeRest == leftRest + right
    ensures whole == left + right
  {
  }

  /** The positions of `s` whose element passes `p`. */
  function Passing<T>(s: seq<T>, p: T -> bool): set<nat> {
    set k: nat | k < |s| && p(s[k])
  }

  /** The filter keeps exactly one element per passing position. */
  lemma {:induction false} FilterCountsPassing<T>(s: seq<T>, p: T -> bool)
    ensures |Filter(s, p)| == |Passing(s, p)|
  {
    if |s| > 0 {
      var n := |s| - 1;
      var t, x := s[..n], s[n];
      FilterCountsPassing(t, p);
      FilterLast(s, p);
      CountStep(t, x, s, Filter(t, p), Filter(s, p), p);
    }
  }

  /** Filtering a non-empty sequence: the filtered front, then the last
      element if it passes. */
  lemma FilterLast<T>(s: seq<T>, p: T -> bool)
    requires |s| > 0
    ensures Filter(s, p) == Filter(s[..|s| - 1], p) + (if p(s[|s| - 1]) then [s[|s| - 1]] else [])
  {
    var x := s[|s| - 1];
    assert s == s[..|s| - 1] + [x];
    FilterAppend(s[..|s| - 1], [x], p);
    assert Filter([x], p) == if p(x) then [x] else [] by {
      assert [x][1..] == [];
      FilterStep([x], p);
    }
  }

  /** Appending `x`, and keeping it exactly when it passes, adds one kept
      element exactly when it adds one passing position. */
  lemma CountStep<T>(t: seq<T>, x: T, s: seq<T>, kept: seq<T>, keptAll: seq<T>, p: T -> bool)
    requires |s| > 0 && t == s[..|s| - 1] && x == s[|s| - 1]
    requires keptAll == kept + (if p(x) then [x] else [])
    requires |kept| == |Passing(t, p)|
    ensures |keptAll| == |Passing(s, p)|
  {
    var n := |t|;
    assert Passing(s, p) == Passing(t, p) + (if p(x) then {n} else {}) by {
      assert s[n] == x;
      forall k: nat | k < n ensures s[k] == t[k] {
      }
    }
    assert n !in Passing(t, p);
  }

  /** A subsequence of a filtered list is one of the list, and satisfies
      the filter's predicate throughout. */
  lemma SubsequenceOfFilter<T>(s: seq<T>, p: T -> bool, data: seq<T>)
    requires IsSubsequence(data, Filter(s, p))
    ensures IsSubsequence(data, s)
    ensures forall k :: 0 <= k < |data| ==> p(data[k])
  {
    var r := Filter(s, p);
    SubsequenceTransitive(data, r, s);
    SubsequenceLength(data, r);
    forall k | 0 <= k < |data| ensures p(data[k]) {
      assert data[k] in r;
    }
  }

  /** Two filters in a row keep what satisfies both. */
  lemma {:induction false} FilterCompose<T>(s: seq<T>, p: T -> bool, q: T -> bool, both: T -> bool)
    requires forall x :: both(x) == (p(x) && q(x))
    ensures Filter(Filter(s, p), q) == Filter(s, both)
  {
    if |s| > 0 {
      FilterCompose(s[1..], p, q, both);
      var rest := Filter(s[1..], p);
      if p(s[0]) {
        assert ([s[0]] + rest)[1..] == rest;
      }
    }
  }

  /** `s.find(p)`: the first element satisfying `p`, if any. */
  function Find<T>(s: seq<T>, p: T -> bool): (r: Option<T>)
    ensures r.None? <==> forall k :: 0 <= k < |s| ==> !p(s[k])
    ensures r.Some? ==> exists k :: 0 <= k < |s| && s[k] == r.value && p(s[k])
                          && forall j :: 0 <= j < k ==> !p(s[j])
  {
    if |s| == 0 then None
    else if p(s[0]) then Some(s[0])
    else
      var r := Find(s[1..], p);
      assert r.Some? ==> exists k :: 1 <= k < |s| && s[k] == r.value && p(s[k])
                          && forall j :: 0 <= j < k ==> !p(s[j]) by {
        if r.Some? {
          var k :| 0 <= k < |s[1..]| && s[1..][k] == r.value && p(s[1..][k])
                   && forall j :: 0 <= j < k ==> !p(s[1..][j]);
          assert s[k + 1] == r.value;
          forall j | 0 <= j < k + 1 ensures !p(s[j]) {
            if j > 0 {
              assert s[j] == s[1..][j - 1];
            }
          }
        }
      }
      r
  }

  /** JavaScript `Array.prototype.slice(start, end)`: a negative index counts
      from the end, and both indices are clamped to the array. */
  function JsSlice<T(==)>(s: seq<T>, start: int, end: int): (r: seq<T>)
    ensures |r| <= |s|
    ensures 0 <= start <= end <= |s| ==> r == s[start..end]
    ensures IsSubsequence(r, s)
  {
    var from := ClampIndex(start, |s|);
    var to := ClampIndex(end, |s|);
    if from >= to then [] else SliceIsSubsequence(s, from, to); s[from..to]
  }

  /** A contiguous slice is a subsequence. */
  lemma {:induction false} SliceIsSubsequence<T>(s: seq<T>, i: nat, j: nat)
    requires i <= j <= |s|
    ensures IsSubsequence(s[i..j], s)
  {
    if i < j {
      SliceIsSubsequence(s[1..], if i == 0 then 0 else i - 1, j - 1);
      if i == 0 {
        assert s[1..][0..j - 1] == s[i..j][1..];
      } else {
        assert s[1..][i - 1..j - 1] == s[i..j];
        SubsequenceCons(s[i..j], s[0], s[1..]);
        assert [s[0]] + s[1..] == s;
      }
    }
  }

  /** `slice(start, end)` returns at most `end - start` elements; when
      `end < start` it returns none unless `start` counts from the front and
      `end` from the back. */
  lemma JsSliceLength<T>(s: seq<T>, start: int, end: int)
    ensures start <= end ==> |JsSlice(s, start, end)| <= end - start
    ensures end <= start && (start < 0 || 0 <= end) ==> |JsSlice(s, start, end)| == 0
    ensures 0 <= start && end < 0 && start < |s| + end ==> |JsSlice(s, start, end)| == |s| + end - start
    ensures 0 <= start && end < 0 && |s| + end <= start ==> |JsSlice(s, start, end)| == 0
  {
  }

  /** The index `slice` actually uses for a relative index `i`. */
  function ClampIndex(i: int, len: nat): (r: nat)
    ensures r <= len
    ensures 0 <= i <= len ==> r == i
  {
    if i < 0 then (if len + i < 0 then 0 else len + i)
    else if i > len then len
    else i
  }
}

=== FILE: strings.dfy ===
/** String operations the program takes from its runtime: JavaScript's
    `startsWith`, `includes`, `replace`, `split`, `join`, `toLowerCase`,
    `toUpperCase`, and C#'s decimal formatting of an `int` in an
    interpolated string. Case mapping is ASCII-only. */
module Strings {
  import opened Optional

  /** `s.startsWith(p)`. */
  predicate IsPrefix(p: string, s: string) {
    |p| <= |s| && s[..|p|] == p
  }

  /** `pat` occurs in `s` starting at index `i`. */
  predicate OccursAt(s: string, pat: string, i: int) {
    0 <= i && i + |pat| <= |s| && s[i..i + |pat|] == pat
  }

  /** The first occurrence of `pat` in `s` at or after `from`. */
  function IndexOfFrom(s: string, pat: string, from: nat): (r: Option<nat>)
    decreases |s| - from
    ensures r.Some? ==> from <= r.value && OccursAt(s, pat, r.value)
    ensures r.Some? ==> forall j :: from <= j < r.value ==> !OccursAt(s, pat, j)
    ensures r.None? <==> forall j :: from <= j ==> !OccursAt(s, pat, j)
  {
    if from + |pat| > |s| then None
    else if s[from..from + |pat|] == pat then
      assert OccursAt(s, pat, from);
      Some(from)
    else IndexOfFrom(s, pat, from + 1)
  }

  /** `s.indexOf(pat)`, with `None` for -1. */
  function IndexOf(s: string, pat: string): Option<nat> {
    IndexOfFrom(s, pat, 0)
  }

  /** `s.includes(pat)`. */
  predicate Contains(s: string, pat: string) {
    IndexOf(s, pat).Some?
  }

  lemma ContainsIffOccurs(s: string, pat: string)
    ensures Contains(s, pat) <==> exists i :: OccursAt(s, pat, i)
  {
  }

  /** `pat` occurs at `i` and nowhere before it. */
  predicate FirstAt(s: string, pat: string, i: int) {
    OccursAt(s, pat, i) && forall j :: 0 <= j < i ==> !OccursAt(s, pat, j)
  }

  /** `s.replace(pat, rep)` with a string pattern: only the first occurrence
      is replaced, and `s` is returned as is when there is none. */
  function ReplaceFirst(s: string, pat: string, rep: string): (r: string)
    ensures !Contains(s, pat) ==> r == s
    ensures forall i :: FirstAt(s, pat, i) ==> r == s[..i] + rep + s[i + |pat|..]
  {
    match IndexOf(s, pat)
    case None => s
    case Some(i) => s[..i] + rep + s[i + |pat|..]
  }

  /** Removing a pattern from the front of `pat + t` gives back `t`. */
  lemma ReplacePrefixRemoves(pat: string, t: string)
    ensures ReplaceFirst(pat + t, pat, "") == t
  {
    assert OccursAt(pat + t, pat, 0) by {
      assert (pat + t)[0..|pat|] == pat;
    }
    assert (pat + t)[|pat|..] == t;
  }

  // ---------------------------------------------------------------------
  // ASCII case mapping

  function LowerChar(c: char): char {
    if 'A' <= c <= 'Z' then (c as int + 32) as char else c
  }

  function UpperChar(c: char): char {
    if 'a' <= c <= 'z' then (c as int - 32) as char else c
  }

  /** `s.toLowerCase()` for ASCII text: each upper-case letter becomes its
      lower-case letter, every other character is kept, and no upper-case
      letter is left. */
  function ToLower(s: string): (r: string)
    ensures |r| == |s|
    ensures forall i :: 0 <= i < |s| ==> r[i] == LowerChar(s[i])
    ensures forall i :: 0 <= i < |s| && 'A' <= s[i] <= 'Z' ==> r[i] as int == s[i] as int + 32 && 'a' <= r[i] <= 'z'
    ensures forall i :: 0 <= i < |s| && !('A' <= s[i] <= 'Z') ==> r[i] == s[i]
    ensures forall i :: 0 <= i < |r| ==> !('A' <= r[i] <= 'Z')
  {
    seq(|s|, i requires 0 <= i < |s| => LowerChar(s[i]))
  }

  /** Lower-casing works character by character, so it distributes over
      concatenation. */
  lemma ToLowerAppend(a: string, b: string)
    ensures ToLower(a + b) == ToLower(a) + ToLower(b)
  {
  }

  /** `s.toUpperCase()` for ASCII text. */
  function ToUpper(s: string): (r: string)
    ensures |r| == |s|
    ensures forall i :: 0 <= i < |s| ==> r[i] == UpperChar(s[i])
  {
    seq(|s|, i requires 0 <= i < |s| => UpperChar(s[i]))
  }

  /** Lower-casing forgets the case a string was written in. */
  lemma LowerForgetsCase(s: string)
    ensures ToLower(ToUpper(s)) == ToLower(s)
    ensures ToLower(ToLower(s)) == ToLower(s)
  {
  }

  // ---------------------------------------------------------------------
  // split / join on a one-character separator

  /** `words.join(sep)`. */
  function Join(words: seq<string>, sep: char): string {
    if |words| == 0 then ""
    else if |words| == 1 then words[0]
    else words[0] + [sep] + Join(words[1..], sep)
  }

  /** `s.split(sep)`: at least one piece, empty pieces kept, and joining the
      pieces again gives back `s`. */
  function Split(s: string, sep: char): (words: seq<string>)
    ensures |words| >= 1
    ensures forall k :: 0 <= k < |words| ==> sep !in words[k]
    ensures Join(words, sep) == s
  {
    if |s| == 0 then [""]
    else
      var rest := Split(s[1..], sep);
      if s[0] == sep then
        assert Join([""] + rest, sep) == [sep] + Join(rest, sep) by {
          assert ([""] + rest)[1..] == rest;
        }
        assert s == [s[0]] + s[1..];
        [""] + rest
      else
        var first := [s[0]] + rest[0];
        assert Join([first] + rest[1..], sep) == [s[0]] + Join(rest, sep) by {
          assert ([first] + rest[1..])[1..] == rest[1..];
        }
        assert s == [s[0]] + s[1..];
        [first] + rest[1..]
  }

  lemma {:induction false} SplitOfWord(w: string, sep: char)
    requires sep !in w
    ensures Split(w, sep) == [w]
  {
    if |w| > 0 {
      assert sep !in w[1..] by {
        forall k | 0 <= k < |w[1..]| ensures w[1..][k] != sep {
          assert w[1..][k] == w[k + 1];
        }
      }
      SplitOfWord(w[1..], sep);
      assert [w[0]] + w[1..] == w;
    }
  }

  lemma {:induction false} SplitOfWordThenSep(w: string, sep: char, t: string)
    requires sep !in w
    ensures Split(w + [sep] + t, sep) == [w] + Split(t, sep)
  {
    var s := w + [sep] + t;
    if |w| == 0 {
      assert s[0] == sep;
      assert s[1..] == t;
    } else {
      assert sep !in w[1..] by {
        forall k | 0 <= k < |w[1..]| ensures w[1..][k] != sep {
          assert w[1..][k] == w[k + 1];
        }
      }
      SplitOfWordThenSep(w[1..], sep, t);
      assert s[1..] == w[1..] + [sep] + t;
      assert s[0] == w[0] != sep;
      assert [w[0]] + w[1..] == w;
    }
  }

  /** The other half of the round trip: splitting a join of separator-free
      words gives the words back. */
  lemma {:induction false} SplitJoin(words: seq<string>, sep: char)
    requires |words| >= 1
    requires forall k :: 0 <= k < |words| ==> sep !in words[k]
    ensures Split(Join(words, sep), sep) == words
  {
    if |words| == 1 {
      SplitOfWord(words[0], sep);
    } else {
      SplitJoin(words[1..], sep);
      SplitOfWordThenSep(words[0], sep, Join(words[1..], sep));
      assert [words[0]] + words[1..] == words;
    }
  }

  /** In `a + [c] + b` with no `c` in `a`, the first `c` is at `|a|`. */
  lemma FirstSeparatorAt(a: string, b: string, c: char)
    requires c !in a
    ensures IndexOf(a + [c] + b, [c]) == Some(|a|)
  {
    var s := a + [c] + b;
    assert OccursAt(s, [c], |a|) by {
      assert s[|a|..|a| + 1] == [c];
    }
    forall j | 0 <= j < |a|
      ensures !OccursAt(s, [c], j)
    {
      assert s[j..j + 1] == [a[j]];
    }
  }

  /** If `a + [c] + b == x + [c] + y` and neither `a` nor `x` contains `c`,
      the two splits at the first `c` agree. */
  lemma SplitAtFirst(a: string, b: string, x: string, y: string, c: char)
    requires c !in a && c !in x
    requires a + [c] + b == x + [c] + y
    ensures a == x && b == y
  {
    var s := a + [c] + b;
    FirstSeparatorAt(a, b, c);
    FirstSeparatorAt(x, y, c);
    assert a == s[..|a|];
    assert x == s[..|x|];
    assert b == s[|a| + 1..];
    assert y == s[|x| + 1..];
  }

  lemma DropCommonPrefix(p: string, a: string, b: string)
    requires p + a == p + b
    ensures a == b
  {
    assert a == (p + a)[|p|..];
    assert b == (p + b)[|p|..];
  }

  // ---------------------------------------------------------------------
  // decimal formatting of integers

  function DigitChar(d: nat): char
    requires d < 10
  {
    "0123456789"[d]
  }

  predicate IsDigit(c: char) {
    '0' <= c <= '9'
  }

  function DigitValue(c: char): nat
    requires IsDigit(c)
  {
    c as int - '0' as int
  }

  /** Decimal digits of `n`, most significant first, no leading zeros. */
  function NatToString(n: nat): (r: string)
    ensures |r| >= 1
    ensures forall k :: 0 <= k < |r| ==> IsDigit(r[k])
  {
    if n < 10 then [DigitChar(n)]
    else NatToString(n / 10) + [DigitChar(n % 10)]
  }

  /** C# `int.ToString()` in the invariant culture: a minus sign, then the
      digits of the magnitude. */
  function IntToString(n: int): (r: string)
    ensures |r| >= 1
    ensures ':' !in r
    ensures (r[0] == '-') <==> n < 0
  {
    if n < 0 then "-" + NatToString(-n) else NatToString(n)
  }

  /** Reads back a string of decimal digits. */
  function ParseNat(s: string): nat
    requires forall k :: 0 <= k < |s| ==> IsDigit(s[k])
  {
    if |s| == 0 then 0
    else ParseNat(s[..|s| - 1]) * 10 + DigitValue(s[|s| - 1])
  }

  function ParseInt(s: string): int
    requires |s| >= 1
    requires forall k :: 1 <= k < |s| ==> IsDigit(s[k])
    requires s[0] == '-' || IsDigit(s[0])
  {
    if s[0] == '-' then -(ParseNat(s[1..]) as int) else ParseNat(s)
  }

  lemma {:induction false} ParseNatToString(n: nat)
    ensures ParseNat(NatToString(n)) == n
  {
    if n >= 10 {
      ParseNatToString(n / 10);
      var s := NatToString(n / 10) + [DigitChar(n % 10)];
      assert s[..|s| - 1] == NatToString(n / 10);
    }
  }

  lemma ParseIntToString(n: int)
    ensures ParseInt(IntToString(n)) == n
  {
    var s := IntToString(n);
    if n < 0 {
      var m: nat := -n;
      var t := NatToString(m);
      assert s == "-" + t;
      assert ParseInt(s) == -(ParseNat(t) as int) by { ParseSigned(s, t); }
      assert ParseNat(t) == m by { ParseNatToString(m); }
    } else {
      assert s == NatToString(n);
      assert ParseNat(s) == n by { ParseNatToString(n); }
    }
  }

  /** A minus sign followed by digits reads as the negated digits. */
  lemma ParseSigned(s: string, t: string)
    requires |t| >= 1 && forall k :: 0 <= k < |t| ==> IsDigit(t[k])
    requires s == "-" + t
    ensures |s| >= 1 && s[0] == '-' && forall k :: 1 <= k < |s| ==> IsDigit(s[k])
    ensures ParseInt(s) == -(ParseNat(t) as int)
  {
    assert s[1..] == t;
  }

  /** Distinct integers print differently. */
  lemma IntToStringInjective(m: int, n: int)
    requires IntToString(m) == IntToString(n)
    ensures m == n
  {
    ParseIntToString(m);
    ParseIntToString(n);
  }
}

=== FILE: types.dfy ===
/** The records of the permission system and the demo data: roles, per-module
    permission flags, users, application modules, the two-level menu and
    invoices. Timestamps and ids are kept as the strings `mock-data.ts` writes. */
module Types {
  import opened Optional

  datatype Role = SuperAdmin | Admin | RegularUser {
    /** The role's spelling in `types.ts` (`"superadmin" | "admin" | "user"`). */
    function Name(): string {
      match this
      case SuperAdmin => "superadmin"
      case Admin => "admin"
      case RegularUser => "user"
    }
  }

  /** What one user may do in one module. */
  datatype Permission = Permission(
    moduleId: string,
    canView: bool,
    canCreate: bool,
    canEdit: bool,
    canDelete: bool,
    canExport: bool,
    canManageUsers: bool)

  /** The boolean keys of `Permission`, i.e. the actions `canPerform` asks about. */
  datatype Action = View | Create | Edit | Delete | Export | ManageUsers

  /** `perm[action]`. */
  function Flag(p: Permission, a: Action): bool {
    match a
    case View => p.canView
    case Create => p.canCreate
    case Edit => p.canEdit
    case Delete => p.canDelete
    case Export => p.canExport
    case ManageUsers => p.canManageUsers
  }

  datatype User = User(
    id: string,
    email: string,
    name: string,
    role: Role,
    avatar: Option<string>,
    permissions: seq<Permission>,
    createdAt: string,
    lastLogin: string)

  datatype ModuleCategory = Finance | Warehouse | Reporting | System

  datatype AppModule = AppModule(
    id: string,
    name: string,
    description: string,
    icon: string,
    category: ModuleCategory)

  /** A navigation entry: a leaf links to a page, a group (`children` present,
      possibly empty) holds further entries. */
  datatype MenuItem = MenuItem(
    id: string,
    caption: string,  // `label` in `types.ts`
    icon: string,
    href: Option<string>,
    moduleId: Option<string>,
    children: Option<seq<MenuItem>>)

  datatype InvoiceStatus = Draft | Sent | Paid | Overdue | Cancelled {
    function Name(): string {
      match this
      case Draft => "draft"
      case Sent => "sent"
      case Paid => "paid"
      case Overdue => "overdue"
      case Cancelled => "cancelled"
    }
  }

  /** The invoice fields the list endpoint reads; amounts, dates and line
      items ride along unchanged and are not modelled. */
  datatype Invoice = Invoice(
    id: string,
    number: string,
    customer: string,
    status: InvoiceStatus)
}

=== FILE: users_route.dfy ===
/** `GET /api/v1/users`: only the admin and superadmin API keys are let
    through, and each user is returned without the permission list, which is
    replaced by the number of modules the user may view. */
module UsersRoute {
  import opened Optional
  import opened Types
  import opened Seqs
  import opened ApiKey
  import MockData

  const AdminApiKeys: seq<string> := ["demo-key-superadmin-001", "demo-key-admin-002"]
  const MissingKeyError: string := "Missing API key."
  const ForbiddenKeyError: string := "Insufficient permissions. Admin or SuperAdmin API key required."

  function ValidateApiKey(h: Headers): KeyCheck {
    CheckApiKey(h, AdminApiKeys, MissingKeyError, ForbiddenKeyError)
  }

  /** The fields of a user the endpoint discloses. */
  datatype SafeUser = SafeUser(
    id: string,
    email: string,
    name: string,
    role: Role,
    moduleCount: nat,
    lastLogin: string)

  datatype UsersResponse =
    | Unauthorized(error: string)
    | Listed(data: seq<SafeUser>)
  {
    function Status(): int {
      if Unauthorized? then 401 else 200
    }
  }

  function CanViewIt(p: Permission): bool {
    p.canView
  }

  /** `permissions.filter(p => p.canView).length`: the number of
      permissions that grant viewing. */
  function ModuleCount(perms: seq<Permission>): (n: nat)
    ensures n == |Passing(perms, CanViewIt)|
    ensures n <= |perms|
    ensures n == |perms| <==> forall k :: 0 <= k < |perms| ==> perms[k].canView
    ensures n == 0 <==> forall k :: 0 <= k < |perms| ==> !perms[k].canView
  {
    NoneViewable(perms);
    FilterCountsPassing(perms, CanViewIt);
    |Filter(perms, CanViewIt)|
  }

  /** The filter is empty exactly when no permission grants viewing. */
  lemma NoneViewable(perms: seq<Permission>)
    ensures |Filter(perms, CanViewIt)| == 0 <==> forall k :: 0 <= k < |perms| ==> !perms[k].canView
  {
    var viewable := Filter(perms, CanViewIt);
    if |viewable| > 0 {
      assert viewable[0] in perms && viewable[0].canView;
    }
  }

  /** One entry of `safeUsers`. */
  function SafeUserOf(u: User): (s: SafeUser)
    ensures s.id == u.id && s.email == u.email && s.name == u.name && s.role == u.role
    ensures s.lastLogin == u.lastLogin
    ensures s.moduleCount == |Passing(u.permissions, CanViewIt)| <= |u.permissions|
  {
    SafeUser(u.id, u.email, u.name, u.role, ModuleCount(u.permissions), u.lastLogin)
  }

  /** The handler: 401 with the check's message, otherwise every user, in
      table order, reduced to its safe fields. */
  function ListUsers(h: Headers, users: seq<User>): (r: UsersResponse)
    ensures r.Unauthorized? <==> ValidateApiKey(h).Rejected?
    ensures r.Unauthorized? ==> r.error == ValidateApiKey(h).error
    ensures r.Listed? ==> |r.data| == |users|
    ensures r.Listed? ==> forall i :: 0 <= i < |users| ==> r.data[i] == SafeUserOf(users[i])
    ensures r.Listed? ==> forall i :: 0 <= i < |users| ==>
              && r.data[i].id == users[i].id && r.data[i].email == users[i].email
              && r.data[i].name == users[i].name && r.data[i].role == users[i].role
              && r.data[i].lastLogin == users[i].lastLogin
              && r.data[i].moduleCount == |Passing(users[i].permissions, CanViewIt)|
  {
    match ValidateApiKey(h)
    case Rejected(e) => Unauthorized(e)
    case Accepted => Listed(seq(|users|, i requires 0 <= i < |users| => SafeUserOf(users[i])))
  }

  /** Every listed entry describes one user of the table, found by id when
      the ids are distinct. */
  lemma ListedUsersAreTableUsers(h: Headers, users: seq<User>, i: nat)
    requires ListUsers(h, users).Listed?
    requires MockData.Distinct(MockData.UserIds(users))
    requires i < |ListUsers(h, users).data|
    ensures AuthStoreFindsSame(users, ListUsers(h, users).data[i])
  {
    var s := ListUsers(h, users).data[i];
    var ids := MockData.UserIds(users);
    forall j | 0 <= j < |users| && users[j].id == s.id ensures j == i {
      assert ids[j] == ids[i];
    }
  }

  /** The only user with the entry's id has the entry's email, role and
      number of viewable modules. */
  predicate AuthStoreFindsSame(users: seq<User>, s: SafeUser) {
    exists i :: 0 <= i < |users| && users[i].id == s.id
      && users[i].email == s.email && users[i].role == s.role
      && s.moduleCount == ModuleCount(users[i].permissions)
      && forall j :: 0 <= j < |users| && users[j].id == s.id ==> j == i
  }

  /** The regular user's key is known to the invoice endpoint but refused
      here with the insufficient-permissions message; the two admin keys
      pass. */
  lemma OnlyAdminKeysPass(empty: Option<string>)
    requires !Truthy(empty)
    ensures ValidateApiKey(Headers(Some("demo-key-user-003"), None)) == Rejected(ForbiddenKeyError)
    ensures ValidateApiKey(Headers(empty, Some(BearerPrefix + "demo-key-superadmin-001"))) == Accepted
    ensures ValidateApiKey(Headers(Some("demo-key-admin-002"), None)) == Accepted
  {
    ListedKeyAccepted("demo-key-superadmin-001", AdminApiKeys, MissingKeyError, ForbiddenKeyError, None, empty);
    ListedKeyAccepted("demo-key-admin-002", AdminApiKeys, MissingKeyError, ForbiddenKeyError, None, empty);
  }

  /** The demo users can view 8, 7 and 5 modules: every permission they
      hold grants viewing. */
  lemma DemoModuleCounts()
    ensures ModuleCount(MockData.AllPermissions) == 8
    ensures ModuleCount(MockData.AdminPermissions) == 7
    ensures ModuleCount(MockData.UserPermissions) == 5
  {
    AllViewable(MockData.AppModules, MockData.UserModuleIds);
    AdminCount();
  }

  /** Whatever the module list, the superadmin's, admin's and regular
      user's sets grant viewing in every entry. */
  lemma AllViewable(mods: seq<AppModule>, ids: seq<string>)
    ensures ModuleCount(MockData.AllPermissionsOf(mods)) == |mods|
    ensures ModuleCount(MockData.AdminPermissionsOf(mods)) == |MockData.AdminPermissionsOf(mods)|
    ensures ModuleCount(MockData.UserPermissionsOf(ids)) == |ids|
  {
    MockData.AllPermissionsShape(mods);
    var a := MockData.AllPermissionsOf(mods);
    forall k | 0 <= k < |a| ensures a[k].canView {
      assert Flag(a[k], View);
    }
    MockData.AdminPermissionsShape(mods);
    var d := MockData.AdminPermissionsOf(mods);
    forall k | 0 <= k < |d| ensures d[k].canView {
      assert d[k] in d;
    }
    MockData.UserPermissionsShape(ids);
    var u := MockData.UserPermissionsOf(ids);
    forall k | 0 <= k < |u| ensures u[k].canView {
      assert u[k] in u;
    }
  }

  /** The admin set drops exactly one of the eight modules. */
  lemma AdminCount()
    ensures |MockData.AdminPermissions| == 7
  {
    var mods := MockData.AppModules;
    var p := (m: AppModule) => m.id != "users";
    MockData.ModuleIdList();
    assert forall k :: 0 <= k < |mods| - 1 ==> p(mods[k]) by {
      var ids := MockData.ModuleIds(mods);
      assert ids[0] != "users" && ids[1] != "users" && ids[2] != "users" && ids[3] != "users";
      assert ids[4] != "users" && ids[5] != "users" && ids[6] != "users";
    }
    FilterDropsLast(mods, p);
  }
}
